=== FILE: README.md ===
# vaco constraint validation, modelled in Dafny

vaco brings the HTML constraint validation API to forms and their controls
using custom, possibly asynchronous constraints. This project models its core
as pure Dafny functions and a few loop-based methods, and proves properties of
that model:

- **`Api`** covers the per-control part of `lib/api.ts`. It models the
  validity state object, the validation message bag, and the operations on
  them: `setValidity`, `resetValidity`, `setCustomValidity`,
  `getValidationMessage`, `checkValidity` and `reportValidity`. A coherence
  invariant ties `valid`, the set flags and the stored messages together.
- **`Aggregate`** covers `staticallyValidate` and `interactivelyValidate`:
  the events they fire, the reporter calls, and the verdict (`true`, or the
  unhandled invalid controls).
- **`Utils`** covers the element predicates, the filters and
  `getSubmitButton`/`getSubmitter` of `lib/utils.ts`.
- **`Constraint`** covers the registry queries of `lib/constraint.ts`.
- **`Validator`** covers the per-control validation closure of
  `lib/validator.ts`: reset, `validate` gating events, invocation, and the
  single `validated` event. It also covers the closure cache of
  `createValidator`.
- **`Observer`** covers the observed-element set and the mutation callback of
  `lib/observer.ts`.
- **`Control`** and **`Form`** cover installing and removing the API on a
  control (`lib/control.ts`) and on a form (`lib/form.ts`). The DOM-side
  effects they cause are recorded in the `Host` record (`host.dfy`). `Form`
  also holds the submit guard.
- **`Core`** covers `mount`/`unmount` and `create` of `lib/core.ts`.
- **`Index`** covers `patch`/`reset` and `create` of `lib/index.ts`.
- **`Draft`**, **`DraftFilters`** and **`DraftValidity`** model the earlier
  draft under `src/`: its constraint validation API, its submittable-element
  filter and its default validity state. Each is compared with the `lib/`
  version.

Elements are records in a `Dom` map. An element's `elements` collection lists
only descendants, so `height` strictly decreases along it; this is what makes
the mount/patch recursion terminate. Event cancellation by listeners is an
oracle `Cancels(target, event)`. The `validity.valid` that the form algorithms
read is an oracle `Id -> bool`. Anything that may throw returns an `Outcome`
(`Done` or `TypeError`).

Three features of the source shape the model:

- **Validator cache.** `createValidator` keeps a single plain object as its
  cache, shared by every control (lib/validator.ts:62). Its key is
  `getAttributeNames().toString()` (lib/validator.ts:65-66), which depends on
  attribute order and carries no control identity. `key in cache` (line 69)
  also sees the properties every object inherits from `Object.prototype`.
  All of this is modelled as written; the consequences are listed under
  Findings.
- **Two engines.** `lib/core.ts` and `lib/index.ts` are two versions of the
  engine:
  - `lib/core.ts` imports `createControlApi`, `setupControl`,
    `teardownControl`, `createFormApi`, `setupForm`, `submitGuard` and
    `teardownForm` (lib/core.ts:7-8), which `lib/control.ts` and
    `lib/form.ts` do not export. It also calls `createValidator` with two
    arguments (lib/core.ts:142), while lib/validator.ts:61 takes three. Its
    adapter calls are therefore recorded as a trace of actions.
  - `lib/index.ts` calls `validator.updateAndRun` (lib/index.ts:49,80) and
    imports `createAttributeObserver` (lib/index.ts:11), which
    lib/validator.ts and lib/observer.ts do not define. That call is recorded
    as a run request on the host.
- **Submit guard.** lib/form.ts:21-23 skips validation when the submitter's
  `formNoValidate`, or the first submit button's, or the form's `noValidate`
  is set. The model follows it as written, and Findings explains why the
  first-button clause is probably not intended.

## Model

| member | source | states |
|---|---|---|
| Utils.IsListedElement | lib/utils.ts:93-101 | an HTML element with one of the seven listed tags, or whose constructor declares formAssociated |
| Utils.IsSubmittableElement | lib/utils.ts:113-119 | an HTML element with one of the five submittable tags, or whose constructor declares formAssociated |
| Utils.IsSubmitButton | lib/utils.ts:126-130 | a button of type submit, or an input of type submit or image |
| Utils.SubmittableIsListed | lib/utils.ts:93-119 | every submittable element is also a listed element |
| Utils.ListedTags | lib/utils.ts:93-119 | without formAssociated: fieldset and output are listed but not submittable; the five other tags are both; listed means exactly one of the seven tags |
| Utils.FormAssociatedIsSubmittable | lib/utils.ts:113-119 | any HTML element whose constructor declares formAssociated (whatever the value) is listed and submittable |
| Utils.SubmitButtonIsSubmittable | lib/utils.ts:113-130 | a submit button is a submittable element, and neither a form nor a fieldset |
| Utils.FilterSubmitButtons | lib/utils.ts:137-139 | the result holds only submit buttons of the input, and every submit button of the input |
| Utils.FilterSubmittableElements | lib/utils.ts:147-149 | the result holds only submittable elements of the input, and all of them |
| Utils.FiltersKeepOrder | lib/utils.ts:137-149 | both filters distribute over concatenation, so relative order is kept |
| Utils.GetSubmitButton | lib/utils.ts:156-158 | none exactly when no element is a submit button; otherwise the first submit button in the collection |
| Utils.GetSubmittableElements | lib/utils.ts:165-167 | exactly the submittable elements of the collection |
| Utils.GetSubmitter | lib/utils.ts:182-191 | the focused element exactly when it is a submit button whose form is this form, otherwise none |
| Api.CreateValidityState | lib/api.ts:33-39 | defines exactly the given flags plus customError and valid; every flag is false; valid is true and consistent unless a flag is itself named valid |
| Api.Put | lib/api.ts:115 | the key maps to the message; other keys are unchanged; a new key is appended; an existing key keeps its position |
| Api.Delete | lib/api.ts:117 | the key is gone; other keys are unchanged and keep their order |
| Api.Revalidate | lib/api.ts:121-125 | valid becomes true exactly when no other own property is true; the other properties are unchanged |
| Api.ApplyFlag | lib/api.ts:111-119 | one forEach step: the flag takes the value; a message is stored exactly when the value is true and a message is given, otherwise deleted |
| Api.ApplyFlagsValidity | lib/api.ts:111-119 | after the forEach every passed flag has its value and the flags not passed keep theirs |
| Api.ApplyFlagsMessages | lib/api.ts:111-119 | after the forEach each passed flag has the message exactly when its value is true; other messages are untouched |
| Api.ApplyFlagsFirst | lib/api.ts:111-119 | the first stored message stays first when the call does not mention its flag |
| Api.SetValidity | lib/api.ts:99-126 | no effect when the control will not validate; TypeError exactly for a true flag without a non-empty message; otherwise flags and messages as passed, other flags kept, valid recomputed from every flag |
| Api.ClearFlags | lib/api.ts:135-138 | the listed flags become false and lose their messages; everything else is unchanged |
| Api.ResetValidity | lib/api.ts:134-145 | the listed flags are false without messages, the others are kept, and valid is recomputed |
| Api.SetCustomValidity | lib/api.ts:154-156 | never throws; customError becomes "the message is non-empty" and valid is recomputed; no effect when the control will not validate |
| Api.CustomFlags | lib/api.ts:155 | the flags object has the single key customError, holding whether the message is non-empty |
| Api.GetValidationMessage | lib/api.ts:66-68 | empty when the control will not validate or no message exists; otherwise the message of the earliest-inserted key (the bag's first entry), which is what a lookup of that key finds |
| Api.PutKeepsEarliest | lib/api.ts:66-68 | storing a message changes the validation message only when the bag was empty or the key is the earliest one; otherwise the earliest message stays |
| Api.ApplyFlags | lib/api.ts:111-119 | the forEach over the flags object, one ApplyFlag step per entry in order; what it does is stated by ApplyFlagsValidity, ApplyFlagsMessages and ApplyFlagsFirst |
| Api.CreateCoherent | lib/api.ts:33-39 | a fresh state with an empty bag satisfies the coherence invariant |
| Api.SetValidityCoherent | lib/api.ts:99-126 | setValidity keeps coherence: valid iff no flag set, each set flag has a non-empty message, each message belongs to a set flag |
| Api.ResetValidityCoherent | lib/api.ts:134-145 | resetValidity keeps coherence |
| Api.SetCustomValidityCoherent | lib/api.ts:154-156 | setCustomValidity keeps coherence |
| Api.CoherentMessage | lib/api.ts:66-68 | for a coherent control, valid holds exactly when the validation message is empty |
| Api.FirstMessageKept | lib/api.ts:111-119 | a setValidity that does not mention the first message's flag leaves the validation message unchanged |
| Api.CheckValidity | lib/api.ts:48-58 | false exactly for a validating invalid control; one invalid or valid event accordingly; no report |
| Api.ReportValidity | lib/api.ts:79-93 | same result and event as checkValidity; the reporter is called exactly when that event is not cancelled |
| Aggregate.StaticallyValidate | lib/api.ts:233-266 | valid events for valid controls in order, then the form event, then invalid events; verdict true iff no validating control is invalid, else the invalid controls whose event was not cancelled; no reports |
| Aggregate.InteractivelyValidate | lib/api.ts:178-218 | valid events and reports for uncancelled valid controls, then invalid events and reports, then the form event; same verdict as staticallyValidate |
| Aggregate.Partition | lib/api.ts:184-194 | splits the validating controls into valid and invalid ones, in document order |
| Aggregate.Dispatch | lib/api.ts:196-207 | one event per control in order; a report for each control whose event is not cancelled |
| Aggregate.PassingMembers | lib/api.ts:184-194 | a control is in the valid list exactly when it is a validating, valid member |
| Aggregate.FailingMembers | lib/api.ts:184-194 | a control is in the invalid list exactly when it is a validating, invalid member |
| Aggregate.UncancelledMembers | lib/api.ts:202-207 | the reported controls are exactly the listed ones whose event was not cancelled |
| Aggregate.PartitionCount | lib/api.ts:184-194 | the two lists together have exactly as many entries as there are validating controls |
| Aggregate.BarredIgnored | lib/api.ts:185-187 | inserting a control that will not validate changes neither list |
| Aggregate.UnhandledAreInvalid | lib/api.ts:259-263 | an id is unhandled exactly when it is a validating invalid control whose invalid event was not cancelled |
| Aggregate.AllValidIff | lib/api.ts:251-255 | the verdict is true exactly when no validating control is invalid |
| Aggregate.UncancelledSubsequence | lib/api.ts:259-263 | the unhandled list is no longer than the invalid list, and has no duplicates when that list has none |
| Aggregate.EventsCount | lib/api.ts:196-200 | exactly one event per control, for that control, in order |
| Constraint.Select | lib/constraint.ts:77-83 | keeps exactly the entries with an attribute in the given list, and never grows |
| Constraint.SelectUnique | lib/constraint.ts:77-83 | selecting from a constraints object keeps names distinct |
| Constraint.GetByAttributes | lib/constraint.ts:74-83 | exactly the constraints listening to one of the given attributes |
| Constraint.AddAll | lib/constraint.ts:107 | set union preserving first-insertion order: distinct, all old names first, members are old or new names |
| Constraint.GetAttributes | lib/constraint.ts:103-109 | a distinct list holding exactly the attributes some constraint lists |
| Constraint.SelectNothing | lib/constraint.ts:79 | an empty attribute list selects nothing; a constraint with no attributes is never selected |
| Constraint.SelectBySet | lib/constraint.ts:79 | selection depends only on the set of attribute names, not their order or repetition |
| Constraint.SelectMonotone | lib/constraint.ts:77-83 | for A ⊆ B, selecting A from the selection for B gives the selection for A |
| Constraint.GetByAttributesMonotone | lib/constraint.ts:74-83 | the same for getByAttributes, and the A-selection is contained in the B-selection |
| Constraint.SelectedAttribute | lib/constraint.ts:74-83 | every selected constraint listens to an attribute that is both given and among getAttributes |
| Constraint.GetValidityStates | lib/constraint.ts:90-96 | the declared states of every constraint, concatenated in key order; StatesMembers and StatesAppend state its contents |
| Constraint.StatesAppend | lib/constraint.ts:90-96 | getValidityStates distributes over concatenation |
| Constraint.StatesSingle | lib/constraint.ts:90-96 | for one constraint it is that constraint's states |
| Constraint.StatesMembers | lib/constraint.ts:90-96 | a state is listed exactly when some constraint declares it |
| Constraint.StatesUnion | lib/constraint.ts:90-96 | the same, for every state at once |
| Validator.SignatureInjective | lib/validator.ts:65-66 | names without commas give distinct signatures to distinct lists |
| Validator.OrderMatters | lib/validator.ts:65-79 | the same names in another order give another key, but select the same constraints |
| Validator.SignatureCollision | lib/validator.ts:65-66 | the lists ["a,b"] and ["a","b"] share one signature |
| Validator.Gate | lib/validator.ts:43-48 | one validate event per bound constraint, in key order, for the target |
| Validator.GateInvoked | lib/validator.ts:43-51 | a constraint is invoked exactly when its validate event was not cancelled |
| Validator.GateOnce | lib/validator.ts:43-51 | with distinct constraint names, no constraint is invoked twice |
| Validator.Begin | lib/validator.ts:36-51 | the state is always reset first; nothing further happens when the target will not validate or no constraint is bound; otherwise the gate runs |
| Validator.Settle | lib/validator.ts:53-54 | after settling, validated is appended once for the target; the invoked set is unchanged |
| Validator.ValidatedOnce | lib/validator.ts:39-54 | validated is dispatched exactly once when the run gets past the early return, and never before settling |
| Validator.ApplyCalls | lib/validator.ts:71-76 | the invoked constraints' setValidity calls, in order, through the internals bound to the control; a call that throws changes nothing; ApplyCallsCoherent states what they keep |
| Validator.ApplyCallsCoherent | lib/validator.ts:71-74 | the setValidity calls of running constraints keep the control coherent |
| Validator.BeginResets | lib/validator.ts:37 | a run starts with the declared states false and without messages; undeclared flags such as customError survive |
| Validator.Signature | lib/validator.ts:65-66 | the attribute names joined by ','; SignatureInjective and SignatureCollision state when it identifies the list |
| Validator.Present | lib/validator.ts:69 | `key in cache` on the plain object: a cached key, or one of the property names every object inherits from Object.prototype |
| Validator.Run | lib/validator.ts:62-83 | when `key in cache` fails (neither cached nor inherited from Object.prototype) and the element has a ref, the closure built and called is this element's, binding getByAttributes of its attribute names; a cached key calls the cached closure; an inherited key calls a prototype method (a TypeError for `__proto__` and the two definers); a key neither cached nor inherited without a ref throws; existing entries are kept |
| Validator.InheritedKeyNeverValidates | lib/validator.ts:62-82 | an element whose attribute names join to an Object.prototype property name is never validated: nothing is built or called |
| Validator.ConstructorAttribute | lib/validator.ts:62-82 | a control with the single attribute `constructor` and a ref calls the inherited `Object` and is not validated |
| Validator.RunKeepsCache | lib/validator.ts:69-82 | every cached closure binds the constraints its key's attribute names select; a hit returns the cached closure unchanged |
| Validator.SharedCacheExhibit | lib/validator.ts:62-82 | a second control with the same attribute names runs the first control's closure |
| Validator.MissWithoutRef | lib/validator.ts:67-82 | a miss for an element without a ref caches nothing and throws, unless an inherited method answers the call |
| Validator.RunKeyed | lib/validator.ts:62-82 | keyed by control and attribute list: fails exactly on a miss without a ref; existing entries are unchanged |
| Validator.RunKeyedTarget | lib/validator.ts:62-82 | with the keyed cache, every closure run is the triggering control's, with its own constraint subset |
| Validator.KeyedCacheSeparates | lib/validator.ts:62-82 | in the shared-cache scenario, the keyed cache runs the second control's own closure |
| Validator.KeyedRunsConstructor | lib/validator.ts:62-82 | with the keyed cache, a control with the single attribute `constructor` runs its own closure |
| Observer.Create | lib/observer.ts:78-93 | nothing observed; the attribute filter is exactly the given list |
| Observer.Connect | lib/observer.ts:19-27 | adds the element at the end; a member changes nothing; the invariant is kept |
| Observer.Without | lib/observer.ts:39-41 | exactly the other members, still distinct; unchanged when absent |
| Observer.Disconnect | lib/observer.ts:34-47 | removes the element; the watcher re-observes exactly the remaining members |
| Observer.ConnectDisconnect | lib/observer.ts:19-47 | disconnecting a just-connected new element restores the state |
| Observer.ConnectMemberDisconnect | lib/observer.ts:19-47 | for a member, connect-then-disconnect equals disconnect |
| Observer.AttributeMutationCallback | lib/observer.ts:55-68 | onChange gets each submittable target of an attribute record exactly once, in first-occurrence order |
| Control.Setup | lib/control.ts:47-111 | the five API overrides are defined, plus value for submittable controls; a fresh validity state and empty bag; observed and listened to exactly when submittable |
| Control.Reset | lib/control.ts:17-38 | all six overrides are deleted; a submittable control is disconnected and its listener removed; nothing else changes |
| Control.SetupReset | lib/control.ts:17-111 | setup then reset leaves every node's overrides, the observer and the listeners as they were |
| Control.Validity | lib/control.ts:62-66 | the validity getter: the state object created at setup, as later calls changed it; ValidityAfterSetup states its value right after setup |
| Control.ValidityAfterSetup | lib/control.ts:62-66 | after setup the validity getter returns the created state; it is valid and coherent |
| Control.ValidationMessage | lib/control.ts:56-60 | the getter is getValidationMessage over this control's own bag |
| Control.SetValidityOf | lib/control.ts:107 | the bound setValidity changes this control's state only, throwing exactly when setValidity does |
| Control.SetCustomValidityOf | lib/control.ts:68-73 | the bound setCustomValidity changes this control's state only |
| Control.ResetValidityState | lib/control.ts:108 | resetValidity over the engine's states, for this control only |
| Control.CheckValidityOf | lib/control.ts:75-79 | reads this control's own validity: false exactly when it validates and is not valid |
| Control.ReportValidityOf | lib/control.ts:81-85 | as checkValidity; a report exactly when the event is not cancelled |
| Control.CustomErrorSurvivesRun | lib/control.ts:108 | a custom error and its message survive resetValidityState, so the control stays invalid |
| Control.WriteValue | lib/control.ts:51-96 | without the override the value is stored; through the override it is stored exactly when the immediate prototype has a `value` accessor, and the validator runs once |
| Control.ReadValue | lib/control.ts:53-99 | through the override, undefined when the immediate prototype has no `value` accessor; otherwise the stored value |
| Control.ValueRoundTrip | lib/control.ts:51-100 | after setup a written value reads back, except on a submittable control whose immediate prototype has no `value` accessor, where it reads undefined; a run is requested exactly for submittable controls |
| Control.OverrideDropsWrite | lib/control.ts:51-96 | after setup a write through the override reaches the store exactly when the prototype supplies a setter; otherwise the store is as before setup |
| Form.Setup | lib/form.ts:58-99 | native validation off; noValidate, checkValidity and reportValidity overridden; the submit guard added; nothing else changes |
| Form.Reset | lib/form.ts:40-49 | the guard and the three overrides go; native novalidate stays |
| Form.SetupReset | lib/form.ts:40-99 | reset after setup restores every node's overrides and the submit guards, but the native novalidate attribute set at setup stays on |
| Form.SetNoValidate | lib/form.ts:73-79 | through the override, only the data attribute changes |
| Form.NoValidateRoundTrip | lib/form.ts:64-80 | a written noValidate reads back; while installed, native validation stays off |
| Form.SetupNoValidate | lib/form.ts:64-80 | right after setup, noValidate reads the pre-existing data attribute and not the native attribute setup turned on |
| Form.CheckValidity | lib/form.ts:82-86 | true exactly when every validating submittable control is valid, i.e. staticallyValidate returned true; the run's verdict is that of the submittable elements |
| Form.ReportValidity | lib/form.ts:88-92 | true exactly when interactivelyValidate returned true; the run's verdict is that of the submittable elements; reports as interactivelyValidate |
| Form.SubmittableValidity | lib/utils.ts:165-167 | restricting to submittable controls: all valid exactly when every validating submittable element of the form is valid |
| Form.EmptyUnhandledIsFalse | lib/form.ts:82-92 | for any controls with at least one validating invalid control, all of whose invalid events are cancelled, the verdict is an empty unhandled list, so checkValidity and reportValidity (true only on a true verdict) return false |
| Form.GetNoValidate | lib/form.ts:64-72 | through the override, whether the data-novalidate attribute is present; otherwise the native attribute |
| Form.DoNotValidateAsWritten | lib/form.ts:21-23 | the submitter's formNoValidate, or the first submit button's, or the form's noValidate |
| Form.SubmitGuardAsWritten | lib/form.ts:17-35 | bypass exactly under the as-written rule; otherwise block exactly when some validating submittable control is invalid |
| Form.SubmitGuard | lib/form.ts:17-35 | the same, with the intended no-validate rule |
| Form.SubmitterDecides | lib/form.ts:21-23 | intended rule: a found submitter alone decides with the form; the first button counts only without one; the intended rule implies the written one |
| Form.GuardSkipsValidation | lib/form.ts:21-23 | a clicked submit button without formnovalidate is bypassed when the first submit button has it |
| Core.Mount | lib/core.ts:44-86 | refs only grow; the trace is extended; new refs are the element or its descendants; the element is registered exactly when it was already or is mountable |
| Core.MountAll | lib/core.ts:58 | every mountable element of the list ends up registered |
| Core.Unmount | lib/core.ts:93-126 | refs only shrink; an unregistered element changes nothing; a registered mountable one is removed |
| Core.UnmountAll | lib/core.ts:101 | every mountable element of the list ends up unregistered |
| Core.MountSubmittable | lib/core.ts:63-74 | setup, connect, input listener and one validator run, in that order; unmount then restores refs after removing the listener, disconnecting and tearing down |
| Core.MountForm | lib/core.ts:51-58 | mounting an unregistered form registers it and records setupForm then the submit guard, before its collection is mounted |
| Core.MountListed | lib/core.ts:76-85 | a listed element that is neither submittable, form nor fieldset is set up and registered with no further action; unmounting it only tears it down |
| Core.MountFieldSet | lib/core.ts:76-84 | mounting an unregistered fieldset records setupControl before its collection is mounted |
| Core.UnmountForm | lib/core.ts:100-106 | unmounting a registered form unmounts its collection, then removes the submit guard and tears the form down, and unregisters it |
| Core.UnmountListed | lib/core.ts:118-125 | unmounting a registered listed, non-submittable element ends with teardownControl and unregisters it; without a collection nothing else happens |
| Core.IgnoresOthers | lib/core.ts:44-126 | elements neither form nor listed are ignored by mount and unmount |
| Core.MountAllSettled | lib/core.ts:47-49 | mounting a list whose elements are all settled changes nothing |
| Core.MountAllIdempotent | lib/core.ts:44-86 | mounting a list twice equals mounting it once |
| Core.MountIdempotent | lib/core.ts:44-86 | mounting an element twice equals mounting it once |
| Core.UnmountAllGone | lib/core.ts:96-98 | unmounting unregistered elements changes nothing |
| Core.MountRegistersCollection | lib/core.ts:51-85 | a mounted form or fieldset is registered with every mountable element of its collection |
| Core.UnmountClearsCollection | lib/core.ts:100-125 | an unmounted form or fieldset is unregistered with every mountable element of its collection |
| Core.Create | lib/core.ts:133-147 | attributes are distinct and exactly those the constraints list; states are exactly those they declare |
| Index.PatchForm | lib/index.ts:42-44 | the form branch stores the FormApi, installs the three form overrides and the submit guard, turns native novalidate on, and requests no run |
| Index.Requested | lib/index.ts:49 | `validator.updateAndRun(element)` as the host records it: one run request for the element appended, nothing else changed |
| Index.PatchControlStep | lib/index.ts:46-50 | the listed branch stores this control's ControlApi and requests one run |
| Index.PatchOne | lib/index.ts:37-50 | the element is registered exactly when it was already, or is a form or listed; other refs are unchanged |
| Index.PatchOneStores | lib/index.ts:42-50 | a listed element stores its ControlApi (even a listed form); a form stores the FormApi; one run is requested exactly for a newly listed element |
| Index.Patch | lib/index.ts:37-55 | refs only grow and existing entries are kept; new refs are the element or its descendants; the element is registered exactly when it was already or is a form or listed |
| Index.PatchAll | lib/index.ts:52-54 | every form or listed element of the list ends up registered |
| Index.ResetOne | lib/index.ts:62-63 | the ref is deleted; a stored FormApi's reset removes the three form overrides and the submit guard (native novalidate stays); a stored ControlApi's reset removes the six control overrides; runs and control states are untouched |
| Index.Reset | lib/index.ts:57-68 | refs only shrink; an unregistered element changes nothing; the element ends unregistered |
| Index.ResetAll | lib/index.ts:65-67 | every element of the list ends unregistered |
| Index.PatchControl | lib/index.ts:37-55 | patching a leaf control stores its ControlApi, installs the API, observes and listens when submittable, and requests one run |
| Index.PatchResetControl | lib/index.ts:37-68 | reset after patch restores refs, overrides, observer and listeners |
| Index.FormStepReset | lib/index.ts:42-63 | the form step followed by the stored FormApi's reset restores refs, overrides, submit guards, observer and listeners; native novalidate stays on |
| Index.ControlStepReset | lib/index.ts:46-63 | the control step followed by the stored api's reset restores refs, overrides, observer and listeners |
| Index.PatchAllSettled | lib/index.ts:38-40 | patching an all-registered list changes nothing |
| Index.PatchAllIdempotent | lib/index.ts:37-55 | patching a list twice equals patching it once |
| Index.ResetAllGone | lib/index.ts:58-60 | resetting unregistered elements changes nothing |
| Index.ResetAllIdempotent | lib/index.ts:57-68 | resetting a list twice equals resetting it once |
| Index.Create | lib/index.ts:70-83 | no refs; nothing installed; the observer filter is the constraint attributes plus value; states are the declared ones |
| DraftValidity.ValidityStateDescriptor | src/validity-state.ts:14-21 | the descriptor carries the given value |
| DraftValidity.DefaultState | src/validity-state.ts:23-35 | every property uses ValidityStateDescriptor |
| DraftValidity.DefaultStateFlags | src/validity-state.ts:23-35 | exactly the ten declared flags, all false, plus valid, true |
| DraftValidity.DefaultKeys | src/validity-state.ts:1-12 | the ten flags are the nine native ones plus customError |
| DraftValidity.DefaultStateIsCreated | src/validity-state.ts:23-35 | the default state equals createValidityState of the nine native flags, and is consistent |
| DraftValidity.FlagsChangeOnlyByRedefinition | src/validity-state.ts:14-21 | assigning a flag is rejected (non-writable); redefining with the descriptor changes just that value |
| DraftFilters.DraftFilter | src/filters/filter-submittable-elements.ts:14-28 | buttons and inputs unless of type image, fieldsets, objects, selects, textareas, and elements whose constructor has a truthy formAssociated |
| DraftFilters.DraftFilterVersusLib | src/filters/filter-submittable-elements.ts:14-28 | both directions: the draft filter equals lib's submittable test plus fieldsets, minus image buttons/inputs and other tags with formAssociated false |
| DraftFilters.DraftFilterCases | src/filters/filter-submittable-elements.ts:14-28 | fieldsets and a truthy formAssociated are accepted; output and image inputs are rejected unless formAssociated |
| Draft.DraftSetValidity | src/constraint-validation-api.ts:18-51 | no willValidate check; TypeError as in lib; flags and messages as passed; valid is "no flag of this call is true" |
| Draft.DraftSetValidityVersusLib | src/constraint-validation-api.ts:18-51 | on validating controls it agrees with lib in errors, messages and every flag but valid, and on valid too when no flag outside the call was set |
| Draft.DraftValidAgrees | src/constraint-validation-api.ts:44-48 | both compute the same valid when no flag outside the call is set |
| Draft.DraftValidityExhibit | src/constraint-validation-api.ts:44-48 | badInput set, then setValidity({customError:false}): the draft reads valid, breaking the invariant |
| Draft.LibValidityKept | lib/api.ts:121-125 | lib's setValidity on the same input stays invalid and consistent |
| Draft.DraftSetCustomValidity | src/constraint-validation-api.ts:63-72 | never throws; customError and valid follow the message alone |
| Draft.DraftCheckValidity | src/constraint-validation-api.ts:84-94 | false exactly for a validating invalid control, with one event |
| Draft.DraftReportValidity | src/constraint-validation-api.ts:109-126 | as checkValidity, with a report exactly when not cancelled |
| Draft.DraftChecksAsLib | src/constraint-validation-api.ts:84-126 | both per-control checks equal lib's |
| Draft.IsBarred | src/constraint-validation-api.ts:135-149 | an object or fieldset, type hidden, reset or button, readonly, disabled, hidden, or inside a datalist |
| Draft.WillValidate | src/constraint-validation-api.ts:157-159 | not barred from constraint validation |
| Draft.BarredControls | src/constraint-validation-api.ts:135-159 | fieldsets and objects never validate; a validating filtered control is a button, input, select, textarea or custom element |
| Draft.DraftGetValidationMessage | src/constraint-validation-api.ts:170-182 | empty without willValidate or a bag, otherwise as lib's |
| Draft.DraftControls | src/constraint-validation-api.ts:202-203 | exactly the elements the draft filter accepts |
| Draft.DraftStaticallyValidate | src/constraint-validation-api.ts:199-235 | over the filtered elements: valid events in document order, then the form event, then the invalid events; true exactly when every validating filtered control is valid; otherwise the invalid controls whose event was not cancelled, in document order; no reports |
| Draft.DraftInteractivelyValidate | src/constraint-validation-api.ts:260-304 | filters the form's elements; the form event first; valid controls get events and reports only when all are valid; the same verdict as lib |
| Draft.DraftInteractiveVersusLib | src/constraint-validation-api.ts:282-303 | with every control valid both report the same controls; with some control invalid, each valid control whose event is not cancelled is reported by lib and not by the draft, and its valid event is fired by lib only; every draft report is also a lib report |

## Left out

- `allSettled` and the asynchronous part of `validate` (lib/utils.ts:71-91, lib/validator.ts:49-54) are left out because promises and the event loop are not modelled. The constraints' `setValidity` calls are a given sequence (`Validator.Call`).
- The stale-run race is not modelled: a previous run's constraints may settle after a newer reset.
- DOM event dispatch, `document.activeElement`, `closest('datalist')`, `hasAttribute('readonly')` and `validity.valid` in the form algorithms are oracles or element fields. The browser itself is not modelled.
- `MutationObserver` is reduced to the set of watched elements and an attribute filter. Records are an input sequence.
- Property descriptors on DOM nodes are reduced to which overrides exist (`Host.Prop`). The prototype `value` accessor is a stored value, and whether the element's immediate prototype has one is the element field `protoValue`. Native value sanitisation is not modelled.
- The refs `WeakMap` is a set or map of element ids. Garbage collection is not modelled.
- `cloneProperties` (lib/utils.ts:198-209) is left out because nothing in the core calls it.
- The native `setCustomValidity` call in `setValidity` (lib/api.ts:109) is left out. On built-in controls it drives the native validity (the `:invalid` pseudo-class). It is looked up on the prototype chain, so a form-associated custom element with a `willValidate` getter but no `setCustomValidity` method makes the call throw a TypeError before any flag or message is stored. `Api.SetValidity` does not represent that throw.
- The reporter and i18n callbacks and their defaults (lib/core.ts:137-138, lib/index.ts:74-75) are left out because they are foreign code. Reports are recorded as the ids the reporter would receive.
- The doc comment of `validate` promises `validate`/`validated` events on the form too (lib/validator.ts:27-28). The code never fires them, so the model does not.
- `src/types.ts` and `src/constraint.ts` are type declarations and are not part of this model.
- Api.ApplyFlags: JavaScript orders integer-like keys of an object before other keys. The model takes the flags object's entries in the order given.
- Api.Put: the message bag is a plain object (lib/control.ts:49), so integer-like keys such as a state named `"0"` are enumerated first, in ascending order. The model keeps every key in insertion order, which agrees with the source only when no stored flag name is integer-like.
- Api.GetValidationMessage: `Object.values(validationMessages)[0]` (lib/api.ts:67) returns an integer-like key's message first. The model returns the earliest-inserted message; for example, with a `customError` message stored before one for a state `"0"`, the source returns the `"0"` message and the model the `customError` one. Api.PutKeepsEarliest, Api.ApplyFlagsFirst and Api.FirstMessageKept rest on the same insertion order.

## Findings

| source | as written | input that shows it | evidently intended | confidence | as-written member | corrected member |
|---|---|---|---|---|---|---|
| lib/validator.ts:62-82 | one cache per validator, keyed by the attribute signature only | two mounted controls with the same attribute names: the second runs the closure built for the first, which resets and validates the first control | one closure per control and attribute list, so each run validates the control that triggered it (Validator.KeyedCacheSeparates, Validator.RunKeyedTarget) | high, not executed | Validator.SharedCacheExhibit | Validator.RunKeyed |
| lib/validator.ts:65-66 | key is the attribute names joined by ',' | attribute lists ["a,b"] and ["a","b"] (the HTML parser accepts ',' in names) share a key and so a closure | a key that distinguishes the lists: keyed by the list itself, every run binds the subset of its own names (Validator.RunKeyedTarget) | low, not executed | Validator.SignatureCollision | Validator.RunKeyed |
| lib/form.ts:21-23 | bypass when the submitter OR the form's first submit button has formNoValidate | clicking a second submit button without formnovalidate when the first has it skips validation | the first button stands in only when no submitter is found (Form.SubmitterDecides) | medium, not executed | Form.GuardSkipsValidation | Form.SubmitGuard |
| lib/validator.ts:62-82 | the cache is a plain object tested with `in` | a control whose only attribute is `constructor`: `key in cache` holds through Object.prototype, nothing is built, and `cache[key]()` calls `Object()`; with `__proto__` the call throws | a cache without inherited keys (a Map or `Object.create(null)`), so every control with a ref gets its own closure (Validator.KeyedRunsConstructor) | medium, not executed | Validator.ConstructorAttribute | Validator.RunKeyed |
| src/constraint-validation-api.ts:44-48 | valid is recomputed from the current call's flags only | badInput true, then setValidity({customError:false}): valid becomes true while badInput stays true | valid reflects every flag, as lib/api.ts:121-125 does (Api.SetValidity keeps the invariant; Draft.LibValidityKept on the same input) | high, not executed | Draft.DraftValidityExhibit | Api.SetValidity |

=== FILE: aggregate.dfy ===
/** The form-level algorithms of lib/api.ts: statically and interactively
    validating the submittable controls of a form. A control's
    `validity.valid` is an oracle, event cancellation is the `Cancels`
    oracle, and each run yields its result with the trace of dispatched
    events and the trace of reporter calls. */
module Aggregate {
  import opened Common
  import opened Utils

  /** `true`, or the list of unhandled invalid controls (possibly empty). */
  datatype Verdict = AllValid | Unhandled(controls: seq<Id>)

  datatype Run = Run(verdict: Verdict, events: seq<Event>, reports: seq<Id>)

  // ---------------------------------------------------------------------------
  // Reference definitions, each peeling the last control off

  function Last<T>(s: seq<T>): T
    requires |s| > 0
  {
    s[|s| - 1]
  }

  function Init<T>(s: seq<T>): seq<T>
    requires |s| > 0
  {
    s[..|s| - 1]
  }

  /** The validating controls whose validity is valid, in document order. */
  function Passing(cs: seq<Element>, valid: Id -> bool): seq<Id> {
    if cs == [] then []
    else Passing(Init(cs), valid) + (if Last(cs).willValidate && valid(Last(cs).id) then [Last(cs).id] else [])
  }

  /** The validating controls whose validity is not valid, in document order. */
  function Failing(cs: seq<Element>, valid: Id -> bool): seq<Id> {
    if cs == [] then []
    else Failing(Init(cs), valid) + (if Last(cs).willValidate && !valid(Last(cs).id) then [Last(cs).id] else [])
  }

  /** The controls whose `name` event a listener does not cancel. */
  function Uncancelled(ids: seq<Id>, cancels: Cancels, name: EventName): seq<Id> {
    if ids == [] then []
    else Uncancelled(Init(ids), cancels, name) + (if cancels(Last(ids), name) then [] else [Last(ids)])
  }

  /** One `name` event per control, in order. */
  function EventsFor(ids: seq<Id>, name: EventName): seq<Event> {
    if ids == [] then [] else EventsFor(Init(ids), name) + [Event(Last(ids), name)]
  }

  /** The verdict both algorithms reach. */
  function VerdictOf(cs: seq<Element>, valid: Id -> bool, cancels: Cancels): Verdict {
    if Failing(cs, valid) == [] then AllValid
    else Unhandled(Uncancelled(Failing(cs, valid), cancels, Invalid))
  }

  /** The event the form receives: valid when no validating control is invalid. */
  function FormEvent(form: Id, cs: seq<Element>, valid: Id -> bool): Event {
    Event(form, if Failing(cs, valid) == [] then Valid else Invalid)
  }

  lemma EventsForSnoc(ids: seq<Id>, x: Id, name: EventName)
    ensures EventsFor(ids + [x], name) == EventsFor(ids, name) + [Event(x, name)]
  {
    assert Init(ids + [x]) == ids;
  }

  lemma Prefix<T>(s: seq<T>, i: nat)
    requires i < |s|
    ensures Init(s[..i + 1]) == s[..i] && Last(s[..i + 1]) == s[i]
  {
  }

  /** One more control extends exactly one of the two partitions. */
  lemma PartitionStep(cs: seq<Element>, i: nat, valid: Id -> bool)
    requires i < |cs|
    ensures Passing(cs[..i + 1], valid) ==
      Passing(cs[..i], valid) + (if cs[i].willValidate && valid(cs[i].id) then [cs[i].id] else [])
    ensures Failing(cs[..i + 1], valid) ==
      Failing(cs[..i], valid) + (if cs[i].willValidate && !valid(cs[i].id) then [cs[i].id] else [])
  {
    Prefix(cs, i);
  }

  // ---------------------------------------------------------------------------
  // staticallyValidate

  /** staticallyValidate: valid events for the valid controls as they are met,
      then the form event, then (only when some control is invalid) the
      invalid events, collecting the controls whose event was not cancelled.
      The reporter is never called. */
  method StaticallyValidate(form: Id, controls: seq<Element>, valid: Id -> bool, cancels: Cancels)
    returns (r: Run)
    ensures r.verdict == VerdictOf(controls, valid, cancels)
    ensures r.events ==
      EventsFor(Passing(controls, valid), Valid) + [FormEvent(form, controls, valid)]
      + (if r.verdict.AllValid? then [] else EventsFor(Failing(controls, valid), Invalid))
    ensures r.reports == []
  {
    var events: seq<Event> := [];
    var invalid: seq<Id> := [];
    for i := 0 to |controls|
      invariant events == EventsFor(Passing(controls[..i], valid), Valid)
      invariant invalid == Failing(controls[..i], valid)
    {
      PartitionStep(controls, i, valid);
      var field := controls[i];
      if !field.willValidate {
        assert Passing(controls[..i + 1], valid) == Passing(controls[..i], valid);
        continue;
      }
      if valid(field.id) {
        EventsForSnoc(Passing(controls[..i], valid), field.id, Valid);
        events := events + [Event(field.id, Valid)];
        continue;
      }
      assert Passing(controls[..i + 1], valid) == Passing(controls[..i], valid);
      invalid := invalid + [field.id];
    }
    assert controls[..|controls|] == controls;
    if |invalid| == 0 {
      events := events + [Event(form, Valid)];
      return Run(AllValid, events, []);
    }
    events := events + [Event(form, Invalid)];
    var formEvents := events;
    var unhandled: seq<Id> := [];
    for i := 0 to |invalid|
      invariant events == formEvents + EventsFor(invalid[..i], Invalid)
      invariant unhandled == Uncancelled(invalid[..i], cancels, Invalid)
    {
      Prefix(invalid, i);
      events := events + [Event(invalid[i], Invalid)];
      if !cancels(invalid[i], Invalid) {
        unhandled := unhandled + [invalid[i]];
      }
    }
    assert invalid[..|invalid|] == invalid;
    return Run(Unhandled(unhandled), events, []);
  }

  // ---------------------------------------------------------------------------
  // interactivelyValidate

  /** interactivelyValidate: valid events and reports for the valid controls,
      then invalid events and reports for the invalid ones, collecting the
      uncancelled ones, and the form event last. */
  method InteractivelyValidate(form: Id, controls: seq<Element>, valid: Id -> bool, cancels: Cancels)
    returns (r: Run)
    ensures r.verdict == VerdictOf(controls, valid, cancels)
    ensures r.events ==
      EventsFor(Passing(controls, valid), Valid) + EventsFor(Failing(controls, valid), Invalid)
      + [FormEvent(form, controls, valid)]
    ensures r.reports ==
      Uncancelled(Passing(controls, valid), cancels, Valid)
      + Uncancelled(Failing(controls, valid), cancels, Invalid)
  {
    var validControls, invalidControls := Partition(controls, valid);
    var validEvents, validReports := Dispatch(validControls, Valid, cancels);
    var invalidEvents, unhandled := Dispatch(invalidControls, Invalid, cancels);
    var events, reports := validEvents + invalidEvents, validReports + unhandled;
    if |invalidControls| == 0 {
      return Run(AllValid, events + [Event(form, Valid)], reports);
    }
    return Run(Unhandled(unhandled), events + [Event(form, Invalid)], reports);
  }

  /** The first pass of interactivelyValidate: the validating controls split
      by validity, each in document order. */
  method Partition(controls: seq<Element>, valid: Id -> bool) returns (passing: seq<Id>, failing: seq<Id>)
    ensures passing == Passing(controls, valid) && failing == Failing(controls, valid)
  {
    passing, failing := [], [];
    for i := 0 to |controls|
      invariant passing == Passing(controls[..i], valid)
      invariant failing == Failing(controls[..i], valid)
    {
      PartitionStep(controls, i, valid);
      var field := controls[i];
      if !field.willValidate {
        continue;
      }
      if valid(field.id) {
        passing := passing + [field.id];
      } else {
        failing := failing + [field.id];
      }
    }
    assert controls[..|controls|] == controls;
  }

  /** Dispatching `name` on each control in turn and reporting it unless a
      listener cancelled the event. */
  method Dispatch(ids: seq<Id>, name: EventName, cancels: Cancels) returns (events: seq<Event>, reports: seq<Id>)
    ensures events == EventsFor(ids, name)
    ensures reports == Uncancelled(ids, cancels, name)
  {
    events, reports := [], [];
    for i := 0 to |ids|
      invariant events == EventsFor(ids[..i], name)
      invariant reports == Uncancelled(ids[..i], cancels, name)
    {
      Prefix(ids, i);
      events := events + [Event(ids[i], name)];
      if !cancels(ids[i], name) {
        reports := reports + [ids[i]];
      }
    }
    assert ids[..|ids|] == ids;
  }

  // ---------------------------------------------------------------------------
  // What the reference definitions mean

  /** A control is passing exactly when it is a validating valid control. */
  lemma {:induction false} PassingMembers(cs: seq<Element>, valid: Id -> bool, x: Id)
    ensures x in Passing(cs, valid) <==>
      exists i | 0 <= i < |cs| :: cs[i].id == x && cs[i].willValidate && valid(x)
  {
    if cs != [] {
      PassingMembers(Init(cs), valid, x);
      if x in Passing(Init(cs), valid) {
        var i :| 0 <= i < |Init(cs)| && Init(cs)[i].id == x && Init(cs)[i].willValidate && valid(x);
        assert cs[i] == Init(cs)[i];
      }
      if exists i | 0 <= i < |cs| :: cs[i].id == x && cs[i].willValidate && valid(x) {
        var i :| 0 <= i < |cs| && cs[i].id == x && cs[i].willValidate && valid(x);
        if i < |cs| - 1 { assert Init(cs)[i] == cs[i]; }
      }
    }
  }

  /** A control is failing exactly when it is a validating invalid control. */
  lemma {:induction false} FailingMembers(cs: seq<Element>, valid: Id -> bool, x: Id)
    ensures x in Failing(cs, valid) <==>
      exists i | 0 <= i < |cs| :: cs[i].id == x && cs[i].willValidate && !valid(x)
  {
    if cs != [] {
      FailingMembers(Init(cs), valid, x);
      if x in Failing(Init(cs), valid) {
        var i :| 0 <= i < |Init(cs)| && Init(cs)[i].id == x && Init(cs)[i].willValidate && !valid(x);
        assert cs[i] == Init(cs)[i];
      }
      if exists i | 0 <= i < |cs| :: cs[i].id == x && cs[i].willValidate && !valid(x) {
        var i :| 0 <= i < |cs| && cs[i].id == x && cs[i].willValidate && !valid(x);
        if i < |cs| - 1 { assert Init(cs)[i] == cs[i]; }
      }
    }
  }

  /** The uncancelled controls are exactly those of the list whose event no
      listener cancels. */
  lemma {:induction false} UncancelledMembers(ids: seq<Id>, cancels: Cancels, name: EventName, x: Id)
    ensures x in Uncancelled(ids, cancels, name) <==> x in ids && !cancels(x, name)
  {
    if ids != [] {
      UncancelledMembers(Init(ids), cancels, name, x);
      assert ids == Init(ids) + [Last(ids)];
    }
  }

  /** Every validating control is either passing or failing, so together
      they account for each validating control exactly once. */
  lemma {:induction false} PartitionCount(cs: seq<Element>, valid: Id -> bool)
    ensures |Passing(cs, valid)| + |Failing(cs, valid)| == |Filter(cs, (e: Element) => e.willValidate)|
  {
    if cs != [] {
      PartitionCount(Init(cs), valid);
      assert cs == Init(cs) + [Last(cs)];
      FilterAppend(Init(cs), [Last(cs)], (e: Element) => e.willValidate);
    }
  }

  /** A control that will not validate is invisible to both algorithms:
      inserting it anywhere changes neither the verdict nor any trace. */
  lemma {:induction false} BarredIgnored(a: seq<Element>, e: Element, b: seq<Element>, valid: Id -> bool)
    requires !e.willValidate
    ensures Passing(a + [e] + b, valid) == Passing(a + b, valid)
    ensures Failing(a + [e] + b, valid) == Failing(a + b, valid)
  {
    if b == [] {
      assert Init(a + [e]) == a;
      assert a + [e] + b == a + [e] && a + b == a;
    } else {
      BarredIgnored(a, e, Init(b), valid);
      assert Init(a + [e] + b) == a + [e] + Init(b);
      assert Init(a + b) == a + Init(b);
    }
  }

  /** Unhandled controls are validating invalid controls whose invalid event
      was not cancelled, and every such control is unhandled. */
  lemma UnhandledAreInvalid(cs: seq<Element>, valid: Id -> bool, cancels: Cancels, x: Id)
    requires VerdictOf(cs, valid, cancels).Unhandled?
    ensures x in VerdictOf(cs, valid, cancels).controls <==>
      !cancels(x, Invalid) && exists i | 0 <= i < |cs| :: cs[i].id == x && cs[i].willValidate && !valid(x)
  {
    UncancelledMembers(Failing(cs, valid), cancels, Invalid, x);
    FailingMembers(cs, valid, x);
  }

  /** The verdict is `true` exactly when no validating control is invalid. */
  lemma AllValidIff(cs: seq<Element>, valid: Id -> bool, cancels: Cancels)
    ensures VerdictOf(cs, valid, cancels).AllValid? <==>
      forall i | 0 <= i < |cs| :: cs[i].willValidate ==> valid(cs[i].id)
  {
    if Failing(cs, valid) != [] {
      FailingMembers(cs, valid, Failing(cs, valid)[0]);
    } else {
      forall i | 0 <= i < |cs| ensures cs[i].willValidate ==> valid(cs[i].id) {
        FailingMembers(cs, valid, cs[i].id);
      }
    }
  }

  /** Each id in a reporter or event list built from `ids` appears there at
      most as often as in `ids`; in particular the reporter is called at most
      once per control when control ids are distinct. */
  lemma {:induction false} UncancelledSubsequence(ids: seq<Id>, cancels: Cancels, name: EventName)
    ensures |Uncancelled(ids, cancels, name)| <= |ids|
    ensures Distinct(ids) ==> Distinct(Uncancelled(ids, cancels, name))
  {
    if ids != [] {
      UncancelledSubsequence(Init(ids), cancels, name);
      var u := Uncancelled(Init(ids), cancels, name);
      if Distinct(ids) && !cancels(Last(ids), name) {
        assert Distinct(Init(ids));
        forall k | 0 <= k < |u| ensures u[k] != Last(ids) {
          UncancelledMembers(Init(ids), cancels, name, u[k]);
          var j :| 0 <= j < |Init(ids)| && Init(ids)[j] == u[k];
          assert ids[j] == u[k];
        }
      }
    }
  }

  /** The event trace of either algorithm holds one event per validating
      control plus the form event. */
  lemma {:induction false} EventsCount(ids: seq<Id>, name: EventName)
    ensures |EventsFor(ids, name)| == |ids|
    ensures forall i | 0 <= i < |ids| :: EventsFor(ids, name)[i] == Event(ids[i], name)
  {
    if ids != [] {
      EventsCount(Init(ids), name);
    }
  }
}

=== FILE: api.dfy ===
/** The per-control part of lib/api.ts: the validity state object, the
    validation message bag, and the operations that change or read them. */
module Api {
  import opened Common

  const ValidFlag := "valid"
  const CustomErrorFlag := "customError"

  /** The own properties of a validity state object, `valid` included. */
  type Validity = map<string, bool>

  /** The validation message bag: a JavaScript object from flag to message,
      in insertion order (assigning an existing key keeps its position). */
  type Bag = b: seq<(string, string)> | UniqueKeys(b) witness []

  /** The flags argument of setValidity: an object from flag to value. */
  type Flags = f: seq<(string, bool)> | UniqueKeys(f) witness []

  /** The validity state and message bag one control owns. */
  datatype ControlState = ControlState(validity: Validity, messages: Bag)

  /** Outcome of an operation that may throw a TypeError. */
  datatype Outcome<+T> = Done(value: T) | TypeError

  /** No flag other than `valid` is set. */
  predicate NoProblem(v: Validity) {
    forall k | k in v && k != ValidFlag :: !v[k]
  }

  /** The validity invariant: `valid` is present and holds exactly when no
      other flag does. */
  predicate ValidKept(v: Validity) {
    ValidFlag in v && (v[ValidFlag] <==> NoProblem(v))
  }

  /** `validity.valid` as a reader sees it (a missing property reads as false). */
  predicate IsValid(v: Validity) {
    ValidFlag in v && v[ValidFlag]
  }

  // ---------------------------------------------------------------------------
  // createValidityState

  /** The reduce step of createValidityState: define each flag as false. */
  function DefineFalse(acc: Validity, flags: seq<string>): (r: Validity)
    ensures r.Keys == acc.Keys + (set f | f in flags)
    ensures forall k | k in r :: r[k] == if k in flags then false else acc[k]
    decreases |flags|
  {
    if flags == [] then acc else DefineFalse(acc[flags[0] := false], flags[1..])
  }

  /** createValidityState: every given flag and customError false, valid true. */
  function CreateValidityState(flags: seq<string>): (r: Validity)
    ensures r.Keys == (set f | f in flags) + {CustomErrorFlag, ValidFlag}
    ensures forall k | k in r && k != ValidFlag :: !r[k]
    ensures ValidFlag !in flags ==> r[ValidFlag] && ValidKept(r)
  {
    DefineFalse(map[CustomErrorFlag := false, ValidFlag := true], flags)
  }

  // ---------------------------------------------------------------------------
  // The message bag

  function Lookup(b: seq<(string, string)>, k: string): (r: Option<string>)
    ensures r.Some? <==> k in KeySet(b)
  {
    KeySetCons(b);
    if b == [] then None
    else if b[0].0 == k then Some(b[0].1)
    else Lookup(b[1..], k)
  }

  /** In a bag, the entry at any index is what a lookup of its key finds. */
  lemma {:induction false} LookupAt(b: Bag, i: nat)
    requires i < |b|
    ensures Lookup(b, b[i].0) == Some(b[i].1)
  {
    if i > 0 && b[0].0 != b[i].0 {
      var rest: Bag := b[1..];
      assert rest[i - 1] == b[i];
      LookupAt(rest, i - 1);
    }
  }

  /** Position of a stored key. */
  function IndexOf(b: Bag, k: string): (i: nat)
    requires k in KeySet(b)
    ensures i < |b| && b[i].0 == k
  {
    KeySetCons(b);
    if b[0].0 == k then 0 else 1 + IndexOf(b[1..], k)
  }

  /** Two bags agree on every key other than `k` when their entries for
      those keys sit at matching positions. */
  lemma LookupOthers(b: Bag, r: Bag, k: string, pos: nat -> nat)
    requires forall j | 0 <= j < |b| && b[j].0 != k :: pos(j) < |r| && r[pos(j)] == b[j]
    requires forall j | 0 <= j < |r| && r[j].0 != k :: r[j].0 in KeySet(b)
    ensures forall k' | k' != k :: Lookup(r, k') == Lookup(b, k')
  {
    forall k' | k' != k ensures Lookup(r, k') == Lookup(b, k') {
      if k' in KeySet(b) {
        var j := IndexOf(b, k');
        LookupAt(b, j);
        LookupAt(r, pos(j));
      } else if k' in KeySet(r) {
        var j := IndexOf(r, k');
        assert false;
      }
    }
  }

  /** `bag[k] = m`: a new key is appended, an existing key keeps its place. */
  function Put(b: Bag, k: string, m: string): (r: Bag)
    ensures KeySet(r) == KeySet(b) + {k}
    ensures Lookup(r, k) == Some(m)
    ensures forall k' | k' != k :: Lookup(r, k') == Lookup(b, k')
    ensures k !in KeySet(b) ==> r == b + [(k, m)]
    ensures |b| > 0 ==> |r| > 0 && r[0].0 == b[0].0 && (b[0].0 != k ==> r[0] == b[0])
  {
    if k in KeySet(b) then
      var i := IndexOf(b, k);
      var r := b[i := (k, m)];
      assert forall j | 0 <= j < |r| :: r[j].0 == b[j].0;
      assert KeySet(r) == KeySet(b);
      LookupAt(r, i);
      LookupOthers(b, r, k, j => j);
      r
    else
      var r := b + [(k, m)];
      assert forall j | 0 <= j < |b| :: r[j] == b[j];
      assert r[|b|] == (k, m);
      assert KeySet(r) == KeySet(b) + {k} by {
        forall x | x in KeySet(r) ensures x in KeySet(b) + {k} {
          var j :| 0 <= j < |r| && r[j].0 == x;
          if j < |b| { assert b[j].0 == x; }
        }
      }
      LookupAt(r, |b|);
      LookupOthers(b, r, k, j => j);
      r
  }

  /** `delete bag[k]`: the entry goes, the others keep their order. */
  function Delete(b: Bag, k: string): (r: Bag)
    ensures KeySet(r) == KeySet(b) - {k}
    ensures Lookup(r, k) == None
    ensures forall k' | k' != k :: Lookup(r, k') == Lookup(b, k')
    ensures |b| > 0 && b[0].0 != k ==> |r| > 0 && r[0] == b[0]
  {
    KeySetCons(b);
    if b == [] then []
    else if b[0].0 == k then
      assert forall i | 0 <= i < |b[1..]| :: b[1..][i].0 == b[i + 1].0 != b[0].0;
      b[1..]
    else
      var rest := Delete(b[1..], k);
      assert b[0].0 !in KeySet(b[1..]);
      assert forall i | 0 <= i < |rest| :: rest[i].0 in KeySet(rest);
      var r := [b[0]] + rest;
      KeySetCons(r);
      assert r[1..] == rest;
      r
  }

  // ---------------------------------------------------------------------------
  // setValidity

  predicate Positive(flags: Flags) {
    exists i | 0 <= i < |flags| :: flags[i].1
  }

  /** `message` is neither undefined nor the empty string. */
  predicate Present(message: Option<string>) {
    message.Some? && message.value != ""
  }

  /** Recompute `valid` from every other own property. */
  function Revalidate(v: Validity): (r: Validity)
    ensures r.Keys == v.Keys + {ValidFlag}
    ensures forall k | k in v && k != ValidFlag :: r[k] == v[k]
    ensures ValidKept(r)
  {
    v[ValidFlag := NoProblem(v)]
  }

  /** One step of the forEach over the flags argument: define the flag, and
      store the message for a true flag or delete it otherwise. */
  function ApplyFlag(s: ControlState, flag: string, value: bool, message: Option<string>): (r: ControlState)
    ensures r.validity == s.validity[flag := value]
    ensures Lookup(r.messages, flag) == if value && message.Some? then message else None
    ensures forall k | k != flag :: Lookup(r.messages, k) == Lookup(s.messages, k)
    ensures |s.messages| > 0 && s.messages[0].0 != flag ==> |r.messages| > 0 && r.messages[0] == s.messages[0]
  {
    var bag := if value && message.Some? then Put(s.messages, flag, message.value) else Delete(s.messages, flag);
    ControlState(s.validity[flag := value], bag)
  }

  /** The forEach over the flags argument, in the object's key order. */
  function ApplyFlags(s: ControlState, flags: Flags, message: Option<string>): ControlState
    decreases |flags|
  {
    if flags == [] then s
    else ApplyFlags(ApplyFlag(s, flags[0].0, flags[0].1, message), flags[1..], message)
  }

  lemma {:induction false} ApplyFlagsValidity(s: ControlState, flags: Flags, message: Option<string>)
    ensures ApplyFlags(s, flags, message).validity.Keys == s.validity.Keys + KeySet(flags)
    ensures forall i | 0 <= i < |flags| ::
      ApplyFlags(s, flags, message).validity[flags[i].0] == flags[i].1
    ensures forall k | k in s.validity && k !in KeySet(flags) ::
      ApplyFlags(s, flags, message).validity[k] == s.validity[k]
    decreases |flags|
  {
    KeySetCons(flags);
    if flags != [] {
      var s1 := ApplyFlag(s, flags[0].0, flags[0].1, message);
      var rest: Flags := flags[1..];
      assert forall i | 0 <= i < |rest| :: rest[i] == flags[i + 1] && rest[i].0 != flags[0].0;
      ApplyFlagsValidity(s1, rest, message);
      var r := ApplyFlags(s1, rest, message);
      forall i | 0 <= i < |flags| ensures r.validity[flags[i].0] == flags[i].1 {
        if i > 0 { assert flags[i] == rest[i - 1]; }
      }
    }
  }

  lemma {:induction false} ApplyFlagsMessages(s: ControlState, flags: Flags, message: Option<string>)
    ensures forall i | 0 <= i < |flags| ::
      Lookup(ApplyFlags(s, flags, message).messages, flags[i].0)
        == if flags[i].1 && message.Some? then message else None
    ensures forall k | k !in KeySet(flags) ::
      Lookup(ApplyFlags(s, flags, message).messages, k) == Lookup(s.messages, k)
    decreases |flags|
  {
    KeySetCons(flags);
    if flags != [] {
      var s1 := ApplyFlag(s, flags[0].0, flags[0].1, message);
      var rest: Flags := flags[1..];
      assert forall i | 0 <= i < |rest| :: rest[i] == flags[i + 1] && rest[i].0 != flags[0].0;
      ApplyFlagsMessages(s1, rest, message);
      var r := ApplyFlags(s1, rest, message);
      forall i | 0 <= i < |flags|
        ensures Lookup(r.messages, flags[i].0) == if flags[i].1 && message.Some? then message else None
      {
        if i > 0 { assert flags[i] == rest[i - 1]; }
      }
    }
  }

  lemma {:induction false} ApplyFlagsFirst(s: ControlState, flags: Flags, message: Option<string>)
    ensures |s.messages| > 0 && s.messages[0].0 !in KeySet(flags) ==>
      |ApplyFlags(s, flags, message).messages| > 0 &&
      ApplyFlags(s, flags, message).messages[0] == s.messages[0]
    decreases |flags|
  {
    KeySetCons(flags);
    if flags != [] && |s.messages| > 0 && s.messages[0].0 !in KeySet(flags) {
      var s1 := ApplyFlag(s, flags[0].0, flags[0].1, message);
      var rest: Flags := flags[1..];
      ApplyFlagsFirst(s1, rest, message);
    }
  }

  /** setValidity: a control that will not validate is left alone; a positive
      flag without a message throws before anything changes; otherwise the
      flags are applied and `valid` recomputed from every flag. */
  function SetValidity(willValidate: bool, s: ControlState, flags: Flags, message: Option<string>)
    : (r: Outcome<ControlState>)
    ensures !willValidate ==> r == Done(s)
    ensures willValidate && Positive(flags) && !Present(message) ==> r == TypeError
    ensures r.Done? && willValidate ==> SetValidityPost(s, flags, message, r.value)
    ensures r.TypeError? <==> willValidate && Positive(flags) && !Present(message)
  {
    if !willValidate then Done(s)
    else if Positive(flags) && !Present(message) then TypeError
    else
      var t := ApplyFlags(s, flags, message);
      ApplyFlagsValidity(s, flags, message);
      ApplyFlagsMessages(s, flags, message);
      ApplyFlagsFirst(s, flags, message);
      Done(ControlState(Revalidate(t.validity), t.messages))
  }

  /** What a successful setValidity promises. */
  ghost predicate SetValidityPost(s: ControlState, flags: Flags, message: Option<string>, t: ControlState) {
    && t.validity.Keys == s.validity.Keys + KeySet(flags) + {ValidFlag}
    && (forall i | 0 <= i < |flags| && flags[i].0 != ValidFlag :: t.validity[flags[i].0] == flags[i].1)
    && (forall k | k in s.validity && k != ValidFlag && k !in KeySet(flags) :: t.validity[k] == s.validity[k])
    && (forall i | 0 <= i < |flags| ::
          Lookup(t.messages, flags[i].0) == if flags[i].1 then message else None)
    && (forall k | k !in KeySet(flags) :: Lookup(t.messages, k) == Lookup(s.messages, k))
    && (|s.messages| > 0 && s.messages[0].0 !in KeySet(flags) ==>
          |t.messages| > 0 && t.messages[0] == s.messages[0])
    && ValidKept(t.validity)
  }

  // ---------------------------------------------------------------------------
  // resetValidity

  /** The forEach of resetValidity: each flag false, its message deleted. */
  function ClearFlags(s: ControlState, flags: seq<string>): (r: ControlState)
    ensures r.validity.Keys == s.validity.Keys + (set f | f in flags)
    ensures forall f | f in flags :: !r.validity[f] && Lookup(r.messages, f) == None
    ensures forall k | k in s.validity && k !in flags :: r.validity[k] == s.validity[k]
    ensures forall k | k !in flags :: Lookup(r.messages, k) == Lookup(s.messages, k)
    decreases |flags|
  {
    if flags == [] then s
    else ClearFlags(ControlState(s.validity[flags[0] := false], Delete(s.messages, flags[0])), flags[1..])
  }

  /** resetValidity: the listed flags become false and lose their messages;
      everything else stays; `valid` is recomputed from every flag. */
  function ResetValidity(s: ControlState, flags: seq<string>): (r: ControlState)
    ensures r.validity.Keys == s.validity.Keys + (set f | f in flags) + {ValidFlag}
    ensures forall f | f in flags && f != ValidFlag :: !r.validity[f]
    ensures forall f | f in flags :: Lookup(r.messages, f) == None
    ensures forall k | k in s.validity && k !in flags && k != ValidFlag :: r.validity[k] == s.validity[k]
    ensures forall k | k !in flags :: Lookup(r.messages, k) == Lookup(s.messages, k)
    ensures ValidKept(r.validity)
  {
    var t := ClearFlags(s, flags);
    ControlState(Revalidate(t.validity), t.messages)
  }

  // ---------------------------------------------------------------------------
  // setCustomValidity

  /** setCustomValidity: customError becomes "the message is non-empty"; it
      never throws, and the empty string clears the flag and its message. */
  function SetCustomValidity(willValidate: bool, s: ControlState, message: string): (r: Outcome<ControlState>)
    ensures r.Done?
    ensures !willValidate ==> r.value == s
    ensures willValidate ==> r.value.validity.Keys == s.validity.Keys + {CustomErrorFlag, ValidFlag}
    ensures willValidate ==> r.value.validity[CustomErrorFlag] == (|message| > 0)
    ensures willValidate ==>
      Lookup(r.value.messages, CustomErrorFlag) == (if |message| > 0 then Some(message) else None)
    ensures willValidate ==> forall k | k in s.validity && k != ValidFlag && k != CustomErrorFlag ::
      r.value.validity[k] == s.validity[k]
    ensures willValidate ==> ValidKept(r.value.validity)
  {
    SetValidity(willValidate, s, CustomFlags(message), Some(message))
  }

  /** The flags object `{ customError: message.length > 0 }`. */
  function CustomFlags(message: string): (f: Flags)
    ensures KeySet(f) == {CustomErrorFlag}
    ensures |f| == 1 && f[0] == (CustomErrorFlag, |message| > 0)
  {
    var f := [(CustomErrorFlag, |message| > 0)];
    KeySetCons(f);
    KeySetCons(f[1..]);
    f
  }

  // ---------------------------------------------------------------------------
  // getValidationMessage

  /** getValidationMessage: the first stored message, or '' when the control
      will not validate or nothing is stored. */
  function GetValidationMessage(willValidate: bool, b: Bag): (r: string)
    ensures !willValidate || |b| == 0 ==> r == ""
    ensures willValidate && |b| > 0 ==> r == b[0].1 && Lookup(b, b[0].0) == Some(r)
    ensures r != "" ==> exists i | 0 <= i < |b| :: Lookup(b, b[i].0) == Some(r)
  {
    if willValidate && |b| > 0 then
      assert b[0].0 in KeySet(b[..1]);
      b[0].1
    else ""
  }

  /** Storing a message keeps the validation message the earliest-inserted
      one: only a first message, or a new message for the first key, changes
      what getValidationMessage returns. */
  lemma PutKeepsEarliest(b: Bag, k: string, m: string)
    ensures GetValidationMessage(true, Put(b, k, m)) ==
      if |b| == 0 || b[0].0 == k then m else GetValidationMessage(true, b)
  {
    var r := Put(b, k, m);
    LookupAt(r, 0);
  }

  // ---------------------------------------------------------------------------
  // The coherence invariant of a control's state

  /** The invariant setValidity, resetValidity and setCustomValidity keep:
      `valid` holds exactly when no other flag does, a message is stored for
      exactly the set flags, and no stored message is empty. */
  ghost predicate Coherent(s: ControlState) {
    && ValidKept(s.validity)
    && ValidFlag !in KeySet(s.messages)
    && (forall k | k in KeySet(s.messages) :: k in s.validity && s.validity[k])
    && (forall k | k in s.validity && k != ValidFlag && s.validity[k] :: k in KeySet(s.messages))
    && (forall i | 0 <= i < |s.messages| :: s.messages[i].1 != "")
  }

  lemma LookupNonEmpty(b: Bag, k: string)
    requires forall i | 0 <= i < |b| :: b[i].1 != ""
    ensures Lookup(b, k).Some? ==> Lookup(b, k).value != ""
  {
    if b != [] && b[0].0 != k {
      LookupNonEmpty(b[1..], k);
    }
  }

  lemma LookupIndex(b: Bag, k: string)
    requires Lookup(b, k).Some?
    ensures exists i | 0 <= i < |b| :: b[i] == (k, Lookup(b, k).value)
  {
    if b[0].0 != k {
      LookupIndex(b[1..], k);
      var i :| 0 <= i < |b[1..]| && b[1..][i] == (k, Lookup(b, k).value);
      assert b[i + 1] == b[1..][i];
    }
  }

  /** Stored messages are non-empty exactly when every lookup that succeeds
      returns a non-empty message. */
  lemma NonEmptyByLookup(b: Bag)
    requires forall k | k in KeySet(b) :: Lookup(b, k).value != ""
    ensures forall i | 0 <= i < |b| :: b[i].1 != ""
  {
    forall i | 0 <= i < |b| ensures b[i].1 != "" {
      assert b[i].0 in KeySet(b);
      LookupAt(b, i);
    }
  }

  /** A fresh control state is coherent. */
  lemma CreateCoherent(flags: seq<string>)
    requires ValidFlag !in flags
    ensures Coherent(ControlState(CreateValidityState(flags), []))
  {
  }

  /** setValidity keeps the coherence invariant (a flag named `valid` is the
      one input that could break it). */
  lemma {:induction false} SetValidityCoherent(willValidate: bool, s: ControlState, flags: Flags, message: Option<string>)
    requires Coherent(s)
    requires ValidFlag !in KeySet(flags)
    requires SetValidity(willValidate, s, flags, message).Done?
    ensures Coherent(SetValidity(willValidate, s, flags, message).value)
  {
    if willValidate {
      var t := SetValidity(willValidate, s, flags, message).value;
      assert SetValidityPost(s, flags, message, t);
      forall k | k in KeySet(t.messages) ensures k in t.validity && t.validity[k] {
        if k in KeySet(flags) {
          var i :| 0 <= i < |flags| && flags[i].0 == k;
        } else {
          assert Lookup(t.messages, k) == Lookup(s.messages, k);
        }
      }
      forall k | k in t.validity && k != ValidFlag && t.validity[k] ensures k in KeySet(t.messages) {
        if k in KeySet(flags) {
          var i :| 0 <= i < |flags| && flags[i].0 == k;
        } else {
          assert Lookup(t.messages, k) == Lookup(s.messages, k);
        }
      }
      forall k | k in KeySet(t.messages) ensures Lookup(t.messages, k).value != "" {
        if k in KeySet(flags) {
          var i :| 0 <= i < |flags| && flags[i].0 == k;
          assert Positive(flags);
        } else {
          LookupNonEmpty(s.messages, k);
        }
      }
      NonEmptyByLookup(t.messages);
    }
  }

  /** resetValidity keeps the coherence invariant. */
  lemma {:induction false} ResetValidityCoherent(s: ControlState, flags: seq<string>)
    requires Coherent(s)
    ensures Coherent(ResetValidity(s, flags))
  {
    var t := ResetValidity(s, flags);
    forall k | k in KeySet(t.messages) ensures k in t.validity && t.validity[k] && k != ValidFlag {
      assert k !in flags;
      assert Lookup(t.messages, k) == Lookup(s.messages, k);
    }
    forall k | k in t.validity && k != ValidFlag && t.validity[k] ensures k in KeySet(t.messages) {
      assert Lookup(t.messages, k) == Lookup(s.messages, k);
    }
    forall k | k in KeySet(t.messages) ensures Lookup(t.messages, k).value != "" {
      LookupNonEmpty(s.messages, k);
    }
    NonEmptyByLookup(t.messages);
  }

  /** setCustomValidity keeps the coherence invariant. */
  lemma SetCustomValidityCoherent(willValidate: bool, s: ControlState, message: string)
    requires Coherent(s)
    ensures Coherent(SetCustomValidity(willValidate, s, message).value)
  {
    SetValidityCoherent(willValidate, s, CustomFlags(message), Some(message));
  }

  /** A coherent control is invalid exactly when it carries a validation
      message (for a control that will validate). */
  lemma CoherentMessage(s: ControlState)
    requires Coherent(s)
    ensures IsValid(s.validity) <==> GetValidationMessage(true, s.messages) == ""
  {
    if |s.messages| > 0 {
      assert s.messages[0].0 in KeySet(s.messages);
    }
  }

  /** The earliest stored message wins: a later setValidity that does not
      touch the first flag leaves the control's message unchanged. */
  lemma FirstMessageKept(s: ControlState, flags: Flags, message: Option<string>)
    requires |s.messages| > 0 && s.messages[0].0 !in KeySet(flags)
    requires SetValidity(true, s, flags, message).Done?
    ensures GetValidationMessage(true, SetValidity(true, s, flags, message).value.messages)
         == GetValidationMessage(true, s.messages)
  {
  }

  // ---------------------------------------------------------------------------
  // checkValidity and reportValidity for one control

  datatype Checked = Checked(result: bool, events: seq<Event>, reports: seq<Id>)

  /** checkValidity: false exactly for a validating invalid control; one
      cancelable valid or invalid event either way. */
  function CheckValidity(id: Id, willValidate: bool, valid: bool): (r: Checked)
    ensures r.result <==> !(willValidate && !valid)
    ensures r.events == [Event(id, if r.result then Valid else Invalid)]
    ensures r.reports == []
  {
    if willValidate && !valid then Checked(false, [Event(id, Invalid)], [])
    else Checked(true, [Event(id, Valid)], [])
  }

  /** reportValidity: as checkValidity, and the reporter is called with the
      control when the dispatched event was not cancelled. */
  function ReportValidity(id: Id, willValidate: bool, valid: bool, cancels: Cancels): (r: Checked)
    ensures r.result == CheckValidity(id, willValidate, valid).result
    ensures r.events == CheckValidity(id, willValidate, valid).events
    ensures r.reports == if cancels(r.events[0].target, r.events[0].name) then [] else [id]
  {
    if willValidate && !valid then
      Checked(false, [Event(id, Invalid)], if cancels(id, Invalid) then [] else [id])
    else
      Checked(true, [Event(id, Valid)], if cancels(id, Valid) then [] else [id])
  }
}

=== FILE: common.dfy ===
/** Vocabulary shared by every module of the model: optional values, node
    identity, the events the engine dispatches, the cancellation oracle that
    stands in for event listeners, and order-preserving filtering. */
module Common {

  datatype Option<+T> = None | Some(value: T)

  /** Identity of a DOM node. Forms, controls and observer targets are
      compared by identity, never by value. */
  type Id = nat

  /** The events the engine dispatches on controls and forms. */
  datatype EventName =
    | Valid
    | Invalid
    | Validate(constraint: string)   // cancelable gate before a constraint runs
    | Validated                      // completion signal of a validation run

  datatype Event = Event(target: Id, name: EventName)

  /** `cancels(t, n)` holds when a listener for `n` on node `t` calls
      preventDefault, so that dispatchEvent returns false. */
  type Cancels = (Id, EventName) -> bool

  /** Keys of an association list are pairwise distinct (the own keys of a
      JavaScript object or the keys of a Map). */
  predicate UniqueKeys<K(==), V>(s: seq<(K, V)>) {
    forall i, j | 0 <= i < j < |s| :: s[i].0 != s[j].0
  }

  function KeySet<K, V>(s: seq<(K, V)>): set<K> {
    set i | 0 <= i < |s| :: s[i].0
  }

  lemma KeySetCons<K, V>(s: seq<(K, V)>)
    ensures s == [] ==> KeySet(s) == {}
    ensures s != [] ==> KeySet(s) == {s[0].0} + KeySet(s[1..])
  {
    if s != [] {
      forall k | k in KeySet(s) ensures k in {s[0].0} + KeySet(s[1..]) {
        var i :| 0 <= i < |s| && s[i].0 == k;
        if i > 0 { assert s[1..][i - 1].0 == k; }
      }
      forall k | k in KeySet(s[1..]) ensures k in KeySet(s) {
        var i :| 0 <= i < |s[1..]| && s[1..][i].0 == k;
        assert s[i + 1].0 == k;
      }
    }
  }

  /** The keys of an association list, in order. */
  function Keys<K, V>(s: seq<(K, V)>): (r: seq<K>)
    ensures |r| == |s|
    ensures forall i | 0 <= i < |s| :: r[i] == s[i].0
  {
    if s == [] then [] else [s[0].0] + Keys(s[1..])
  }

  lemma KeysSet<K, V>(s: seq<(K, V)>)
    ensures forall k :: k in Keys(s) <==> k in KeySet(s)
  {
    forall k ensures k in Keys(s) <==> k in KeySet(s) {
      if k in Keys(s) {
        var i :| 0 <= i < |Keys(s)| && Keys(s)[i] == k;
        assert s[i].0 == k;
      }
      if k in KeySet(s) {
        var i :| 0 <= i < |s| && s[i].0 == k;
        assert Keys(s)[i] == k;
      }
    }
  }

  /** Array.prototype.filter: the elements satisfying `p`, in their order. */
  function Filter<T>(s: seq<T>, p: T -> bool): (r: seq<T>)
    ensures |r| <= |s|
    ensures forall i | 0 <= i < |r| :: r[i] in s && p(r[i])
    ensures forall i | 0 <= i < |s| && p(s[i]) :: s[i] in r
  {
    if s == [] then [] else (if p(s[0]) then [s[0]] else []) + Filter(s[1..], p)
  }

  /** Filtering distributes over concatenation; together with the membership
      contract of Filter this pins down the kept elements and their order. */
  lemma {:induction false} FilterAppend<T>(a: seq<T>, b: seq<T>, p: T -> bool)
    ensures Filter(a + b, p) == Filter(a, p) + Filter(b, p)
  {
    if a == [] {
      assert a + b == b;
    } else {
      assert (a + b)[0] == a[0];
      assert (a + b)[1..] == a[1..] + b;
      FilterAppend(a[1..], b, p);
    }
  }

  /** The first kept element is the first element of `s` satisfying `p`. */
  lemma {:induction false} FilterFirst<T>(s: seq<T>, p: T -> bool)
    requires |Filter(s, p)| > 0
    ensures exists i | 0 <= i < |s| ::
      s[i] == Filter(s, p)[0] && p(s[i]) && forall j | 0 <= j < i :: !p(s[j])
  {
    if p(s[0]) {
      assert s[0] == Filter(s, p)[0];
    } else {
      assert Filter(s, p) == Filter(s[1..], p);
      FilterFirst(s[1..], p);
      var i :| 0 <= i < |s[1..]| && s[1..][i] == Filter(s[1..], p)[0] && p(s[1..][i])
        && forall j | 0 <= j < i :: !p(s[1..][j]);
      assert s[i + 1] == Filter(s, p)[0];
      forall j | 0 <= j < i + 1 ensures !p(s[j]) {
        if j > 0 { assert s[j] == s[1..][j - 1]; }
      }
    }
  }

  /** A sequence without repeated elements. */
  predicate Distinct<T(==)>(s: seq<T>) {
    forall i, j | 0 <= i < j < |s| :: s[i] != s[j]
  }
}

=== FILE: constraint.dfy ===
/** The constraint registry queries of lib/constraint.ts. A constraint is
    known by its name; its `validate` function is outside the model, so a
    constraint is the pair of lists the queries read. */
module Constraint {
  import opened Common

  datatype Constraint = Constraint(states: seq<string>, attributes: seq<string>)

  /** A constraints object: named constraints in key order, names distinct. */
  type Constraints = c: seq<(string, Constraint)> | UniqueKeys(c) witness []

  /** Does the constraint listen to some attribute of `attrs`? */
  predicate Listens(c: Constraint, attrs: seq<string>) {
    exists a | a in c.attributes :: a in attrs
  }

  /** The reduce of getByAttributes: keep the entries that listen to one of
      `attrs`, in key order. */
  function Select(cs: seq<(string, Constraint)>, attrs: seq<string>): (r: seq<(string, Constraint)>)
    ensures forall i | 0 <= i < |r| :: r[i] in cs && Listens(r[i].1, attrs)
    ensures forall i | 0 <= i < |cs| && Listens(cs[i].1, attrs) :: cs[i] in r
    ensures |r| <= |cs|
  {
    if cs == [] then []
    else (if Listens(cs[0].1, attrs) then [cs[0]] else []) + Select(cs[1..], attrs)
  }

  /** Selecting from a constraints object keeps the names distinct. */
  lemma {:induction false} SelectUnique(cs: Constraints, attrs: seq<string>)
    ensures UniqueKeys(Select(cs, attrs))
  {
    if cs != [] {
      var rest: Constraints := cs[1..];
      SelectUnique(rest, attrs);
      var s := Select(rest, attrs);
      forall i | 0 <= i < |s| ensures s[i].0 != cs[0].0 {
        var j :| 0 <= j < |rest| && rest[j] == s[i];
        assert cs[j + 1] == s[i];
      }
    }
  }

  /** getByAttributes(constraints)(attributes). */
  function GetByAttributes(cs: Constraints, attrs: seq<string>): (r: Constraints)
    ensures forall i | 0 <= i < |r| :: r[i] in cs && Listens(r[i].1, attrs)
    ensures forall i | 0 <= i < |cs| && Listens(cs[i].1, attrs) :: cs[i] in r
  {
    SelectUnique(cs, attrs);
    Select(cs, attrs)
  }

  /** getValidityStates: every constraint's states, in constraint order,
      duplicates kept. */
  function GetValidityStates(cs: seq<(string, Constraint)>): seq<string> {
    if cs == [] then [] else GetValidityStates(cs[..|cs| - 1]) + cs[|cs| - 1].1.states
  }

  /** `new Set([...result, ...names])`: the names not yet present are
      appended, in order (a Set iterates in insertion order). */
  function AddAll(result: seq<string>, names: seq<string>): (r: seq<string>)
    requires Distinct(result)
    ensures Distinct(r)
    ensures forall a :: a in r <==> a in result || a in names
    ensures |result| <= |r| && r[..|result|] == result
    decreases |names|
  {
    if names == [] then result
    else if names[0] in result then AddAll(result, names[1..])
    else
      var next := result + [names[0]];
      assert forall i | 0 <= i < |result| :: next[i] == result[i];
      var r := AddAll(next, names[1..]);
      assert r[..|result|] == r[..|next|][..|result|];
      r
  }

  /** getAttributes: the union of every constraint's attributes, as the
      insertion-ordered Set the reduce builds. */
  function GetAttributes(cs: seq<(string, Constraint)>): (r: seq<string>)
    ensures Distinct(r)
    ensures forall a :: a in r <==> exists i | 0 <= i < |cs| :: a in cs[i].1.attributes
  {
    if cs == [] then []
    else
      var init := cs[..|cs| - 1];
      var r := AddAll(GetAttributes(init), cs[|cs| - 1].1.attributes);
      assert forall i | 0 <= i < |init| :: init[i] == cs[i];
      r
  }

  // ---------------------------------------------------------------------------
  // Properties of the queries

  /** An empty attribute list selects nothing, and a constraint that lists no
      attributes is never selected. */
  lemma SelectNothing(cs: Constraints, attrs: seq<string>)
    ensures attrs == [] ==> GetByAttributes(cs, attrs) == []
    ensures forall i | 0 <= i < |GetByAttributes(cs, attrs)| :: GetByAttributes(cs, attrs)[i].1.attributes != []
  {
    var r := GetByAttributes(cs, attrs);
    assert |r| > 0 ==> Listens(r[0].1, attrs);
  }

  /** Selection only depends on the set of attribute names, not their order
      or repetitions. */
  lemma {:induction false} SelectBySet(cs: seq<(string, Constraint)>, a: seq<string>, b: seq<string>)
    requires forall x :: x in a <==> x in b
    ensures Select(cs, a) == Select(cs, b)
  {
    if cs != [] {
      SelectBySet(cs[1..], a, b);
      assert Listens(cs[0].1, a) <==> Listens(cs[0].1, b);
    }
  }

  /** Monotonicity: for A ⊆ B the selection for A is the selection for B
      filtered once more by A, so it is a sub-map in the same order. */
  lemma {:induction false} SelectMonotone(cs: seq<(string, Constraint)>, a: seq<string>, b: seq<string>)
    requires forall x | x in a :: x in b
    ensures Select(Select(cs, b), a) == Select(cs, a)
  {
    if cs != [] {
      SelectMonotone(cs[1..], a, b);
      if Listens(cs[0].1, a) {
        var x :| x in cs[0].1.attributes && x in a;
        assert Listens(cs[0].1, b);
      }
      if Listens(cs[0].1, b) {
        var s := Select(cs, b);
        assert s == [cs[0]] + Select(cs[1..], b);
        assert s[0] == cs[0] && s[1..] == Select(cs[1..], b);
        assert Select(s, a) == (if Listens(cs[0].1, a) then [cs[0]] else []) + Select(s[1..], a);
      } else {
        assert Select(cs, b) == Select(cs[1..], b);
        assert Select(cs, a) == Select(cs[1..], a);
      }
    }
  }

  lemma GetByAttributesMonotone(cs: Constraints, a: seq<string>, b: seq<string>)
    requires forall x | x in a :: x in b
    ensures GetByAttributes(GetByAttributes(cs, b), a) == GetByAttributes(cs, a)
    ensures forall i | 0 <= i < |GetByAttributes(cs, a)| :: GetByAttributes(cs, a)[i] in GetByAttributes(cs, b)
  {
    SelectMonotone(cs, a, b);
  }

  /** Every selected constraint listens to an attribute that is both
      registered and asked for. */
  lemma SelectedAttribute(cs: Constraints, attrs: seq<string>, i: nat)
    requires i < |GetByAttributes(cs, attrs)|
    ensures exists a :: a in GetByAttributes(cs, attrs)[i].1.attributes && a in GetAttributes(cs) && a in attrs
  {
    var r := GetByAttributes(cs, attrs);
    var a :| a in r[i].1.attributes && a in attrs;
    var j :| 0 <= j < |cs| && cs[j] == r[i];
    assert a in GetAttributes(cs);
  }

  /** getValidityStates distributes over joining two constraint lists, and a
      single constraint contributes its own states. */
  lemma {:induction false} StatesAppend(a: seq<(string, Constraint)>, b: seq<(string, Constraint)>)
    ensures GetValidityStates(a + b) == GetValidityStates(a) + GetValidityStates(b)
    decreases |b|
  {
    if b == [] {
      assert a + b == a;
    } else {
      var ab := a + b;
      assert ab[..|ab| - 1] == a + b[..|b| - 1];
      assert ab[|ab| - 1] == b[|b| - 1];
      StatesAppend(a, b[..|b| - 1]);
    }
  }

  lemma StatesSingle(name: string, c: Constraint)
    ensures GetValidityStates([(name, c)]) == c.states
  {
    assert [(name, c)][..0] == [];
  }

  /** A state is listed exactly when some constraint declares it, and the
      list is as long as all declarations together. */
  lemma {:induction false} StatesMembers(cs: seq<(string, Constraint)>, s: string)
    ensures s in GetValidityStates(cs) <==> exists i | 0 <= i < |cs| :: s in cs[i].1.states
  {
    if cs != [] {
      var init := cs[..|cs| - 1];
      StatesMembers(init, s);
      assert forall i | 0 <= i < |init| :: init[i] == cs[i];
      if s in GetValidityStates(init) {
        var i :| 0 <= i < |init| && s in init[i].1.states;
        assert s in cs[i].1.states;
      }
    }
  }

  /** StatesMembers for every state at once. */
  lemma StatesUnion(cs: seq<(string, Constraint)>)
    ensures forall s :: s in GetValidityStates(cs) <==> exists i | 0 <= i < |cs| :: s in cs[i].1.states
  {
    forall s ensures s in GetValidityStates(cs) <==> exists i | 0 <= i < |cs| :: s in cs[i].1.states {
      StatesMembers(cs, s);
    }
  }
}

=== FILE: control.dfy ===
/** lib/control.ts: installing the constraint validation API on a listed
    element, the ControlApi handed back to the engine, and reset. */
module Control {
  import opened Common
  import opened Utils
  import opened Api
  import opened Host
  import Observer

  /** The five API members every listed control gets. */
  const ApiProps: set<Prop> :=
    {ValidationMessageProp, ValidityProp, SetCustomValidityProp, CheckValidityProp, ReportValidityProp}

  /** Everything reset deletes. */
  const AllProps: set<Prop> := ApiProps + {ValueProp}

  /** The ControlApi of a control: the node it is bound to, the engine's
      validity states it resets, and whether an input listener was added
      (the `validatorEventListener` reset is bound to). */
  datatype ControlApi = ControlApi(target: Id, states: seq<string>, listener: bool)

  /** setup(state, control). */
  function Setup(h: Host, e: Element, states: seq<string>): (r: (Host, ControlApi))
    requires Observer.Valid(h.observer)
    ensures Observer.Valid(r.0.observer)
    ensures OverridesOf(r.0, e.id) ==
      OverridesOf(h, e.id) + ApiProps + (if IsSubmittableElement(e) then {ValueProp} else {})
    ensures forall other | other != e.id :: OverridesOf(r.0, other) == OverridesOf(h, other)
    ensures r.0.controls == h.controls[e.id := ControlState(CreateValidityState(states), [])]
    ensures r.1 == ControlApi(e.id, states, IsSubmittableElement(e))
    ensures IsSubmittableElement(e) ==>
      r.0.observer == Observer.Connect(h.observer, e.id) && r.0.inputListeners == h.inputListeners + {e.id}
    ensures !IsSubmittableElement(e) ==>
      r.0.observer == h.observer && r.0.inputListeners == h.inputListeners
    ensures r.0.runs == h.runs && r.0.values == h.values && r.0.submitGuards == h.submitGuards
    ensures r.0.nativeNoValidate == h.nativeNoValidate && r.0.dataNoValidate == h.dataNoValidate
  {
    var submittable := IsSubmittableElement(e);
    var h1 := Define(h, e.id, ApiProps + (if submittable then {ValueProp} else {}));
    var h2 := h1.(controls := h1.controls[e.id := ControlState(CreateValidityState(states), [])]);
    var h3 :=
      if submittable then
        h2.(observer := Observer.Connect(h2.observer, e.id), inputListeners := h2.inputListeners + {e.id})
      else h2;
    (h3, ControlApi(e.id, states, submittable))
  }

  /** reset(state, control, validatorEventListener). */
  function Reset(h: Host, api: ControlApi, e: Element): (r: Host)
    requires Observer.Valid(h.observer) && api.target == e.id
    ensures Observer.Valid(r.observer)
    ensures OverridesOf(r, e.id) == OverridesOf(h, e.id) - AllProps
    ensures forall other | other != e.id :: OverridesOf(r, other) == OverridesOf(h, other)
    ensures IsSubmittableElement(e) ==> r.observer == Observer.Disconnect(h.observer, e.id)
    ensures !IsSubmittableElement(e) ==> r.observer == h.observer
    ensures r.inputListeners ==
      if IsSubmittableElement(e) && api.listener then h.inputListeners - {e.id} else h.inputListeners
    ensures r.controls == h.controls && r.runs == h.runs && r.values == h.values
    ensures r.submitGuards == h.submitGuards
    ensures r.nativeNoValidate == h.nativeNoValidate && r.dataNoValidate == h.dataNoValidate
  {
    var h1 :=
      if IsSubmittableElement(e) then
        var o := Observer.Disconnect(h.observer, e.id);
        h.(observer := o, inputListeners := if api.listener then h.inputListeners - {e.id} else h.inputListeners)
      else h;
    Remove(h1, e.id, AllProps)
  }

  /** Setting a control up and resetting it leaves its node, the observer
      and the listeners as they were, for a control that was not set up. */
  lemma SetupReset(h: Host, e: Element, states: seq<string>)
    requires Observer.Valid(h.observer)
    requires OverridesOf(h, e.id) * AllProps == {}
    requires e.id !in h.observer.observables && e.id !in h.inputListeners
    ensures var (h1, api) := Setup(h, e, states);
      var r := Reset(h1, api, e);
      && (forall id :: OverridesOf(r, id) == OverridesOf(h, id))
      && r.observer == h.observer
      && r.inputListeners == h.inputListeners
  {
    var (h1, api) := Setup(h, e, states);
    var r := Reset(h1, api, e);
    forall id ensures OverridesOf(r, id) == OverridesOf(h, id) {
      if id == e.id {
        PropsRestored(OverridesOf(h, id), ApiProps + (if IsSubmittableElement(e) then {ValueProp} else {}));
      }
    }
    if IsSubmittableElement(e) {
      Observer.ConnectDisconnect(h.observer, e.id);
    }
  }

  /** Adding some of AllProps to a set holding none of them and deleting all
      of AllProps gives the set back. */
  lemma PropsRestored(before: set<Prop>, added: set<Prop>)
    requires before * AllProps == {} && added <= AllProps
    ensures before + added - AllProps == before
  {
  }

  // ---------------------------------------------------------------------------
  // The members bound to the control

  /** The `validity` getter: the state object created at setup, as later
      calls changed it. */
  function Validity(h: Host, api: ControlApi): Validity
    requires api.target in h.controls
  {
    h.controls[api.target].validity
  }

  /** The getter right after setup returns the freshly created state. */
  lemma ValidityAfterSetup(h: Host, e: Element, states: seq<string>)
    requires Observer.Valid(h.observer)
    requires ValidFlag !in states
    ensures var (h1, api) := Setup(h, e, states);
      && Validity(h1, api) == CreateValidityState(states)
      && IsValid(Validity(h1, api))
      && Coherent(h1.controls[e.id])
  {
    CreateCoherent(states);
  }

  /** The `validationMessage` getter: getValidationMessage over this control's
      own message bag. */
  function ValidationMessage(h: Host, api: ControlApi, e: Element): (r: string)
    requires api.target == e.id && e.id in h.controls
    ensures !e.willValidate ==> r == ""
    ensures r == GetValidationMessage(e.willValidate, h.controls[e.id].messages)
  {
    GetValidationMessage(e.willValidate, h.controls[e.id].messages)
  }

  /** The control's setValidity as bound in its ControlApi; only this
      control's state changes. */
  function SetValidityOf(h: Host, api: ControlApi, e: Element, flags: Flags, message: Option<string>)
    : (r: Outcome<Host>)
    requires api.target == e.id && e.id in h.controls
    ensures r.TypeError? <==> SetValidity(e.willValidate, h.controls[e.id], flags, message).TypeError?
    ensures r.Done? ==> r.value == h.(controls := h.controls[e.id := SetValidity(e.willValidate, h.controls[e.id], flags, message).value])
  {
    match SetValidity(e.willValidate, h.controls[e.id], flags, message)
    case Done(s) => Done(h.(controls := h.controls[e.id := s]))
    case TypeError => TypeError
  }

  /** The bound setCustomValidity. */
  function SetCustomValidityOf(h: Host, api: ControlApi, e: Element, message: string): (r: Host)
    requires api.target == e.id && e.id in h.controls
    ensures r.controls.Keys == h.controls.Keys
    ensures r.controls[e.id] == SetCustomValidity(e.willValidate, h.controls[e.id], message).value
    ensures forall id | id in h.controls && id != e.id :: r.controls[id] == h.controls[id]
  {
    h.(controls := h.controls[e.id := SetCustomValidity(e.willValidate, h.controls[e.id], message).value])
  }

  /** The ControlApi's resetValidityState: resetValidity over the engine's
      states, nothing else. */
  function ResetValidityState(h: Host, api: ControlApi): (r: Host)
    requires api.target in h.controls
    ensures r.controls == h.controls[api.target := ResetValidity(h.controls[api.target], api.states)]
  {
    h.(controls := h.controls[api.target := ResetValidity(h.controls[api.target], api.states)])
  }

  /** The bound checkValidity and reportValidity read this control's own
      state; reportValidity reports to the engine reporter. */
  function CheckValidityOf(h: Host, e: Element): (r: Checked)
    requires e.id in h.controls
    ensures r.result <==> !(e.willValidate && !IsValid(h.controls[e.id].validity))
    ensures r.events == [Event(e.id, if r.result then Valid else Invalid)]
  {
    CheckValidity(e.id, e.willValidate, IsValid(h.controls[e.id].validity))
  }

  function ReportValidityOf(h: Host, e: Element, cancels: Cancels): (r: Checked)
    requires e.id in h.controls
    ensures r.result == CheckValidityOf(h, e).result && r.events == CheckValidityOf(h, e).events
    ensures r.reports == if cancels(e.id, r.events[0].name) then [] else [e.id]
  {
    ReportValidity(e.id, e.willValidate, IsValid(h.controls[e.id].validity), cancels)
  }

  /** A custom error survives a validation run: resetValidityState only
      clears the flags constraints declare. */
  lemma CustomErrorSurvivesRun(h: Host, api: ControlApi, e: Element, message: string)
    requires api.target == e.id && e.id in h.controls
    requires e.willValidate && message != ""
    requires CustomErrorFlag !in api.states && ValidFlag !in api.states
    ensures var r := ResetValidityState(SetCustomValidityOf(h, api, e, message), api);
      && r.controls[e.id].validity[CustomErrorFlag]
      && Lookup(r.controls[e.id].messages, CustomErrorFlag) == Some(message)
      && !IsValid(r.controls[e.id].validity)
  {
  }

  // ---------------------------------------------------------------------------
  // The value accessor

  /** Writing `value`. Without the override the write reaches the native
      accessor and is stored. The override of a submittable control calls the
      setter it took from the control's immediate prototype, if that
      prototype has one (an `<object>` has none, so the write is dropped),
      and then asks the validator to run on the control. */
  function WriteValue(h: Host, e: Element, v: string): (r: Host)
    ensures ValueProp !in OverridesOf(h, e.id) ==> r == h.(values := h.values[e.id := v])
    ensures ValueProp in OverridesOf(h, e.id) ==>
      && r.values == (if e.protoValue then h.values[e.id := v] else h.values)
      && r.runs == h.runs + [e.id]
    ensures r.(values := h.values, runs := h.runs) == h
  {
    if ValueProp !in OverridesOf(h, e.id) then h.(values := h.values[e.id := v])
    else
      var stored := if e.protoValue then h.values[e.id := v] else h.values;
      h.(values := stored, runs := h.runs + [e.id])
  }

  /** Reading `value`: what the native accessor returns, or, through the
      override, what the prototype getter returns (undefined when the
      immediate prototype has no `value` accessor). */
  function ReadValue(h: Host, e: Element): (r: Option<string>)
    ensures ValueProp in OverridesOf(h, e.id) && !e.protoValue ==> r == None
    ensures r.Some? ==> e.id in h.values && r.value == h.values[e.id]
    ensures (ValueProp !in OverridesOf(h, e.id) || e.protoValue) && e.id in h.values ==> r == Some(h.values[e.id])
  {
    if ValueProp in OverridesOf(h, e.id) && !e.protoValue then None
    else if e.id in h.values then Some(h.values[e.id])
    else None
  }

  /** After setup, a written value reads back unchanged unless the control
      is submittable and its immediate prototype has no `value` accessor,
      in which case it reads undefined; the validator is asked to run once
      on the control, exactly for submittable controls. */
  lemma ValueRoundTrip(h: Host, e: Element, states: seq<string>, v: string)
    requires Observer.Valid(h.observer)
    requires ValueProp !in OverridesOf(h, e.id)
    ensures var h1 := Setup(h, e, states).0;
      var r := WriteValue(h1, e, v);
      && ReadValue(r, e) == (if IsSubmittableElement(e) && !e.protoValue then None else Some(v))
      && r.runs == h.runs + (if IsSubmittableElement(e) then [e.id] else [])
  {
  }

  /** Through the override a write is visible to the native accessor exactly
      when the prototype supplies one: without it, the stored value is the
      one from before setup. */
  lemma OverrideDropsWrite(h: Host, e: Element, states: seq<string>, v: string)
    requires Observer.Valid(h.observer)
    requires IsSubmittableElement(e) && ValueProp !in OverridesOf(h, e.id)
    ensures var r := WriteValue(Setup(h, e, states).0, e, v);
      && (e.protoValue ==> r.values == h.values[e.id := v])
      && (!e.protoValue ==> r.values == h.values)
  {
  }
}

=== FILE: core.dfy ===
/** lib/core.ts: mounting and unmounting a form or listed element and its
    `elements` collection into the engine's registry of references. The
    adapters it calls are recorded as a trace of actions in call order. */
module Core {
  import opened Common
  import opened Utils
  import opened Constraint

  /** The calls mount and unmount make on the adapters, the element, the
      observer and the validator. */
  datatype Action =
    | SetupForm(id: Id)          // createFormApi + setupForm
    | AddSubmitGuard(id: Id)     // addEventListener('submit', submitGuard)
    | SetupControl(id: Id)       // createControlApi + setupControl
    | Connect(id: Id)            // observer.connect
    | AddInputListener(id: Id)   // addEventListener('input', validator.runStream)
    | RunValidator(id: Id)       // validator.run
    | RemoveSubmitGuard(id: Id)
    | TeardownForm(id: Id)
    | RemoveInputListener(id: Id)
    | Disconnect(id: Id)
    | TeardownControl(id: Id)

  /** The refs WeakMap (only its key set matters to mount and unmount) and
      the actions performed so far. */
  datatype Registry = Registry(refs: set<Id>, trace: seq<Action>)

  /** Reference-carrying elements: forms and listed elements. */
  predicate Mountable(e: Element) {
    IsForm(e) || IsListedElement(e)
  }

  /** mount(state)(element). */
  function Mount(dom: Dom, reg: Registry, id: Id): (r: Registry)
    requires WellFormed(dom) && id in dom
    ensures reg.refs <= r.refs
    ensures |reg.trace| <= |r.trace| && r.trace[..|reg.trace|] == reg.trace
    ensures forall x | x in r.refs - reg.refs :: x in dom && (x == id || dom[x].height < dom[id].height)
    ensures id in r.refs <==> id in reg.refs || Mountable(dom[id])
    decreases dom[id].height, 1, 0
  {
    var e := dom[id];
    if id in reg.refs then reg
    else if IsForm(e) then
      var set_ := Registry(reg.refs + {id}, reg.trace + [SetupForm(id), AddSubmitGuard(id)]);
      MountAll(dom, set_, e.elements, e.height)
    else if IsSubmittableElement(e) then
      Registry(reg.refs + {id}, reg.trace + [SetupControl(id), Connect(id), AddInputListener(id), RunValidator(id)])
    else if IsListedElement(e) then
      var set_ := Registry(reg.refs + {id}, reg.trace + [SetupControl(id)]);
      if IsFieldSet(e) then MountAll(dom, set_, e.elements, e.height) else set_
    else reg
  }

  /** `Array.from(elements).forEach(mount(state))`. */
  function MountAll(dom: Dom, reg: Registry, ids: seq<Id>, bound: nat): (r: Registry)
    requires WellFormed(dom) && Below(dom, ids, bound)
    ensures reg.refs <= r.refs
    ensures |reg.trace| <= |r.trace| && r.trace[..|reg.trace|] == reg.trace
    ensures forall x | x in r.refs - reg.refs :: x in dom && dom[x].height < bound
    ensures forall i | 0 <= i < |ids| && Mountable(dom[ids[i]]) :: ids[i] in r.refs
    decreases bound, 0, |ids|
  {
    if ids == [] then reg
    else
      var first := Mount(dom, reg, ids[0]);
      var r := MountAll(dom, first, ids[1..], bound);
      assert forall i | 1 <= i < |ids| :: ids[i] == ids[1..][i - 1];
      r
  }

  /** unmount(state)(element). */
  function Unmount(dom: Dom, reg: Registry, id: Id): (r: Registry)
    requires WellFormed(dom) && id in dom
    ensures r.refs <= reg.refs
    ensures |reg.trace| <= |r.trace| && r.trace[..|reg.trace|] == reg.trace
    ensures id !in reg.refs ==> r == reg
    ensures id in reg.refs && Mountable(dom[id]) ==> id !in r.refs
    ensures forall x | x in reg.refs - r.refs :: x in dom && (x == id || dom[x].height < dom[id].height)
    decreases dom[id].height, 1, 0
  {
    var e := dom[id];
    if id !in reg.refs then reg
    else if IsForm(e) then
      var inner := UnmountAll(dom, reg, e.elements, e.height);
      Registry(inner.refs - {id}, inner.trace + [RemoveSubmitGuard(id), TeardownForm(id)])
    else if IsSubmittableElement(e) then
      Registry(reg.refs - {id}, reg.trace + [RemoveInputListener(id), Disconnect(id), TeardownControl(id)])
    else if IsListedElement(e) then
      var inner := if IsFieldSet(e) then UnmountAll(dom, reg, e.elements, e.height) else reg;
      Registry(inner.refs - {id}, inner.trace + [TeardownControl(id)])
    else reg
  }

  /** `Array.from(elements).forEach(unmount(state))`. */
  function UnmountAll(dom: Dom, reg: Registry, ids: seq<Id>, bound: nat): (r: Registry)
    requires WellFormed(dom) && Below(dom, ids, bound)
    ensures r.refs <= reg.refs
    ensures |reg.trace| <= |r.trace| && r.trace[..|reg.trace|] == reg.trace
    ensures forall x | x in reg.refs - r.refs :: x in dom && dom[x].height < bound
    ensures forall i | 0 <= i < |ids| && Mountable(dom[ids[i]]) :: ids[i] !in r.refs
    decreases bound, 0, |ids|
  {
    if ids == [] then reg
    else
      var r := UnmountAll(dom, Unmount(dom, reg, ids[0]), ids[1..], bound);
      assert forall i | 1 <= i < |ids| :: ids[i] == ids[1..][i - 1];
      r
  }

  // ---------------------------------------------------------------------------
  // Properties

  /** Mounting a submittable control that is not a form and has no reference
      yet sets it up, observes it, listens to input and runs the validator on
      it once, in that order. */
  lemma MountSubmittable(dom: Dom, reg: Registry, id: Id)
    requires WellFormed(dom) && id in dom && id !in reg.refs
    requires !IsForm(dom[id]) && IsSubmittableElement(dom[id])
    ensures Mount(dom, reg, id) ==
      Registry(reg.refs + {id}, reg.trace + [SetupControl(id), Connect(id), AddInputListener(id), RunValidator(id)])
    ensures Unmount(dom, Mount(dom, reg, id), id) ==
      Registry(reg.refs, reg.trace + [SetupControl(id), Connect(id), AddInputListener(id), RunValidator(id),
                                      RemoveInputListener(id), Disconnect(id), TeardownControl(id)])
  {
  }

  /** Mounting an unregistered form sets the form up and adds the submit
      guard before anything of its collection is mounted. */
  lemma MountForm(dom: Dom, reg: Registry, id: Id)
    requires WellFormed(dom) && id in dom && id !in reg.refs && IsForm(dom[id])
    ensures var r := Mount(dom, reg, id);
      && id in r.refs
      && |r.trace| >= |reg.trace| + 2
      && r.trace[|reg.trace|..|reg.trace| + 2] == [SetupForm(id), AddSubmitGuard(id)]
  {
    var e := dom[id];
    var set_ := Registry(reg.refs + {id}, reg.trace + [SetupForm(id), AddSubmitGuard(id)]);
    var r := MountAll(dom, set_, e.elements, e.height);
    assert Mount(dom, reg, id) == r;
    assert r.trace[..|set_.trace|] == set_.trace;
    assert r.trace[|reg.trace|..|reg.trace| + 2] == set_.trace[|reg.trace|..];
  }

  /** Mounting a listed element that is neither submittable nor a form or
      fieldset (an `output`) sets the control up and registers it without
      recursion; unmounting it tears it down again. */
  lemma MountListed(dom: Dom, reg: Registry, id: Id)
    requires WellFormed(dom) && id in dom && id !in reg.refs
    requires IsListedElement(dom[id]) && !IsSubmittableElement(dom[id])
    requires !IsForm(dom[id]) && !IsFieldSet(dom[id])
    ensures Mount(dom, reg, id) == Registry(reg.refs + {id}, reg.trace + [SetupControl(id)])
    ensures Unmount(dom, Mount(dom, reg, id), id) ==
      Registry(reg.refs, reg.trace + [SetupControl(id), TeardownControl(id)])
  {
  }

  /** Mounting an unregistered fieldset sets the control up before its
      collection is mounted. */
  lemma MountFieldSet(dom: Dom, reg: Registry, id: Id)
    requires WellFormed(dom) && id in dom && id !in reg.refs
    requires IsFieldSet(dom[id]) && !IsSubmittableElement(dom[id])
    ensures var r := Mount(dom, reg, id);
      id in r.refs && |r.trace| > |reg.trace| && r.trace[|reg.trace|] == SetupControl(id)
  {
    var e := dom[id];
    assert !IsForm(e) && IsListedElement(e);
    var set_ := Registry(reg.refs + {id}, reg.trace + [SetupControl(id)]);
    var r := MountAll(dom, set_, e.elements, e.height);
    assert Mount(dom, reg, id) == r;
    assert r.trace[..|set_.trace|] == set_.trace;
    assert r.trace[|reg.trace|] == set_.trace[|reg.trace|];
  }

  /** Unmounting a registered form unmounts its collection first, then
      removes the submit guard and tears the form down, in that order. */
  lemma UnmountForm(dom: Dom, reg: Registry, id: Id)
    requires WellFormed(dom) && id in dom && id in reg.refs && IsForm(dom[id])
    ensures var r := Unmount(dom, reg, id);
      var inner := UnmountAll(dom, reg, dom[id].elements, dom[id].height);
      && id !in r.refs
      && |r.trace| >= |reg.trace| + 2
      && r.trace[..|r.trace| - 2] == inner.trace
      && r.trace[|r.trace| - 2..] == [RemoveSubmitGuard(id), TeardownForm(id)]
  {
  }

  /** Unmounting a registered listed element that is neither submittable nor
      a form ends with tearing the control down; without a collection that is
      all it does. */
  lemma UnmountListed(dom: Dom, reg: Registry, id: Id)
    requires WellFormed(dom) && id in dom && id in reg.refs
    requires IsListedElement(dom[id]) && !IsSubmittableElement(dom[id]) && !IsForm(dom[id])
    ensures var r := Unmount(dom, reg, id);
      && id !in r.refs
      && |r.trace| > |reg.trace| && r.trace[|r.trace| - 1] == TeardownControl(id)
      && (!IsFieldSet(dom[id]) ==> r == Registry(reg.refs - {id}, reg.trace + [TeardownControl(id)]))
  {
  }

  /** Elements that are neither forms nor listed are ignored by both. */
  lemma IgnoresOthers(dom: Dom, reg: Registry, id: Id)
    requires WellFormed(dom) && id in dom && !Mountable(dom[id])
    ensures Mount(dom, reg, id) == reg
    ensures id !in reg.refs ==> Unmount(dom, reg, id) == reg
  {
  }

  /** Every element of the list is mounted, or ignored. */
  predicate Settled(dom: Dom, reg: Registry, ids: seq<Id>)
    requires forall i | 0 <= i < |ids| :: ids[i] in dom
  {
    forall i | 0 <= i < |ids| :: ids[i] in reg.refs || !Mountable(dom[ids[i]])
  }

  /** Mounting a list whose elements are all settled changes nothing: the
      refs check makes mounting idempotent, even when an element is reached
      twice (a form's collection also lists the controls of its fieldsets). */
  lemma {:induction false} MountAllSettled(dom: Dom, reg: Registry, ids: seq<Id>, bound: nat)
    requires WellFormed(dom) && Below(dom, ids, bound) && Settled(dom, reg, ids)
    ensures MountAll(dom, reg, ids, bound) == reg
    decreases |ids|
  {
    if ids != [] {
      assert Mount(dom, reg, ids[0]) == reg;
      MountAllSettled(dom, reg, ids[1..], bound);
    }
  }

  /** Mounting a list twice is mounting it once. */
  lemma MountAllIdempotent(dom: Dom, reg: Registry, ids: seq<Id>, bound: nat)
    requires WellFormed(dom) && Below(dom, ids, bound)
    ensures var once := MountAll(dom, reg, ids, bound);
      MountAll(dom, once, ids, bound) == once
  {
    MountAllSettled(dom, MountAll(dom, reg, ids, bound), ids, bound);
  }

  /** Mounting one element twice is mounting it once. */
  lemma MountIdempotent(dom: Dom, reg: Registry, id: Id)
    requires WellFormed(dom) && id in dom
    ensures Mount(dom, Mount(dom, reg, id), id) == Mount(dom, reg, id)
  {
  }

  /** Unmounting a list none of whose elements is registered changes
      nothing. */
  lemma {:induction false} UnmountAllGone(dom: Dom, reg: Registry, ids: seq<Id>, bound: nat)
    requires WellFormed(dom) && Below(dom, ids, bound)
    requires forall i | 0 <= i < |ids| :: ids[i] !in reg.refs
    ensures UnmountAll(dom, reg, ids, bound) == reg
    decreases |ids|
  {
    if ids != [] {
      UnmountAllGone(dom, reg, ids[1..], bound);
    }
  }

  /** A mounted form is registered together with every mountable element of
      its collection; a mounted fieldset likewise. */
  lemma MountRegistersCollection(dom: Dom, reg: Registry, id: Id)
    requires WellFormed(dom) && id in dom && id !in reg.refs
    requires IsForm(dom[id]) || (IsListedElement(dom[id]) && IsFieldSet(dom[id]) && !IsSubmittableElement(dom[id]))
    ensures var r := Mount(dom, reg, id);
      id in r.refs &&
      forall c | c in dom[id].elements && Mountable(dom[c]) :: c in r.refs
  {
    var e := dom[id];
    forall c | c in e.elements && Mountable(dom[c])
      ensures c in Mount(dom, reg, id).refs
    {
      var i :| 0 <= i < |e.elements| && e.elements[i] == c;
    }
  }

  /** Unmounting a registered form, or a registered fieldset that is not
      submittable, unregisters it together with every mountable element of
      its collection. */
  lemma UnmountClearsCollection(dom: Dom, reg: Registry, id: Id)
    requires WellFormed(dom) && id in dom && id in reg.refs
    requires IsForm(dom[id]) || (IsListedElement(dom[id]) && IsFieldSet(dom[id]) && !IsSubmittableElement(dom[id]))
    ensures var r := Unmount(dom, reg, id);
      id !in r.refs &&
      forall c | c in dom[id].elements && Mountable(dom[c]) :: c !in r.refs
  {
    var e := dom[id];
    forall c | c in e.elements && Mountable(dom[c])
      ensures c !in Unmount(dom, reg, id).refs
    {
      var i :| 0 <= i < |e.elements| && e.elements[i] == c;
    }
  }

  // ---------------------------------------------------------------------------
  // create

  /** The derived part of the engine state: the attributes the observer
      filters by and the validity states every control is created with. The
      reporter and i18n callbacks are outside the model. */
  datatype Config = Config(constraints: Constraints, attributes: seq<string>, states: seq<string>)

  function Create(cs: Constraints): (r: Config)
    ensures Distinct(r.attributes)
    ensures forall a :: a in r.attributes <==> exists i | 0 <= i < |cs| :: a in cs[i].1.attributes
    ensures forall s :: s in r.states <==> exists i | 0 <= i < |cs| :: s in cs[i].1.states
    ensures r.constraints == cs
  {
    StatesUnion(cs);
    Config(cs, GetAttributes(cs), GetValidityStates(cs))
  }
}

=== FILE: draft_api.dfy ===
/** src/constraint-validation-api.ts, the earlier draft of the constraint
    validation API. It shares the validity and message representation of
    lib/api.ts but differs in three places: `valid` comes from the flags of
    the current call only, willValidate is computed from the element, and
    interactive validation fires the form event first and reports valid
    controls only when every control is valid. */
module Draft {
  import opened Common
  import opened Utils
  import opened Api
  import opened Aggregate
  import DraftFilters

  // ---------------------------------------------------------------------------
  // setValidity and setCustomValidity

  /** The draft setValidity. It has no willValidate check. A message is stored
      for a flag when the value is true and the message is not null; since a
      true flag without a non-empty message throws first, that is exactly the
      true flags, as ApplyFlags stores them. */
  function DraftSetValidity(s: ControlState, flags: Flags, message: Option<string>): (r: Outcome<ControlState>)
    ensures r.TypeError? <==> Positive(flags) && !Present(message)
    ensures r.Done? ==> r.value.validity.Keys == s.validity.Keys + KeySet(flags) + {ValidFlag}
    ensures r.Done? ==> (r.value.validity[ValidFlag] <==> !Positive(flags))
    ensures r.Done? ==> forall i | 0 <= i < |flags| && flags[i].0 != ValidFlag ::
      r.value.validity[flags[i].0] == flags[i].1
    ensures r.Done? ==> forall k | k in s.validity && k != ValidFlag && k !in KeySet(flags) ::
      r.value.validity[k] == s.validity[k]
    ensures r.Done? ==> forall i | 0 <= i < |flags| ::
      Lookup(r.value.messages, flags[i].0) == if flags[i].1 then message else None
    ensures r.Done? ==> forall k | k !in KeySet(flags) :: Lookup(r.value.messages, k) == Lookup(s.messages, k)
  {
    if Positive(flags) && !Present(message) then TypeError
    else
      var t := ApplyFlags(s, flags, message);
      ApplyFlagsValidity(s, flags, message);
      ApplyFlagsMessages(s, flags, message);
      Done(ControlState(t.validity[ValidFlag := !Positive(flags)], t.messages))
  }

  /** The draft's setValidity agrees with lib's on a validating control in
      everything but `valid`, and on `valid` too when the call does not name
      `valid` itself and no flag left out of the call was set before. */
  lemma DraftSetValidityVersusLib(s: ControlState, flags: Flags, message: Option<string>)
    ensures DraftSetValidity(s, flags, message).TypeError? <==> SetValidity(true, s, flags, message).TypeError?
    ensures DraftSetValidity(s, flags, message).Done? ==>
      var d := DraftSetValidity(s, flags, message).value;
      var l := SetValidity(true, s, flags, message).value;
      && d.messages == l.messages
      && d.validity.Keys == l.validity.Keys
      && (forall k | k in d.validity && k != ValidFlag :: d.validity[k] == l.validity[k])
      && (ValidFlag !in KeySet(flags) &&
          (forall k | k in s.validity && k != ValidFlag && k !in KeySet(flags) :: !s.validity[k]) ==>
            d.validity[ValidFlag] == l.validity[ValidFlag])
  {
    if DraftSetValidity(s, flags, message).Done? && ValidFlag !in KeySet(flags) &&
       forall k | k in s.validity && k != ValidFlag && k !in KeySet(flags) :: !s.validity[k] {
      DraftValidAgrees(s, flags, message);
    }
  }

  /** The `valid` half: when the call does not name `valid` and every flag
      left out of it was clear, both compute `valid` as "no flag passed is
      set". */
  lemma DraftValidAgrees(s: ControlState, flags: Flags, message: Option<string>)
    requires DraftSetValidity(s, flags, message).Done? && ValidFlag !in KeySet(flags)
    requires forall k | k in s.validity && k != ValidFlag && k !in KeySet(flags) :: !s.validity[k]
    ensures SetValidity(true, s, flags, message).Done?
    ensures DraftSetValidity(s, flags, message).value.validity[ValidFlag] ==
      SetValidity(true, s, flags, message).value.validity[ValidFlag]
  {
    var l := SetValidity(true, s, flags, message).value;
    if Positive(flags) {
      var i :| 0 <= i < |flags| && flags[i].1;
      assert flags[i].0 in KeySet(flags);
      assert l.validity[flags[i].0];
    } else {
      forall k | k in l.validity && k != ValidFlag ensures !l.validity[k] {
        if k in KeySet(flags) {
          var i :| 0 <= i < |flags| && flags[i].0 == k;
        }
      }
    }
  }

  /** The draft loses the validity invariant: a control with badInput set,
      then setValidity({customError: false}), reads valid although badInput
      is still true. */
  lemma DraftValidityExhibit()
    ensures var s := ControlState(map["badInput" := true, CustomErrorFlag := false, ValidFlag := false],
                                  [("badInput", "bad")]);
      var r := DraftSetValidity(s, [(CustomErrorFlag, false)], None);
      && r.Done?
      && r.value.validity["badInput"]
      && r.value.validity[ValidFlag]
      && !ValidKept(r.value.validity)
  {
    var s := ControlState(map["badInput" := true, CustomErrorFlag := false, ValidFlag := false],
                          [("badInput", "bad")]);
    var flags: Flags := [(CustomErrorFlag, false)];
    assert !Positive(flags);
    assert KeySet(flags) == {CustomErrorFlag} by { KeySetCons(flags); KeySetCons(flags[1..]); }
  }

  /** The same call with lib's setValidity keeps the control invalid. */
  lemma LibValidityKept()
    ensures var s := ControlState(map["badInput" := true, CustomErrorFlag := false, ValidFlag := false],
                                  [("badInput", "bad")]);
      var r := SetValidity(true, s, [(CustomErrorFlag, false)], None);
      && r.Done?
      && r.value.validity["badInput"]
      && !r.value.validity[ValidFlag]
      && ValidKept(r.value.validity)
  {
    var s := ControlState(map["badInput" := true, CustomErrorFlag := false, ValidFlag := false],
                          [("badInput", "bad")]);
    var flags: Flags := [(CustomErrorFlag, false)];
    assert !Positive(flags);
    assert KeySet(flags) == {CustomErrorFlag} by { KeySetCons(flags); KeySetCons(flags[1..]); }
  }

  /** The draft setCustomValidity: never throws; customError and `valid`
      follow the message alone, so clearing the custom error makes the
      control read valid whatever else is set. */
  function DraftSetCustomValidity(s: ControlState, message: string): (r: Outcome<ControlState>)
    ensures r.Done?
    ensures r.value.validity.Keys == s.validity.Keys + {CustomErrorFlag, ValidFlag}
    ensures r.value.validity[CustomErrorFlag] == (|message| > 0)
    ensures r.value.validity[ValidFlag] == (message == "")
    ensures Lookup(r.value.messages, CustomErrorFlag) == if |message| > 0 then Some(message) else None
    ensures forall k | k in s.validity && k != ValidFlag && k != CustomErrorFlag :: r.value.validity[k] == s.validity[k]
  {
    var f := CustomFlags(message);
    assert Positive(f) <==> |message| > 0;
    DraftSetValidity(s, f, Some(message))
  }

  // ---------------------------------------------------------------------------
  // checkValidity and reportValidity

  /** The draft checkValidity for one control. */
  function DraftCheckValidity(id: Id, willValidate: bool, valid: bool): (r: Checked)
    ensures r.result <==> !(willValidate && !valid)
    ensures r.events == [Event(id, if r.result then Valid else Invalid)]
    ensures r.reports == []
  {
    if willValidate && !valid then Checked(false, [Event(id, Invalid)], [])
    else Checked(true, [Event(id, Valid)], [])
  }

  /** The draft reportValidity: the reporter is called when the event was
      not cancelled. */
  function DraftReportValidity(id: Id, willValidate: bool, valid: bool, cancels: Cancels): (r: Checked)
    ensures r.result <==> !(willValidate && !valid)
    ensures r.events == [Event(id, if r.result then Valid else Invalid)]
    ensures r.reports == if cancels(id, r.events[0].name) then [] else [id]
  {
    if willValidate && !valid then
      Checked(false, [Event(id, Invalid)], if cancels(id, Invalid) then [] else [id])
    else
      Checked(true, [Event(id, Valid)], if cancels(id, Valid) then [] else [id])
  }

  /** Both per-control checks behave exactly as lib's. */
  lemma DraftChecksAsLib(id: Id, willValidate: bool, valid: bool, cancels: Cancels)
    ensures DraftCheckValidity(id, willValidate, valid) == CheckValidity(id, willValidate, valid)
    ensures DraftReportValidity(id, willValidate, valid, cancels) == ReportValidity(id, willValidate, valid, cancels)
  {
  }

  // ---------------------------------------------------------------------------
  // Barred from constraint validation

  /** isBarredFromConstraintValidation. */
  predicate IsBarred(e: Element) {
    || IsHtml(e, "object")
    || IsFieldSet(e)
    || e.typeAttr == "hidden"
    || e.typeAttr == "reset"
    || e.typeAttr == "button"
    || e.readOnly
    || e.disabled
    || e.hidden
    || e.inDatalist
  }

  /** willValidate: not barred. */
  predicate WillValidate(e: Element) {
    !IsBarred(e)
  }

  /** What barring means for the draft filter: the fieldsets and objects it
      accepts never validate, so among the controls that will validate the
      draft filter accepts only buttons, inputs, selects, textareas and
      custom elements with a truthy formAssociated; and an enabled, editable,
      visible submit input outside a datalist always validates. */
  lemma BarredControls(e: Element)
    ensures (IsFieldSet(e) || IsHtml(e, "object")) ==> !WillValidate(e)
    ensures DraftFilters.DraftFilter(e) && WillValidate(e) ==>
      IsHtml(e, "button") || IsHtml(e, "input") || IsHtml(e, "select") || IsHtml(e, "textarea")
      || e.formAssociated == Some(true)
    ensures IsHtml(e, "input") && e.typeAttr == "submit" && !e.readOnly && !e.disabled && !e.hidden && !e.inDatalist
      ==> WillValidate(e)
    ensures WillValidate(e) ==> !e.disabled && !e.readOnly && !e.hidden && !e.inDatalist
  {
  }

  // ---------------------------------------------------------------------------
  // getValidationMessage

  /** The draft getValidationMessage: the element's map may not exist yet. */
  function DraftGetValidationMessage(willValidate: bool, bag: Option<Bag>): (r: string)
    ensures !willValidate || bag.None? ==> r == ""
    ensures bag.Some? ==> r == GetValidationMessage(willValidate, bag.value)
  {
    if !willValidate then ""
    else if bag.Some? && |bag.value| > 0 then bag.value[0].1
    else ""
  }

  // ---------------------------------------------------------------------------
  // The form algorithms

  /** The draft's candidates: the elements its filter accepts. */
  function DraftControls(elements: seq<Element>): (r: seq<Element>)
    ensures forall i | 0 <= i < |r| :: r[i] in elements && DraftFilters.DraftFilter(r[i])
    ensures forall i | 0 <= i < |elements| && DraftFilters.DraftFilter(elements[i]) :: elements[i] in r
  {
    Filter(elements, (e: Element) => DraftFilters.DraftFilter(e))
  }

  /** staticallyValidateTheConstraint: the algorithm of lib's
      staticallyValidate over the draft's candidates: valid events as the
      valid controls are met, the form event, then the invalid events; the
      unhandled list keeps document order. */
  method DraftStaticallyValidate(form: Id, elements: seq<Element>, valid: Id -> bool, cancels: Cancels)
    returns (r: Run)
    ensures r.verdict == VerdictOf(DraftControls(elements), valid, cancels)
    ensures r.events ==
      EventsFor(Passing(DraftControls(elements), valid), Valid) + [FormEvent(form, DraftControls(elements), valid)]
      + (if r.verdict.AllValid? then [] else EventsFor(Failing(DraftControls(elements), valid), Invalid))
    ensures r.verdict.AllValid? <==> forall i | 0 <= i < |elements| ::
      DraftFilters.DraftFilter(elements[i]) && elements[i].willValidate ==> valid(elements[i].id)
    ensures r.verdict.Unhandled? ==> forall x ::
      x in r.verdict.controls <==>
        !cancels(x, Invalid) && exists i | 0 <= i < |DraftControls(elements)| ::
          DraftControls(elements)[i].id == x && DraftControls(elements)[i].willValidate && !valid(x)
    ensures r.reports == []
  {
    var controls := DraftControls(elements);
    r := StaticallyValidate(form, controls, valid, cancels);
    AllValidIff(controls, valid, cancels);
    if r.verdict.Unhandled? {
      forall x ensures x in r.verdict.controls <==>
        !cancels(x, Invalid) && exists i | 0 <= i < |controls| :: controls[i].id == x && controls[i].willValidate && !valid(x)
      {
        UnhandledAreInvalid(controls, valid, cancels, x);
      }
    }
    if !r.verdict.AllValid? {
      var i :| 0 <= i < |controls| && controls[i].willValidate && !valid(controls[i].id);
      var j :| 0 <= j < |elements| && elements[j] == controls[i];
    }
  }

  /** interactivelyValidateTheConstraints: filter the form's elements and
      partition them; then the form event; then either the valid controls'
      events and reports (all valid) or the invalid controls' events, reports
      and the unhandled list. */
  method DraftInteractivelyValidate(form: Id, elements: seq<Element>, valid: Id -> bool, cancels: Cancels)
    returns (r: Run)
    ensures var controls := DraftControls(elements);
      && r.verdict == VerdictOf(controls, valid, cancels)
      && r.events == [FormEvent(form, controls, valid)] +
           (if r.verdict.AllValid? then EventsFor(Passing(controls, valid), Valid)
            else EventsFor(Failing(controls, valid), Invalid))
      && r.reports ==
           if r.verdict.AllValid? then Uncancelled(Passing(controls, valid), cancels, Valid)
           else Uncancelled(Failing(controls, valid), cancels, Invalid)
  {
    var controls := DraftControls(elements);
    var validControls, invalidControls := Partition(controls, valid);
    if |invalidControls| == 0 {
      var events, reports := Dispatch(validControls, Valid, cancels);
      return Run(AllValid, [Event(form, Valid)] + events, reports);
    }
    var events, unhandled := Dispatch(invalidControls, Invalid, cancels);
    return Run(Unhandled(unhandled), [Event(form, Invalid)] + events, unhandled);
  }

  /** The reporter calls of the draft's interactive pass, as its contract
      states them. */
  function DraftReports(cs: seq<Element>, valid: Id -> bool, cancels: Cancels): seq<Id> {
    if Failing(cs, valid) == [] then Uncancelled(Passing(cs, valid), cancels, Valid)
    else Uncancelled(Failing(cs, valid), cancels, Invalid)
  }

  /** The reporter calls of lib's interactivelyValidate. */
  function LibReports(cs: seq<Element>, valid: Id -> bool, cancels: Cancels): seq<Id> {
    Uncancelled(Passing(cs, valid), cancels, Valid) + Uncancelled(Failing(cs, valid), cancels, Invalid)
  }

  /** Against lib's interactivelyValidate on the same controls. When every
      control is valid both report the same controls. When some control is
      invalid, every valid control whose `valid` event is not cancelled is
      reported by lib and not by the draft, and its `valid` event is fired
      by lib only; the draft's reports are all among lib's. */
  lemma DraftInteractiveVersusLib(form: Id, cs: seq<Element>, valid: Id -> bool, cancels: Cancels)
    ensures Failing(cs, valid) == [] ==> DraftReports(cs, valid, cancels) == LibReports(cs, valid, cancels)
    ensures Failing(cs, valid) != [] ==>
      forall x | x in Uncancelled(Passing(cs, valid), cancels, Valid) ::
        x in LibReports(cs, valid, cancels) && x !in DraftReports(cs, valid, cancels)
    ensures forall x | x in DraftReports(cs, valid, cancels) :: x in LibReports(cs, valid, cancels)
    ensures Failing(cs, valid) != [] ==>
      forall x | x in Passing(cs, valid) ::
        Event(x, Valid) in EventsFor(Passing(cs, valid), Valid) + EventsFor(Failing(cs, valid), Invalid)
          + [FormEvent(form, cs, valid)]
        && Event(x, Valid) !in [FormEvent(form, cs, valid)] + EventsFor(Failing(cs, valid), Invalid)
  {
    var passing, failing := Passing(cs, valid), Failing(cs, valid);
    EventsCount(passing, Valid);
    EventsCount(failing, Invalid);
    if failing != [] {
      forall x | x in Uncancelled(passing, cancels, Valid)
        ensures x !in Uncancelled(failing, cancels, Invalid)
      {
        UncancelledMembers(passing, cancels, Valid, x);
        UncancelledMembers(failing, cancels, Invalid, x);
        PassingMembers(cs, valid, x);
        FailingMembers(cs, valid, x);
      }
      forall x | x in passing
        ensures Event(x, Valid) in EventsFor(passing, Valid)
      {
        var i :| 0 <= i < |passing| && passing[i] == x;
      }
    }
  }
}

=== FILE: draft_filter.dfy ===
/** src/filters/filter-submittable-elements.ts of the earlier draft, and how
    it differs from isSubmittableElement of lib/utils.ts. */
module DraftFilters {
  import opened Common
  import opened Utils

  /** A button or input of type image. */
  predicate ImageControl(e: Element) {
    (IsHtml(e, "button") || IsHtml(e, "input")) && e.typeAttr == "image"
  }

  /** filterSubmittableElements of the draft: buttons and inputs unless of
      type image, every fieldset, object, select and textarea, and any element
      whose constructor has a truthy formAssociated. */
  predicate DraftFilter(e: Element) {
    || (IsHtml(e, "button") && e.typeAttr != "image")
    || IsFieldSet(e)
    || (IsHtml(e, "input") && e.typeAttr != "image")
    || IsHtml(e, "object")
    || IsHtml(e, "select")
    || IsHtml(e, "textarea")
    || e.formAssociated == Some(true)
  }

  /** The draft against lib/utils.ts, both directions: on HTML elements the
      draft additionally accepts fieldsets and rejects image buttons and
      inputs and, for other tags, a formAssociated declared false; outside
      HTML only a truthy formAssociated counts. */
  lemma DraftFilterVersusLib(e: Element)
    ensures e.html ==>
      (DraftFilter(e) <==>
        && (IsSubmittableElement(e) || IsFieldSet(e))
        && !(ImageControl(e) && e.formAssociated != Some(true))
        && !(e.localName !in SubmittableNames && e.localName != "fieldset" && e.formAssociated == Some(false)))
    ensures !e.html ==> !IsSubmittableElement(e) && (DraftFilter(e) <==> e.formAssociated == Some(true))
  {
    if e.html {
      var n := e.localName;
      if n in SubmittableNames {
        assert n == "button" || n == "input" || n == "object" || n == "select" || n == "textarea";
      } else {
        assert n != "button" && n != "input" && n != "object" && n != "select" && n != "textarea";
        if n == "fieldset" {
          assert IsFieldSet(e) && DraftFilter(e);
        } else if e.formAssociated == Some(true) {
          assert DraftFilter(e) && IsSubmittableElement(e);
        } else if e.formAssociated.None? {
          assert !IsSubmittableElement(e);
        } else {
          assert e.formAssociated.value == false;
        }
      }
    }
  }

  /** Named cases: every fieldset is accepted (lib rejects one without
      formAssociated); output without formAssociated is rejected; image
      inputs are rejected; a truthy formAssociated is accepted on any tag. */
  lemma DraftFilterCases(e: Element)
    ensures IsFieldSet(e) ==> DraftFilter(e)
    ensures IsFieldSet(e) && e.formAssociated.None? ==> !IsSubmittableElement(e)
    ensures IsHtml(e, "output") && e.formAssociated != Some(true) ==> !DraftFilter(e)
    ensures IsHtml(e, "input") && e.typeAttr == "image" && e.formAssociated != Some(true) ==> !DraftFilter(e)
    ensures IsHtml(e, "input") && e.typeAttr == "image" ==> IsSubmittableElement(e)
    ensures e.formAssociated == Some(true) ==> DraftFilter(e)
  {
  }
}

=== FILE: draft_validity.dfy ===
/** src/validity-state.ts of the earlier draft: the flag names, the property
    descriptor every flag is defined with, and the default validity state. */
module DraftValidity {
  import opened Common
  import Api

  /** The ten optional members of ValidityStateFlags, in declaration order. */
  const FlagNames: seq<string> := [
    "valueMissing", "typeMismatch", "patternMismatch", "tooLong", "tooShort",
    "rangeUnderflow", "rangeOverflow", "stepMismatch", "badInput", "customError"]

  /** The nine flags a browser computes itself, without customError. */
  const NativeFlags: seq<string> := FlagNames[..9]

  /** A data property descriptor. */
  datatype Descriptor = Descriptor(configurable: bool, enumerable: bool, writable: bool, value: bool)

  /** The own data properties of an object. */
  type Store = map<string, Descriptor>

  /** ValidityStateDescriptor(value). */
  function ValidityStateDescriptor(value: bool): (d: Descriptor)
    ensures d.value == value
  {
    Descriptor(true, true, false, value)
  }

  /** Plain assignment `o[k] = v`: rejected on a non-writable property (a
      TypeError in strict code, ignored otherwise). */
  function Assign(s: Store, k: string, v: bool): (r: Option<Store>)
    ensures r.None? <==> k in s && !s[k].writable
    ensures r.Some? ==> k in r.value && r.value[k].value == v
    ensures r.Some? ==> forall j | j in s && j != k :: j in r.value && r.value[j] == s[j]
  {
    if k in s && !s[k].writable then None
    else if k in s then Some(s[k := s[k].(value := v)])
    else Some(s[k := Descriptor(true, true, true, v)])
  }

  /** Object.defineProperty(o, k, d): accepted on a configurable or missing
      property. */
  function Redefine(s: Store, k: string, d: Descriptor): (r: Option<Store>)
    ensures r.None? <==> k in s && !s[k].configurable
    ensures r.Some? ==> r.value == s[k := d]
  {
    if k in s && !s[k].configurable then None else Some(s[k := d])
  }

  /** The values of the properties. */
  function Values(s: Store): (v: map<string, bool>)
    ensures v.Keys == s.Keys
    ensures forall k | k in s :: v[k] == s[k].value
  {
    map k | k in s :: s[k].value
  }

  /** Every property is defined by ValidityStateDescriptor. */
  predicate ByDescriptor(s: Store) {
    forall k | k in s :: s[k] == ValidityStateDescriptor(s[k].value)
  }

  /** The default ValidityState object. */
  function DefaultState(): (s: Store)
    ensures ByDescriptor(s)
  {
    map k | k in FlagNames + [Api.ValidFlag] :: ValidityStateDescriptor(k == Api.ValidFlag)
  }

  /** The default state holds exactly the ten declared flags, all false, and
      `valid` true. */
  lemma DefaultStateFlags()
    ensures DefaultState().Keys == (set f | f in FlagNames) + {Api.ValidFlag}
    ensures forall f | f in FlagNames :: !DefaultState()[f].value
    ensures DefaultState()[Api.ValidFlag].value
  {
    assert Api.ValidFlag !in FlagNames;
  }

  lemma DefaultKeys()
    ensures DefaultState().Keys == (set f | f in NativeFlags) + {Api.CustomErrorFlag, Api.ValidFlag}
    ensures Api.ValidFlag !in NativeFlags
  {
    DefaultStateFlags();
    assert FlagNames == NativeFlags + [Api.CustomErrorFlag];
  }

  /** It is the state lib/api.ts creates for the nine native flags, so it
      satisfies the validity invariant. */
  lemma DefaultStateIsCreated()
    ensures Values(DefaultState()) == Api.CreateValidityState(NativeFlags)
    ensures Api.ValidKept(Values(DefaultState()))
  {
    DefaultStateFlags();
    DefaultKeys();
    var v := Values(DefaultState());
    forall k | k in v ensures v[k] == (k == Api.ValidFlag) {
      if k != Api.ValidFlag {
        assert k in FlagNames;
      }
    }
    CreatedFrom(NativeFlags, v);
  }

  /** A map with exactly the keys createValidityState defines, `valid` true
      and every other entry false, is what it creates. */
  lemma CreatedFrom(flags: seq<string>, v: map<string, bool>)
    requires Api.ValidFlag !in flags
    requires v.Keys == (set f | f in flags) + {Api.CustomErrorFlag, Api.ValidFlag}
    requires forall k | k in v :: v[k] == (k == Api.ValidFlag)
    ensures v == Api.CreateValidityState(flags) && Api.ValidKept(v)
  {
  }

  /** A state defined by ValidityStateDescriptor cannot be changed by
      assignment, only by redefinition: assigning any flag is rejected, and
      redefining it with the descriptor sets the new value. */
  lemma FlagsChangeOnlyByRedefinition(s: Store, k: string, v: bool)
    requires ByDescriptor(s) && k in s
    ensures Assign(s, k, v).None?
    ensures Redefine(s, k, ValidityStateDescriptor(v)).Some?
    ensures Values(Redefine(s, k, ValidityStateDescriptor(v)).value) == Values(s)[k := v]
    ensures ByDescriptor(Redefine(s, k, ValidityStateDescriptor(v)).value)
  {
  }
}

=== FILE: form.dfy ===
/** lib/form.ts: installing the form API (the noValidate redirection,
    checkValidity and reportValidity), the submit guard, and reset. */
module Form {
  import opened Common
  import opened Utils
  import opened Host
  import opened Aggregate

  const FormProps: set<Prop> := {NoValidateProp, CheckValidityProp, ReportValidityProp}

  /** setup(state, form): native validation off (the novalidate attribute),
      then the three overrides, then the submit guard. */
  function Setup(h: Host, form: Id): (r: Host)
    ensures form in r.nativeNoValidate && r.nativeNoValidate == h.nativeNoValidate + {form}
    ensures OverridesOf(r, form) == OverridesOf(h, form) + FormProps
    ensures forall other | other != form :: OverridesOf(r, other) == OverridesOf(h, other)
    ensures r.submitGuards == h.submitGuards + {form}
    ensures r.dataNoValidate == h.dataNoValidate
    ensures r.controls == h.controls && r.observer == h.observer && r.inputListeners == h.inputListeners
    ensures r.runs == h.runs && r.values == h.values
  {
    var native := h.(nativeNoValidate := h.nativeNoValidate + {form});
    var defined := Define(native, form, FormProps);
    defined.(submitGuards := defined.submitGuards + {form})
  }

  /** reset(form): the listener and the three overrides go; the native
      novalidate attribute set at setup stays. */
  function Reset(h: Host, form: Id): (r: Host)
    ensures form !in r.submitGuards && r.submitGuards == h.submitGuards - {form}
    ensures OverridesOf(r, form) == OverridesOf(h, form) - FormProps
    ensures forall other | other != form :: OverridesOf(r, other) == OverridesOf(h, other)
    ensures r.nativeNoValidate == h.nativeNoValidate && r.dataNoValidate == h.dataNoValidate
    ensures r.controls == h.controls && r.observer == h.observer && r.inputListeners == h.inputListeners
    ensures r.runs == h.runs && r.values == h.values
  {
    Remove(h.(submitGuards := h.submitGuards - {form}), form, FormProps)
  }

  /** Setting a form up and resetting it restores its overrides and the
      submit guards of a form that was not set up, but leaves the native
      novalidate attribute on: reset never restores it. */
  lemma SetupReset(h: Host, form: Id)
    requires OverridesOf(h, form) * FormProps == {} && form !in h.submitGuards
    ensures var r := Reset(Setup(h, form), form);
      && (forall id :: OverridesOf(r, id) == OverridesOf(h, id))
      && r.submitGuards == h.submitGuards
      && r.nativeNoValidate == h.nativeNoValidate + {form}
      && r.dataNoValidate == h.dataNoValidate
      && r.controls == h.controls && r.observer == h.observer && r.inputListeners == h.inputListeners
  {
    var r := Reset(Setup(h, form), form);
    forall id ensures OverridesOf(r, id) == OverridesOf(h, id) {
      if id == form {
        FormPropsRestored(OverridesOf(h, form));
      }
    }
  }

  /** Adding FormProps to a set holding none of them and deleting them again
      gives the set back. */
  lemma FormPropsRestored(before: set<Prop>)
    requires before * FormProps == {}
    ensures before + FormProps - FormProps == before
  {
    forall p | p in before ensures p !in FormProps {
      assert p in before * FormProps ==> false;
    }
  }

  /** Reading `form.noValidate`: through the override, the presence of
      data-novalidate; without it, the native attribute. */
  function GetNoValidate(h: Host, form: Id): bool {
    if NoValidateProp in OverridesOf(h, form) then form in h.dataNoValidate
    else form in h.nativeNoValidate
  }

  /** Writing `form.noValidate`. */
  function SetNoValidate(h: Host, form: Id, v: bool): (r: Host)
    ensures OverridesOf(r, form) == OverridesOf(h, form)
    ensures NoValidateProp in OverridesOf(h, form) ==> r.nativeNoValidate == h.nativeNoValidate
  {
    if NoValidateProp in OverridesOf(h, form) then
      h.(dataNoValidate := if v then h.dataNoValidate + {form} else h.dataNoValidate - {form})
    else
      h.(nativeNoValidate := if v then h.nativeNoValidate + {form} else h.nativeNoValidate - {form})
  }

  /** The override round-trips, and while it is installed native validation
      stays off whatever is written. */
  lemma NoValidateRoundTrip(h: Host, form: Id, v: bool)
    ensures GetNoValidate(SetNoValidate(h, form, v), form) == v
    ensures var s := Setup(h, form);
      GetNoValidate(SetNoValidate(s, form, v), form) == v &&
      form in SetNoValidate(s, form, v).nativeNoValidate &&
      (v <==> form in SetNoValidate(s, form, v).dataNoValidate)
  {
  }

  /** Right after setup the override reports the data attribute, which setup
      does not touch: a form set up without data-novalidate validates. */
  lemma SetupNoValidate(h: Host, form: Id)
    ensures GetNoValidate(Setup(h, form), form) <==> form in h.dataNoValidate
  {
  }

  // ---------------------------------------------------------------------------
  // checkValidity and reportValidity of the form

  /** form.checkValidity(): staticallyValidate over the form's submittable
      elements, true only when it returned exactly true. */
  method CheckValidity(form: Id, elements: seq<Element>, valid: Id -> bool, cancels: Cancels)
    returns (result: bool, run: Run)
    ensures result <==> forall i | 0 <= i < |elements| ::
      IsSubmittableElement(elements[i]) && elements[i].willValidate ==> valid(elements[i].id)
    ensures result <==> run.verdict == AllValid
    ensures run.verdict == VerdictOf(GetSubmittableElements(elements), valid, cancels)
    ensures run.reports == []
  {
    var controls := GetSubmittableElements(elements);
    run := StaticallyValidate(form, controls, valid, cancels);
    result := run.verdict == AllValid;
    AllValidIff(controls, valid, cancels);
    SubmittableValidity(elements, valid);
  }

  /** form.reportValidity(): interactivelyValidate, true only when it returned
      exactly true. */
  method ReportValidity(form: Id, elements: seq<Element>, valid: Id -> bool, cancels: Cancels)
    returns (result: bool, run: Run)
    ensures result <==> forall i | 0 <= i < |elements| ::
      IsSubmittableElement(elements[i]) && elements[i].willValidate ==> valid(elements[i].id)
    ensures result <==> run.verdict == AllValid
    ensures run.verdict == VerdictOf(GetSubmittableElements(elements), valid, cancels)
    ensures run.reports ==
      Uncancelled(Passing(GetSubmittableElements(elements), valid), cancels, Valid)
      + Uncancelled(Failing(GetSubmittableElements(elements), valid), cancels, Invalid)
  {
    var controls := GetSubmittableElements(elements);
    run := InteractivelyValidate(form, controls, valid, cancels);
    result := run.verdict == AllValid;
    AllValidIff(controls, valid, cancels);
    SubmittableValidity(elements, valid);
  }

  /** Restricting to the submittable elements: every submittable validating
      element is valid exactly when every validating control is. */
  lemma SubmittableValidity(elements: seq<Element>, valid: Id -> bool)
    ensures var cs := GetSubmittableElements(elements);
      (forall i | 0 <= i < |cs| :: cs[i].willValidate ==> valid(cs[i].id)) <==>
      (forall i | 0 <= i < |elements| ::
        IsSubmittableElement(elements[i]) && elements[i].willValidate ==> valid(elements[i].id))
  {
    var cs := GetSubmittableElements(elements);
    if forall i | 0 <= i < |cs| :: cs[i].willValidate ==> valid(cs[i].id) {
      forall i | 0 <= i < |elements| && IsSubmittableElement(elements[i]) && elements[i].willValidate
        ensures valid(elements[i].id)
      {
        var j :| 0 <= j < |cs| && cs[j] == elements[i];
      }
    }
  }

  /** A form whose invalid controls all handle their invalid events is still
      invalid: the verdict is an empty list of unhandled controls, and
      checkValidity and reportValidity compare with exactly true, so both
      return false. */
  lemma {:induction false} EmptyUnhandledIsFalse(cs: seq<Element>, valid: Id -> bool, cancels: Cancels)
    requires Failing(cs, valid) != []
    requires forall i | 0 <= i < |cs| :: cs[i].willValidate && !valid(cs[i].id) ==> cancels(cs[i].id, Invalid)
    ensures VerdictOf(cs, valid, cancels) == Unhandled([])
  {
    var u := Uncancelled(Failing(cs, valid), cancels, Invalid);
    if u != [] {
      var x := u[0];
      UncancelledMembers(Failing(cs, valid), cancels, Invalid, x);
      FailingMembers(cs, valid, x);
      assert false;
    }
  }

  // ---------------------------------------------------------------------------
  // The submit guard

  /** What the guard does to the submit event. */
  datatype Decision =
    | Bypass   // validation disabled: the guard returns without validating
    | Proceed  // validated, every control valid: submission goes on
    | Block    // validated and invalid: preventDefault and stopImmediatePropagation

  /** doNotValidate as written: the submitter's formNoValidate, OR the first
      submit button's formNoValidate, OR form.noValidate. */
  predicate DoNotValidateAsWritten(submitter: Option<Element>, firstButton: Option<Element>, noValidate: bool) {
    || (submitter.Some? && submitter.value.formNoValidate)
    || (firstButton.Some? && firstButton.value.formNoValidate)
    || noValidate
  }

  /** The no-validate state of the submission: the submitter's own
      formnovalidate, the default (first) submit button standing in for the
      submitter only when none was found, or the form's own setting. */
  predicate DoNotValidate(submitter: Option<Element>, firstButton: Option<Element>, noValidate: bool) {
    || (if submitter.Some? then submitter.value.formNoValidate
        else firstButton.Some? && firstButton.value.formNoValidate)
    || noValidate
  }

  /** submitGuard as written. `active` is document.activeElement; `elements`
      the form's elements collection; `noValidate` what form.noValidate reads. */
  method SubmitGuardAsWritten(form: Id, active: Option<Element>, elements: seq<Element>, noValidate: bool,
                              valid: Id -> bool, cancels: Cancels)
    returns (d: Decision, run: Run)
    ensures d == Bypass <==>
      DoNotValidateAsWritten(GetSubmitter(active, form), GetSubmitButton(elements), noValidate)
    ensures d == Bypass ==> run == Run(AllValid, [], [])
    ensures d != Bypass ==> (d == Block <==> exists i | 0 <= i < |elements| ::
      IsSubmittableElement(elements[i]) && elements[i].willValidate && !valid(elements[i].id))
  {
    var submitter := GetSubmitter(active, form);
    var submitButton := GetSubmitButton(elements);
    if DoNotValidateAsWritten(submitter, submitButton, noValidate) {
      return Bypass, Run(AllValid, [], []);
    }
    var ok;
    ok, run := ReportValidity(form, elements, valid, cancels);
    d := if !ok then Block else Proceed;
  }

  /** submitGuard with the intended no-validate state. */
  method SubmitGuard(form: Id, active: Option<Element>, elements: seq<Element>, noValidate: bool,
                     valid: Id -> bool, cancels: Cancels)
    returns (d: Decision, run: Run)
    ensures d == Bypass <==> DoNotValidate(GetSubmitter(active, form), GetSubmitButton(elements), noValidate)
    ensures d == Bypass ==> run == Run(AllValid, [], [])
    ensures d != Bypass ==> (d == Block <==> exists i | 0 <= i < |elements| ::
      IsSubmittableElement(elements[i]) && elements[i].willValidate && !valid(elements[i].id))
  {
    var submitter := GetSubmitter(active, form);
    var submitButton := GetSubmitButton(elements);
    if DoNotValidate(submitter, submitButton, noValidate) {
      return Bypass, Run(AllValid, [], []);
    }
    var ok;
    ok, run := ReportValidity(form, elements, valid, cancels);
    d := if !ok then Block else Proceed;
  }

  /** With the intended rule, a found submitter alone decides (with the
      form's own setting); the first submit button matters only without one. */
  lemma SubmitterDecides(submitter: Option<Element>, firstButton: Option<Element>, noValidate: bool)
    ensures submitter.Some? ==>
      (DoNotValidate(submitter, firstButton, noValidate) <==> submitter.value.formNoValidate || noValidate)
    ensures submitter.None? ==>
      (DoNotValidate(submitter, firstButton, noValidate) <==>
        DoNotValidateAsWritten(submitter, firstButton, noValidate))
    ensures DoNotValidate(submitter, firstButton, noValidate) ==>
      DoNotValidateAsWritten(submitter, firstButton, noValidate)
  {
  }

  /** The guard as written skips validation when the user clicks a submit
      button without formnovalidate, only because the form's first submit
      button has formnovalidate. */
  lemma GuardSkipsValidation()
    ensures var first := Element(1, true, "button", "submit", None, false, false, false, false, true,
                                 Some(0), true, true, ["type", "formnovalidate"], [], 0);
      var clicked := Element(2, true, "button", "submit", None, false, false, false, false, false,
                             Some(0), true, true, ["type"], [], 0);
      var elements := [first, clicked];
      GetSubmitter(Some(clicked), 0) == Some(clicked) &&
      GetSubmitButton(elements) == Some(first) &&
      DoNotValidateAsWritten(GetSubmitter(Some(clicked), 0), GetSubmitButton(elements), false) &&
      !DoNotValidate(GetSubmitter(Some(clicked), 0), GetSubmitButton(elements), false)
  {
    var first := Element(1, true, "button", "submit", None, false, false, false, false, true,
                         Some(0), true, true, ["type", "formnovalidate"], [], 0);
    var clicked := Element(2, true, "button", "submit", None, false, false, false, false, false,
                           Some(0), true, true, ["type"], [], 0);
    assert IsSubmitButton(first);
  }
}

=== FILE: host.dfy ===
/** The DOM-side state the adapters of lib/control.ts and lib/form.ts act
    on. Property overrides are recorded as the set of own properties defined
    on a node; event listeners as the sets of nodes carrying them; the
    validator's work as the list of run requests it received. */
module Host {
  import opened Common
  import opened Api
  import Observer

  /** The own properties the adapters define on a node. */
  datatype Prop =
    | ValidationMessageProp
    | ValidityProp
    | SetCustomValidityProp
    | CheckValidityProp
    | ReportValidityProp
    | ValueProp
    | NoValidateProp

  datatype Host = Host(
    overrides: map<Id, set<Prop>>,   // own properties defined on each node
    controls: map<Id, ControlState>, // validity object and message bag each set-up control closes over
    inputListeners: set<Id>,         // controls with the validator's input listener
    submitGuards: set<Id>,           // forms with the submit guard listener
    nativeNoValidate: set<Id>,       // forms whose native novalidate attribute is set
    dataNoValidate: set<Id>,         // forms carrying data-novalidate
    values: map<Id, string>,         // what the prototype's value accessor stores
    observer: Observer.State,        // the engine's attribute observer
    runs: seq<Id>)                   // validator.run requests, in order

  /** The own properties defined on a node (none when it was never touched). */
  function OverridesOf(h: Host, id: Id): set<Prop> {
    if id in h.overrides then h.overrides[id] else {}
  }

  /** Define `props` on node `id`. */
  function Define(h: Host, id: Id, props: set<Prop>): (r: Host)
    ensures OverridesOf(r, id) == OverridesOf(h, id) + props
    ensures forall other | other != id :: OverridesOf(r, other) == OverridesOf(h, other)
    ensures r.(overrides := h.overrides) == h
  {
    h.(overrides := h.overrides[id := OverridesOf(h, id) + props])
  }

  /** `delete node[p]` for every p in `props`. */
  function Remove(h: Host, id: Id, props: set<Prop>): (r: Host)
    ensures OverridesOf(r, id) == OverridesOf(h, id) - props
    ensures forall other | other != id :: OverridesOf(r, other) == OverridesOf(h, other)
    ensures r.(overrides := h.overrides) == h
  {
    h.(overrides := h.overrides[id := OverridesOf(h, id) - props])
  }

  /** A host with nothing defined, listened to or observed. */
  function Empty(filter: seq<string>): (h: Host)
    ensures forall id :: OverridesOf(h, id) == {}
    ensures Observer.Valid(h.observer)
  {
    Host(map[], map[], {}, {}, {}, {}, map[], Observer.Create(filter), [])
  }
}

=== FILE: index.dfy ===
/** lib/index.ts: the engine state, `patch` (install the API on a form or
    listed element and on its `elements` collection), `reset` (undo it) and
    `create`. Unlike lib/core.ts it wires the real adapters of
    lib/control.ts and lib/form.ts, which this module calls. */
module Index {
  import opened Common
  import opened Utils
  import opened Constraint
  import opened Host
  import Observer
  import Control
  import Form

  /** What the refs WeakMap stores: the FormApi or ControlApi of the element. */
  datatype RefApi = FormRef | ControlRef(api: Control.ControlApi)

  datatype Engine = Engine(refs: map<Id, RefApi>, host: Host, states: seq<string>)

  /** The engine invariant: the observer's bookkeeping holds and each
      ControlApi is bound to the element it is stored under. */
  predicate EngineValid(g: Engine) {
    && Observer.Valid(g.host.observer)
    && forall id | id in g.refs && g.refs[id].ControlRef? :: g.refs[id].api.target == id
  }

  /** The form branch of patch: the form API is set up and stored. */
  function PatchForm(g: Engine, e: Element): (r: Engine)
    requires EngineValid(g)
    ensures EngineValid(r)
    ensures r.refs == g.refs[e.id := FormRef]
    ensures OverridesOf(r.host, e.id) == OverridesOf(g.host, e.id) + Form.FormProps
    ensures r.host.submitGuards == g.host.submitGuards + {e.id}
    ensures r.host.nativeNoValidate == g.host.nativeNoValidate + {e.id}
    ensures r.host.runs == g.host.runs && r.states == g.states
  {
    g.(refs := g.refs[e.id := FormRef], host := Form.Setup(g.host, e.id))
  }

  /** The listed-element branch of patch: the control API is set up and
      stored, and the validator is asked to run on the control. */
  function PatchControlStep(g: Engine, e: Element): (r: Engine)
    requires EngineValid(g)
    ensures EngineValid(r)
    ensures r.refs == g.refs[e.id := ControlRef(Control.ControlApi(e.id, g.states, IsSubmittableElement(e)))]
    ensures r.host.runs == g.host.runs + [e.id] && r.states == g.states
  {
    // setup leaves the run requests alone, so recording the request first
    // gives the same host
    var (h, api) := Control.Setup(Requested(g.host, e.id), e, g.states);
    g.(refs := g.refs[e.id := ControlRef(api)], host := h)
  }

  /** validator.updateAndRun(element), as far as the host records it. */
  function Requested(h: Host, id: Id): (r: Host)
    ensures r.runs == h.runs + [id]
    ensures r.(runs := h.runs) == h
  {
    h.(runs := h.runs + [id])
  }

  /** The part of patch before the recursion: a form gets the form API; a
      listed element gets the control API and a validator run. Both tests
      run, so an element that is both ends up with a ControlApi. */
  function PatchOne(g: Engine, e: Element): (r: Engine)
    requires EngineValid(g)
    ensures EngineValid(r)
    ensures e.id in r.refs <==> e.id in g.refs || IsForm(e) || IsListedElement(e)
    ensures forall x | x != e.id :: x in r.refs <==> x in g.refs
    ensures forall x | x in g.refs && x != e.id :: r.refs[x] == g.refs[x]
    ensures r.states == g.states
  {
    if IsForm(e) && IsListedElement(e) then PatchControlStep(PatchForm(g, e), e)
    else if IsForm(e) then PatchForm(g, e)
    else if IsListedElement(e) then PatchControlStep(g, e)
    else g
  }

  /** What patch stores for the element: the ControlApi when it is listed
      (the control branch runs last), else the FormApi of a form; the
      validator is asked to run exactly for listed elements. */
  lemma PatchOneStores(g: Engine, e: Element)
    requires EngineValid(g)
    ensures var r := PatchOne(g, e);
      && (IsListedElement(e) ==> r.refs == g.refs[e.id := ControlRef(Control.ControlApi(e.id, g.states, IsSubmittableElement(e)))])
      && (IsForm(e) && !IsListedElement(e) ==> r.refs == g.refs[e.id := FormRef])
      && (!IsForm(e) && !IsListedElement(e) ==> r == g)
      && r.host.runs == g.host.runs + (if IsListedElement(e) then [e.id] else [])
  {
    if IsForm(e) && IsListedElement(e) {
      assert PatchForm(g, e).refs[e.id := ControlRef(Control.ControlApi(e.id, g.states, IsSubmittableElement(e)))]
        == g.refs[e.id := ControlRef(Control.ControlApi(e.id, g.states, IsSubmittableElement(e)))];
    }
  }

  /** patch(state, element). */
  function Patch(dom: Dom, g: Engine, id: Id): (r: Engine)
    requires WellFormed(dom) && id in dom && EngineValid(g)
    ensures EngineValid(r) && r.states == g.states
    ensures g.refs.Keys <= r.refs.Keys
    ensures forall x | x in g.refs :: r.refs[x] == g.refs[x]
    ensures forall x | x in r.refs.Keys - g.refs.Keys :: x in dom && (x == id || dom[x].height < dom[id].height)
    ensures id in r.refs <==> id in g.refs || IsForm(dom[id]) || IsListedElement(dom[id])
    decreases dom[id].height, 1, 0
  {
    var e := dom[id];
    if id in g.refs then g
    else
      var g2 := PatchOne(g, e);
      if HasElements(e) then PatchAll(dom, g2, e.elements, e.height) else g2
  }

  /** `[...element.elements].forEach(patch.bind(null, state))`. */
  function PatchAll(dom: Dom, g: Engine, ids: seq<Id>, bound: nat): (r: Engine)
    requires WellFormed(dom) && Below(dom, ids, bound) && EngineValid(g)
    ensures EngineValid(r) && r.states == g.states
    ensures g.refs.Keys <= r.refs.Keys
    ensures forall x | x in g.refs :: r.refs[x] == g.refs[x]
    ensures forall x | x in r.refs.Keys - g.refs.Keys :: x in dom && dom[x].height < bound
    ensures forall i | 0 <= i < |ids| && (IsForm(dom[ids[i]]) || IsListedElement(dom[ids[i]])) :: ids[i] in r.refs
    decreases bound, 0, |ids|
  {
    if ids == [] then g
    else
      var r := PatchAll(dom, Patch(dom, g, ids[0]), ids[1..], bound);
      assert forall i | 1 <= i < |ids| :: ids[i] == ids[1..][i - 1];
      r
  }

  /** The reset of the stored api: FormApi.reset or ControlApi.reset. */
  function ResetOne(g: Engine, e: Element): (r: Engine)
    requires EngineValid(g) && e.id in g.refs
    ensures EngineValid(r) && r.states == g.states
    ensures r.refs == g.refs - {e.id}
    ensures g.refs[e.id].FormRef? ==>
      && OverridesOf(r.host, e.id) == OverridesOf(g.host, e.id) - Form.FormProps
      && r.host.submitGuards == g.host.submitGuards - {e.id}
      && r.host.nativeNoValidate == g.host.nativeNoValidate
    ensures g.refs[e.id].ControlRef? && g.refs[e.id].api.target == e.id ==>
      && OverridesOf(r.host, e.id) == OverridesOf(g.host, e.id) - Control.AllProps
      && r.host.submitGuards == g.host.submitGuards
    ensures r.host.runs == g.host.runs && r.host.controls == g.host.controls
  {
    var h := match g.refs[e.id]
      case FormRef => Form.Reset(g.host, e.id)
      case ControlRef(api) => Control.Reset(g.host, api, e);
    g.(refs := g.refs - {e.id}, host := h)
  }

  /** reset(state, element). */
  function Reset(dom: Dom, g: Engine, id: Id): (r: Engine)
    requires WellFormed(dom) && id in dom && EngineValid(g)
    ensures EngineValid(r) && r.states == g.states
    ensures r.refs.Keys <= g.refs.Keys
    ensures forall x | x in r.refs :: r.refs[x] == g.refs[x]
    ensures id !in g.refs ==> r == g
    ensures id !in r.refs
    ensures forall x | x in g.refs.Keys - r.refs.Keys :: x in dom && (x == id || dom[x].height < dom[id].height)
    decreases dom[id].height, 1, 0
  {
    var e := dom[id];
    if id !in g.refs then g
    else
      var g1 := ResetOne(g, e);
      if HasElements(e) then ResetAll(dom, g1, e.elements, e.height) else g1
  }

  function ResetAll(dom: Dom, g: Engine, ids: seq<Id>, bound: nat): (r: Engine)
    requires WellFormed(dom) && Below(dom, ids, bound) && EngineValid(g)
    ensures EngineValid(r) && r.states == g.states
    ensures r.refs.Keys <= g.refs.Keys
    ensures forall x | x in r.refs :: r.refs[x] == g.refs[x]
    ensures forall x | x in g.refs.Keys - r.refs.Keys :: x in dom && dom[x].height < bound
    ensures forall i | 0 <= i < |ids| :: ids[i] !in r.refs
    decreases bound, 0, |ids|
  {
    if ids == [] then g
    else
      var first := Reset(dom, g, ids[0]);
      var r := ResetAll(dom, first, ids[1..], bound);
      assert forall i | 1 <= i < |ids| :: ids[i] == ids[1..][i - 1];
      r
  }

  // ---------------------------------------------------------------------------
  // Properties

  /** Patching an element without a collection that has no reference yet
      is the step before the recursion. */
  lemma PatchLeaf(dom: Dom, g: Engine, id: Id)
    requires WellFormed(dom) && id in dom && EngineValid(g) && id !in g.refs && !HasElements(dom[id])
    ensures Patch(dom, g, id) == PatchOne(g, dom[id])
  {
  }

  /** Resetting an element without a collection that has a reference is the
      reset of its stored api. */
  lemma ResetLeaf(dom: Dom, g: Engine, id: Id)
    requires WellFormed(dom) && id in dom && EngineValid(g) && id in g.refs && !HasElements(dom[id])
    ensures Reset(dom, g, id) == ResetOne(g, dom[id])
  {
  }

  /** Patching a control outside any form collection installs the control
      API, observes and listens to it when it is submittable, and asks the
      validator to run on it once. */
  lemma PatchControl(dom: Dom, g: Engine, id: Id)
    requires WellFormed(dom) && id in dom && EngineValid(g) && id !in g.refs
    requires IsListedElement(dom[id]) && !HasElements(dom[id])
    ensures var p := Patch(dom, g, id);
      && p.refs == g.refs[id := ControlRef(Control.ControlApi(id, g.states, IsSubmittableElement(dom[id])))]
      && p.host.runs == g.host.runs + [id]
      && OverridesOf(p.host, id) >= Control.ApiProps
      && (IsSubmittableElement(dom[id]) ==> id in p.host.inputListeners && id in p.host.observer.watched)
  {
    var e := dom[id];
    assert !IsForm(e);
    PatchLeaf(dom, g, id);
    assert Patch(dom, g, id) == PatchControlStep(g, e);
  }

  /** Resetting a control right after patching it removes the API, the
      observation and the listener again. */
  lemma PatchResetControl(dom: Dom, g: Engine, id: Id)
    requires WellFormed(dom) && id in dom && EngineValid(g) && id !in g.refs
    requires IsListedElement(dom[id]) && !HasElements(dom[id])
    requires OverridesOf(g.host, id) * Control.AllProps == {}
    requires id !in g.host.observer.observables && id !in g.host.inputListeners
    ensures var r := Reset(dom, Patch(dom, g, id), id);
      && r.refs == g.refs
      && (forall x :: OverridesOf(r.host, x) == OverridesOf(g.host, x))
      && r.host.observer == g.host.observer
      && r.host.inputListeners == g.host.inputListeners
  {
    var e := dom[id];
    assert !IsForm(e);
    PatchLeaf(dom, g, id);
    var p := PatchControlStep(g, e);
    assert Patch(dom, g, id) == p;
    ResetLeaf(dom, p, id);
    ControlStepReset(g, e);
  }

  /** The form step followed by the reset of the FormApi it stored: refs,
      overrides and submit guards are as before, while the native novalidate
      attribute set by the form setup stays on. */
  lemma FormStepReset(g: Engine, e: Element)
    requires EngineValid(g) && e.id !in g.refs
    requires OverridesOf(g.host, e.id) * Form.FormProps == {} && e.id !in g.host.submitGuards
    ensures var r := ResetOne(PatchForm(g, e), e);
      && r.refs == g.refs
      && (forall x :: OverridesOf(r.host, x) == OverridesOf(g.host, x))
      && r.host.submitGuards == g.host.submitGuards
      && r.host.nativeNoValidate == g.host.nativeNoValidate + {e.id}
      && r.host.observer == g.host.observer && r.host.inputListeners == g.host.inputListeners
  {
    Form.SetupReset(g.host, e.id);
    assert ResetOne(PatchForm(g, e), e).host == Form.Reset(Form.Setup(g.host, e.id), e.id);
    assert g.refs[e.id := FormRef] - {e.id} == g.refs;
  }

  /** The control step followed by the reset of the ControlApi it stored. */
  lemma ControlStepReset(g: Engine, e: Element)
    requires EngineValid(g) && e.id !in g.refs
    requires OverridesOf(g.host, e.id) * Control.AllProps == {}
    requires e.id !in g.host.observer.observables && e.id !in g.host.inputListeners
    ensures var p := PatchControlStep(g, e);
      var r := ResetOne(p, e);
      && r.refs == g.refs
      && (forall x :: OverridesOf(r.host, x) == OverridesOf(g.host, x))
      && r.host.observer == g.host.observer
      && r.host.inputListeners == g.host.inputListeners
  {
    var h := Requested(g.host, e.id);
    Control.SetupReset(h, e, g.states);
  }

  /** Patching a list a second time changes nothing. */
  lemma {:induction false} PatchAllSettled(dom: Dom, g: Engine, ids: seq<Id>, bound: nat)
    requires WellFormed(dom) && Below(dom, ids, bound) && EngineValid(g)
    requires forall i | 0 <= i < |ids| :: ids[i] in g.refs || !(IsForm(dom[ids[i]]) || IsListedElement(dom[ids[i]]))
    ensures PatchAll(dom, g, ids, bound) == g
    decreases |ids|
  {
    if ids != [] {
      var e := dom[ids[0]];
      if ids[0] !in g.refs {
        assert PatchOne(g, e) == g;
        assert !HasElements(e);
      }
      PatchAllSettled(dom, g, ids[1..], bound);
    }
  }

  lemma PatchAllIdempotent(dom: Dom, g: Engine, ids: seq<Id>, bound: nat)
    requires WellFormed(dom) && Below(dom, ids, bound) && EngineValid(g)
    ensures var once := PatchAll(dom, g, ids, bound);
      PatchAll(dom, once, ids, bound) == once
  {
    PatchAllSettled(dom, PatchAll(dom, g, ids, bound), ids, bound);
  }

  /** Resetting a list none of whose elements is registered changes
      nothing. */
  lemma {:induction false} ResetAllGone(dom: Dom, g: Engine, ids: seq<Id>, bound: nat)
    requires WellFormed(dom) && Below(dom, ids, bound) && EngineValid(g)
    requires forall i | 0 <= i < |ids| :: ids[i] !in g.refs
    ensures ResetAll(dom, g, ids, bound) == g
    decreases |ids|
  {
    if ids != [] {
      ResetAllGone(dom, g, ids[1..], bound);
    }
  }

  /** Resetting a list twice is resetting it once. */
  lemma ResetAllIdempotent(dom: Dom, g: Engine, ids: seq<Id>, bound: nat)
    requires WellFormed(dom) && Below(dom, ids, bound) && EngineValid(g)
    ensures var once := ResetAll(dom, g, ids, bound);
      ResetAll(dom, once, ids, bound) == once
  {
    ResetAllGone(dom, ResetAll(dom, g, ids, bound), ids, bound);
  }

  /** create(options): no references, nothing installed, an observer that
      filters by the constraints' attributes and `value`, and the validity
      states of all constraints. */
  function Create(cs: Constraints): (r: Engine)
    ensures r.refs == map[] && EngineValid(r)
    ensures forall x :: OverridesOf(r.host, x) == {}
    ensures forall a :: a in r.host.observer.filter <==>
      a == "value" || exists i | 0 <= i < |cs| :: a in cs[i].1.attributes
    ensures forall s :: s in r.states <==> exists i | 0 <= i < |cs| :: s in cs[i].1.states
  {
    StatesUnion(cs);
    Engine(map[], Empty(GetAttributes(cs) + ["value"]), GetValidityStates(cs))
  }
}

=== FILE: observer.dfy ===
/** lib/observer.ts: the set of observed elements, the targets the
    underlying MutationObserver watches, and the per-batch handling of
    mutation records. */
module Observer {
  import opened Common
  import opened Utils

  /** `observables` is the insertion-ordered Set of the closure;
      `watched` the nodes the MutationObserver currently observes;
      `filter` its attributeFilter option. */
  datatype State = State(observables: seq<Id>, watched: set<Id>, filter: seq<string>)

  /** The bookkeeping invariant: no element twice, and the watcher observes
      exactly the observed elements. */
  predicate Valid(s: State) {
    Distinct(s.observables) && s.watched == set x | x in s.observables
  }

  /** createObserver: nothing observed yet, attribute records filtered by
      exactly the given attribute names. */
  function Create(attributes: seq<string>): (r: State)
    ensures Valid(r) && r.observables == [] && r.watched == {}
    ensures r.filter == attributes
  {
    State([], {}, attributes)
  }

  /** connect: observe the element and add it to the set; a member stays where
      it is. */
  function Connect(s: State, e: Id): (r: State)
    requires Valid(s)
    ensures Valid(r)
    ensures (set x | x in r.observables) == (set x | x in s.observables) + {e}
    ensures |s.observables| <= |r.observables| && r.observables[..|s.observables|] == s.observables
    ensures e in s.observables ==> r == s
    ensures r.filter == s.filter
  {
    var obs := if e in s.observables then s.observables else s.observables + [e];
    State(obs, s.watched + {e}, s.filter)
  }

  /** The members other than `e`, in order. */
  function Without(s: seq<Id>, e: Id): (r: seq<Id>)
    ensures forall x :: x in r <==> x in s && x != e
    ensures Distinct(s) ==> Distinct(r)
    ensures e !in s ==> r == s
  {
    if s == [] then []
    else
      var rest := Without(s[1..], e);
      if s[0] == e then rest
      else
        assert Distinct(s) ==> s[0] !in s[1..] && Distinct(s[1..]) by {
          if Distinct(s) {
            forall i | 0 <= i < |s[1..]| ensures s[1..][i] != s[0] { assert s[1..][i] == s[i + 1]; }
          }
        }
        DistinctCons(s[0], rest);
        assert e !in s ==> s == [s[0]] + s[1..];
        [s[0]] + rest
  }

  lemma DistinctCons(x: Id, t: seq<Id>)
    ensures x !in t && Distinct(t) ==> Distinct([x] + t)
  {
    if x !in t && Distinct(t) {
      var u := [x] + t;
      forall i, j | 0 <= i < j < |u| ensures u[i] != u[j] {
        assert u[j] == t[j - 1];
        if i > 0 { assert u[i] == t[i - 1]; }
      }
    }
  }

  /** disconnect: drop the element from the set, disconnect the watcher and
      observe every remaining element again. */
  function Disconnect(s: State, e: Id): (r: State)
    requires Valid(s)
    ensures Valid(r)
    ensures (set x | x in r.observables) == (set x | x in s.observables) - {e}
    ensures e !in r.watched
    ensures e !in s.observables ==> r == s
    ensures r.filter == s.filter
  {
    var obs := Without(s.observables, e);
    State(obs, (set x | x in obs), s.filter)
  }

  /** Disconnecting an element right after connecting it restores the state. */
  lemma ConnectDisconnect(s: State, e: Id)
    requires Valid(s) && e !in s.observables
    ensures Disconnect(Connect(s, e), e) == s
  {
    WithoutLast(s.observables, e);
  }

  lemma {:induction false} WithoutLast(s: seq<Id>, e: Id)
    requires e !in s
    ensures Without(s + [e], e) == s
  {
    if s == [] {
      assert Without([e], e) == [] + Without([], e);
    } else {
      assert (s + [e])[1..] == s[1..] + [e];
      WithoutLast(s[1..], e);
      assert s == [s[0]] + s[1..];
    }
  }

  /** Connecting keeps the relative order of the others: disconnect after
      connect of a member is the same as disconnecting it directly. */
  lemma ConnectMemberDisconnect(s: State, e: Id)
    requires Valid(s) && e in s.observables
    ensures Disconnect(Connect(s, e), e) == Disconnect(s, e)
  {
  }

  // ---------------------------------------------------------------------------
  // attributeMutationCallback

  datatype RecordKind = Attributes | CharacterData | ChildList

  datatype Record = Record(kind: RecordKind, target: Element)

  /** A record the callback acts on: an attribute change on a submittable element. */
  predicate Qualifies(rec: Record) {
    rec.kind == Attributes && IsSubmittableElement(rec.target)
  }

  /** Reference: the targets of qualifying records, first occurrences only. */
  function FirstTargets(records: seq<Record>): seq<Id> {
    if records == [] then []
    else
      var earlier := FirstTargets(records[..|records| - 1]);
      var last := records[|records| - 1];
      if Qualifies(last) && last.target.id !in earlier then earlier + [last.target.id] else earlier
  }

  /** The callback: filter attribute records, filter submittable targets, and
      call onChange once for each target not seen before in this batch. */
  method AttributeMutationCallback(records: seq<Record>) returns (changed: seq<Id>)
    ensures changed == FirstTargets(records)
    ensures Distinct(changed)
    ensures forall x :: x in changed <==> exists i | 0 <= i < |records| :: Qualifies(records[i]) && records[i].target.id == x
  {
    var uniq: set<Id> := {};
    changed := [];
    for i := 0 to |records|
      invariant changed == FirstTargets(records[..i])
      invariant uniq == set x | x in changed
      invariant Distinct(changed)
      invariant forall x :: x in changed <==> exists j | 0 <= j < i :: Qualifies(records[j]) && records[j].target.id == x
    {
      assert records[..i + 1][..i] == records[..i];
      var rec := records[i];
      if rec.kind != Attributes || !IsSubmittableElement(rec.target) {
        continue;
      }
      if rec.target.id !in uniq {
        uniq := uniq + {rec.target.id};
        changed := changed + [rec.target.id];
      }
    }
    assert records[..|records|] == records;
  }
}

=== FILE: utils.dfy ===
/** The element classifier of lib/utils.ts: which nodes are listed,
    submittable or submit buttons, the filters built on those predicates, and
    how the submitter of a form is found. */
module Utils {
  import opened Common

  /** The parts of a DOM node the engine reads. Host-provided facts (the
      host's own `willValidate`, `closest('datalist')`, the form owner) are
      fields rather than computations. */
  datatype Element = Element(
    id: Id,
    html: bool,                    // node instanceof HTMLElement
    localName: string,
    typeAttr: string,              // the reflected `type` property
    formAssociated: Option<bool>,  // static formAssociated of the constructor, when it declares one
    disabled: bool,
    readOnly: bool,                // has the readonly attribute
    hidden: bool,
    inDatalist: bool,              // has a datalist ancestor
    formNoValidate: bool,
    form: Option<Id>,              // the form owner
    willValidate: bool,            // the host's own willValidate property
    protoValue: bool,              // the immediate prototype has an own `value` accessor
    attributeNames: seq<string>,   // getAttributeNames(), in DOM order
    elements: seq<Id>,             // the `elements` collection of a form or fieldset, in tree order
    height: nat)                   // length of the longest chain of descendants below the node

  /** A document: nodes by identity. */
  type Dom = map<Id, Element>

  /** Every node is stored under its own identity, and an `elements`
      collection only holds descendants, which sit lower in the tree. */
  predicate WellFormed(dom: Dom) {
    forall id | id in dom ::
      dom[id].id == id &&
      forall c | c in dom[id].elements :: c in dom && dom[c].height < dom[id].height
  }

  /** All `ids` are nodes of the document sitting lower than `bound`. */
  predicate Below(dom: Dom, ids: seq<Id>, bound: nat) {
    forall i | 0 <= i < |ids| :: ids[i] in dom && dom[ids[i]].height < bound
  }

  const ListedNames: seq<string> :=
    ["button", "fieldset", "input", "object", "output", "select", "textarea"]
  const SubmittableNames: seq<string> :=
    ["button", "input", "object", "select", "textarea"]

  predicate IsHtml(e: Element, name: string) {
    e.html && e.localName == name
  }

  predicate IsForm(e: Element) { IsHtml(e, "form") }

  predicate IsFieldSet(e: Element) { IsHtml(e, "fieldset") }

  /** Forms and fieldsets are the nodes that carry an `elements` collection. */
  predicate HasElements(e: Element) { IsForm(e) || IsFieldSet(e) }

  /** isListedElement: a listed tag, or a constructor that declares formAssociated. */
  predicate IsListedElement(e: Element) {
    e.html && (e.localName in ListedNames || e.formAssociated.Some?)
  }

  /** isSubmittableElement: a submittable tag, or a constructor that declares formAssociated. */
  predicate IsSubmittableElement(e: Element) {
    e.html && (e.localName in SubmittableNames || e.formAssociated.Some?)
  }

  /** isSubmitButton: a submit button element or a submit/image input. */
  predicate IsSubmitButton(e: Element) {
    || (IsHtml(e, "button") && e.typeAttr == "submit")
    || (IsHtml(e, "input") && e.typeAttr in ["submit", "image"])
  }

  /** Every submittable element is a listed element. */
  lemma SubmittableIsListed(e: Element)
    ensures IsSubmittableElement(e) ==> IsListedElement(e)
  {
  }

  /** fieldset and output are listed but not submittable; the five other
      listed tags are both. */
  lemma ListedTags(e: Element)
    requires e.html && e.formAssociated.None?
    ensures e.localName in ["fieldset", "output"] ==> IsListedElement(e) && !IsSubmittableElement(e)
    ensures e.localName in SubmittableNames ==> IsListedElement(e) && IsSubmittableElement(e)
    ensures IsListedElement(e) <==> e.localName in ListedNames
  {
  }

  /** A constructor declaring formAssociated makes any HTML element listed and
      submittable, whatever its tag and whatever the declared value. */
  lemma FormAssociatedIsSubmittable(e: Element)
    requires e.html && e.formAssociated.Some?
    ensures IsListedElement(e) && IsSubmittableElement(e)
  {
  }

  /** Every submit button is a submittable element, so the first submit
      button of a form is among its submittable elements. */
  lemma SubmitButtonIsSubmittable(e: Element)
    ensures IsSubmitButton(e) ==> IsSubmittableElement(e) && !IsFieldSet(e) && !IsForm(e)
  {
  }

  /** filterSubmitButtons */
  function FilterSubmitButtons(es: seq<Element>): (r: seq<Element>)
    ensures forall i | 0 <= i < |r| :: r[i] in es && IsSubmitButton(r[i])
    ensures forall i | 0 <= i < |es| && IsSubmitButton(es[i]) :: es[i] in r
  {
    Filter(es, IsSubmitButton)
  }

  /** filterSubmittableElements */
  function FilterSubmittableElements(es: seq<Element>): (r: seq<Element>)
    ensures forall i | 0 <= i < |r| :: r[i] in es && IsSubmittableElement(r[i])
    ensures forall i | 0 <= i < |es| && IsSubmittableElement(es[i]) :: es[i] in r
  {
    Filter(es, IsSubmittableElement)
  }

  /** Both filters keep relative order: they distribute over concatenation. */
  lemma FiltersKeepOrder(a: seq<Element>, b: seq<Element>)
    ensures FilterSubmitButtons(a + b) == FilterSubmitButtons(a) + FilterSubmitButtons(b)
    ensures FilterSubmittableElements(a + b) == FilterSubmittableElements(a) + FilterSubmittableElements(b)
  {
    FilterAppend(a, b, IsSubmitButton);
    FilterAppend(a, b, IsSubmittableElement);
  }

  /** getSubmitButton over the form's elements: the first submit button, if any. */
  function GetSubmitButton(formElements: seq<Element>): (r: Option<Element>)
    ensures r.None? <==> forall i | 0 <= i < |formElements| :: !IsSubmitButton(formElements[i])
    ensures r.Some? ==> exists i | 0 <= i < |formElements| ::
      formElements[i] == r.value && IsSubmitButton(r.value) &&
      forall j | 0 <= j < i :: !IsSubmitButton(formElements[j])
  {
    var buttons := FilterSubmitButtons(formElements);
    if |buttons| == 0 then None
    else
      FilterFirst(formElements, IsSubmitButton);
      Some(buttons[0])
  }

  /** getSubmittableElements over the `elements` collection of a form or fieldset. */
  function GetSubmittableElements(elements: seq<Element>): (r: seq<Element>)
    ensures forall i | 0 <= i < |r| :: r[i] in elements && IsSubmittableElement(r[i])
    ensures forall i | 0 <= i < |elements| && IsSubmittableElement(elements[i]) :: elements[i] in r
  {
    FilterSubmittableElements(elements)
  }

  /** getSubmitter: the focused element when it is a submit button owned by `form`. */
  function GetSubmitter(active: Option<Element>, form: Id): (r: Option<Element>)
    ensures r.Some? <==> active.Some? && IsSubmitButton(active.value) && active.value.form == Some(form)
    ensures r.Some? ==> r == active
  {
    match active
    case Some(e) => if IsSubmitButton(e) && e.form == Some(form) then active else None
    case None => None
  }

  /** The nodes of an `elements` collection, in order. */
  function Resolve(dom: Dom, ids: seq<Id>): (r: seq<Element>)
    requires forall i | 0 <= i < |ids| :: ids[i] in dom
    ensures |r| == |ids|
    ensures forall i | 0 <= i < |ids| :: r[i] == dom[ids[i]]
  {
    if ids == [] then [] else [dom[ids[0]]] + Resolve(dom, ids[1..])
  }
}

=== FILE: validator.dfy ===
/** lib/validator.ts: the per-control validation closure and the cache that
    createValidator keeps. A run of a closure is split in two steps: `Begin`
    (reset, gate, dispatch the validate events, pick the constraints to
    invoke) and `Settle` (the invoked constraints' setValidity calls take
    effect, then `validated` is dispatched once). */
module Validator {
  import opened Common
  import opened Api
  import opened Constraint
  import opened Utils

  // ---------------------------------------------------------------------------
  // The cache key

  /** `getAttributeNames().toString()`: the names in DOM order joined by ','. */
  function Signature(names: seq<string>): string {
    if names == [] then ""
    else if |names| == 1 then names[0]
    else names[0] + "," + Signature(names[1..])
  }

  predicate CommaFree(name: string) {
    name != "" && forall i | 0 <= i < |name| :: name[i] != ','
  }

  /** The characters before the first ',' of a string. */
  function FirstField(s: string): string {
    if s == [] || s[0] == ',' then [] else [s[0]] + FirstField(s[1..])
  }

  lemma {:induction false} FirstFieldConcat(w: string, t: string)
    requires forall i | 0 <= i < |w| :: w[i] != ','
    requires t == [] || t[0] == ','
    ensures FirstField(w + t) == w
  {
    if w != [] {
      assert (w + t)[0] == w[0];
      assert (w + t)[1..] == w[1..] + t;
      FirstFieldConcat(w[1..], t);
    } else {
      assert w + t == t;
    }
  }

  /** A signature starts with its first name and goes on with ',' and the
      signature of the remaining names. */
  lemma SignatureSplit(a: seq<string>)
    requires |a| > 0 && CommaFree(a[0])
    ensures FirstField(Signature(a)) == a[0]
    ensures Signature(a)[|a[0]|..] == if |a| == 1 then "" else "," + Signature(a[1..])
  {
    var t := if |a| == 1 then "" else "," + Signature(a[1..]);
    assert Signature(a) == a[0] + t;
    FirstFieldConcat(a[0], t);
  }

  /** For non-empty names without commas (every name `setAttribute` accepts)
      the signature determines the list. */
  lemma {:induction false} SignatureInjective(a: seq<string>, b: seq<string>)
    requires forall i | 0 <= i < |a| :: CommaFree(a[i])
    requires forall i | 0 <= i < |b| :: CommaFree(b[i])
    requires Signature(a) == Signature(b)
    ensures a == b
  {
    if a != [] && b != [] {
      var x := Signature(a);
      SignatureSplit(a);
      SignatureSplit(b);
      assert a[0] == b[0];
      if |a| > 1 && |b| > 1 {
        assert Signature(a[1..]) == x[|a[0]|..][1..] == Signature(b[1..]);
        SignatureInjective(a[1..], b[1..]);
        assert a == [a[0]] + a[1..] && b == [b[0]] + b[1..];
      }
    } else if a != [] {
      assert a[0] != "";
      SignatureSplit(a);
    }
  }

  /** The attribute names are read in DOM order: two elements with the same
      attributes in a different order get different keys, yet select the same
      constraints. */
  lemma OrderMatters(cs: Constraints)
    ensures Signature(["required", "pattern"]) != Signature(["pattern", "required"])
    ensures GetByAttributes(cs, ["required", "pattern"]) == GetByAttributes(cs, ["pattern", "required"])
  {
    assert Signature(["required", "pattern"])[0] == 'r';
    assert Signature(["pattern", "required"])[0] == 'p';
    SelectBySet(cs, ["required", "pattern"], ["pattern", "required"]);
  }

  /** An attribute name containing ',' (which the HTML parser accepts) makes
      two different attribute lists share one key. */
  lemma SignatureCollision()
    ensures Signature(["a,b"]) == Signature(["a", "b"])
    ensures ["a,b"] != ["a", "b"]
  {
    assert Signature(["a", "b"]) == "a" + "," + Signature(["b"]);
    assert Signature(["b"]) == "b";
  }

  // ---------------------------------------------------------------------------
  // The validation closure

  /** What `validate(controlApi)(internals)(subset)` binds: the control whose
      ControlApi and target it captured, and the selected constraints. */
  datatype Closure = Closure(target: Id, subset: Constraints)

  /** The filter over the bound constraints: one cancelable validate event per
      constraint in key order, then the names whose event was not cancelled. */
  function Gate(target: Id, subset: seq<(string, Constraint)>, cancels: Cancels)
    : (r: (seq<Event>, seq<string>))
    ensures |r.0| == |subset| && |r.1| <= |subset|
    ensures forall i | 0 <= i < |subset| :: r.0[i] == Event(target, Validate(subset[i].0))
  {
    if subset == [] then ([], [])
    else
      var rest := Gate(target, subset[1..], cancels);
      var name := subset[0].0;
      var keep := !cancels(target, Validate(name));
      ([Event(target, Validate(name))] + rest.0, (if keep then [name] else []) + rest.1)
  }

  /** Exactly the constraints whose validate event was not cancelled are
      invoked. */
  lemma {:induction false} GateInvoked(target: Id, subset: seq<(string, Constraint)>, cancels: Cancels)
    ensures forall n :: n in Gate(target, subset, cancels).1 <==>
      exists i | 0 <= i < |subset| :: subset[i].0 == n && !cancels(target, Validate(n))
  {
    if subset != [] {
      var tail := subset[1..];
      GateInvoked(target, tail, cancels);
      var rest := Gate(target, tail, cancels).1;
      var name := subset[0].0;
      var r := Gate(target, subset, cancels).1;
      assert r == (if !cancels(target, Validate(name)) then [name] else []) + rest;
      forall n ensures n in r <==> exists i | 0 <= i < |subset| :: subset[i].0 == n && !cancels(target, Validate(n)) {
        if n in rest {
          var j :| 0 <= j < |tail| && tail[j].0 == n && !cancels(target, Validate(n));
          assert subset[j + 1].0 == n;
        }
        if exists i | 0 <= i < |subset| :: subset[i].0 == n && !cancels(target, Validate(n)) {
          var i :| 0 <= i < |subset| && subset[i].0 == n && !cancels(target, Validate(n));
          if i > 0 { assert tail[i - 1].0 == n; }
        }
      }
    }
  }

  /** With distinct constraint names, each invoked constraint is invoked once. */
  lemma {:induction false} GateOnce(target: Id, subset: seq<(string, Constraint)>, cancels: Cancels)
    requires UniqueKeys(subset)
    ensures Distinct(Gate(target, subset, cancels).1)
  {
    if subset != [] {
      var tail := subset[1..];
      assert UniqueKeys(tail) by {
        forall i, j | 0 <= i < j < |tail| ensures tail[i].0 != tail[j].0 {
          assert tail[i] == subset[i + 1] && tail[j] == subset[j + 1];
        }
      }
      GateOnce(target, tail, cancels);
      GateInvoked(target, tail, cancels);
      var rest := Gate(target, tail, cancels).1;
      var name := subset[0].0;
      var r := Gate(target, subset, cancels).1;
      assert r == (if !cancels(target, Validate(name)) then [name] else []) + rest;
      if !cancels(target, Validate(name)) {
        forall j | 0 <= j < |tail| ensures tail[j].0 != name {
          assert tail[j] == subset[j + 1];
        }
        forall i, j | 0 <= i < j < |r| ensures r[i] != r[j] {
          assert r[j] == rest[j - 1];
          if i > 0 { assert r[i] == rest[i - 1]; }
        }
      }
    }
  }

  /** The outcome of the synchronous part of a run. */
  datatype Started = Started(
    state: ControlState,       // the control's state after resetValidityState
    events: seq<Event>,        // the validate events dispatched
    invoked: seq<string>,      // the constraints whose validate was called, in order
    pending: bool)             // an allSettled is waiting to fire `validated`

  /** The synchronous part of a run: reset the control's state, stop when the
      target will not validate or nothing is bound, otherwise dispatch and
      invoke. */
  function Begin(c: Closure, willValidate: bool, s: ControlState, states: seq<string>, cancels: Cancels)
    : (r: Started)
    ensures r.state == ResetValidity(s, states)
    ensures r.pending <==> willValidate && c.subset != []
    ensures !r.pending ==> r.events == [] && r.invoked == []
    ensures r.pending ==> r.events == Gate(c.target, c.subset, cancels).0
    ensures r.pending ==> r.invoked == Gate(c.target, c.subset, cancels).1
  {
    var reset := ResetValidity(s, states);
    if !willValidate || |c.subset| == 0 then Started(reset, [], [], false)
    else
      var (events, invoked) := Gate(c.target, c.subset, cancels);
      Started(reset, events, invoked, true)
  }

  /** One setValidity request a constraint makes through its internals. */
  datatype Call = Call(flags: Flags, message: Option<string>)

  /** The invoked constraints' setValidity calls, in the order they happen; a
      call that throws rejects its constraint's promise and changes nothing. */
  function ApplyCalls(willValidate: bool, s: ControlState, calls: seq<Call>): (r: ControlState)
    decreases |calls|
  {
    if calls == [] then s
    else
      var o := SetValidity(willValidate, s, calls[0].flags, calls[0].message);
      ApplyCalls(willValidate, if o.Done? then o.value else s, calls[1..])
  }

  /** allSettled(...).finally(...): after every invoked constraint has
      resolved or rejected, `validated` is dispatched on the target once. */
  function Settle(c: Closure, willValidate: bool, st: Started, calls: seq<Call>): (r: Started)
    requires st.pending
    ensures r.events == st.events + [Event(c.target, Validated)]
    ensures r.invoked == st.invoked && !r.pending
    ensures calls == [] ==> r.state == st.state
  {
    Started(ApplyCalls(willValidate, st.state, calls), st.events + [Event(c.target, Validated)], st.invoked, false)
  }

  function CountValidated(events: seq<Event>): nat {
    if events == [] then 0 else (if events[0].name == Validated then 1 else 0) + CountValidated(events[1..])
  }

  lemma {:induction false} CountAppend(a: seq<Event>, b: seq<Event>)
    ensures CountValidated(a + b) == CountValidated(a) + CountValidated(b)
  {
    if a == [] {
      assert a + b == b;
    } else {
      assert (a + b)[1..] == a[1..] + b;
      CountAppend(a[1..], b);
    }
  }

  /** A run dispatches `validated` exactly once when it gets past the gate,
      and never when it stops after the reset. */
  lemma {:induction false} ValidatedOnce(c: Closure, willValidate: bool, s: ControlState, states: seq<string>,
                                         cancels: Cancels, calls: seq<Call>)
    ensures var st := Begin(c, willValidate, s, states, cancels);
      CountValidated(st.events) == 0 &&
      (st.pending ==> CountValidated(Settle(c, willValidate, st, calls).events) == 1)
  {
    var st := Begin(c, willValidate, s, states, cancels);
    if st.pending {
      var g := Gate(c.target, c.subset, cancels).0;
      NoValidatedInGate(g, c.target);
      CountAppend(st.events, [Event(c.target, Validated)]);
    }
  }

  lemma {:induction false} NoValidatedInGate(events: seq<Event>, target: Id)
    requires forall i | 0 <= i < |events| :: events[i].name.Validate?
    ensures CountValidated(events) == 0
  {
    if events != [] {
      NoValidatedInGate(events[1..], target);
    }
  }

  /** The calls made while the constraints run keep the control's coherence
      invariant, so a run ends in a coherent state. */
  lemma {:induction false} ApplyCallsCoherent(willValidate: bool, s: ControlState, calls: seq<Call>)
    requires Coherent(s)
    requires forall i | 0 <= i < |calls| :: ValidFlag !in KeySet(calls[i].flags)
    ensures Coherent(ApplyCalls(willValidate, s, calls))
    decreases |calls|
  {
    if calls != [] {
      var o := SetValidity(willValidate, s, calls[0].flags, calls[0].message);
      if o.Done? {
        SetValidityCoherent(willValidate, s, calls[0].flags, calls[0].message);
      }
      ApplyCallsCoherent(willValidate, if o.Done? then o.value else s, calls[1..]);
    }
  }

  /** A run starts from the reset state: the flags of `states` are false and
      have no message, whatever the previous run left behind, and flags no
      constraint declares (customError) survive. */
  lemma BeginResets(c: Closure, willValidate: bool, s: ControlState, states: seq<string>, cancels: Cancels)
    requires ValidFlag !in states
    ensures var st := Begin(c, willValidate, s, states, cancels);
      && (forall f | f in states :: !st.state.validity[f] && Lookup(st.state.messages, f) == None)
      && (forall k | k in s.validity && k !in states && k != ValidFlag :: st.state.validity[k] == s.validity[k])
  {
  }

  // ---------------------------------------------------------------------------
  // createValidator: the cache

  /** The cache of createValidator: the own properties of a plain object,
      from signature to closure. */
  type Cache = map<string, Closure>

  /** The properties a plain object inherits from Object.prototype, so that
      `key in cache` holds for them although the cache never stored them.
      (Names with capitals are reachable only through setAttributeNS, since
      HTML lowercases attribute names.) */
  const InheritedKeys: set<string> := {
    "constructor", "hasOwnProperty", "isPrototypeOf", "propertyIsEnumerable",
    "toLocaleString", "toString", "valueOf", "__lookupGetter__", "__lookupSetter__",
    "__defineGetter__", "__defineSetter__", "__proto__"}

  /** The inherited properties whose call with no argument throws a
      TypeError: `__proto__` is not a function, and the two definers demand a
      function argument. The other inherited methods return without effect. */
  const ThrowingKeys: set<string> := {"__defineGetter__", "__defineSetter__", "__proto__"}

  /** `key in cache` on the plain object. */
  predicate Present(cache: Cache, key: string) {
    key in cache || key in InheritedKeys
  }

  /** What `cache[key]()` does: a closure is called, an inherited method
      runs and validates nothing, or the call throws a TypeError. */
  datatype Dispatch = Called(cache: Cache, closure: Closure) | Inherited(cache: Cache) | NotCallable(cache: Cache)

  /** `run(element)`: build a closure when the key is not found and the
      element has a ref, then call `cache[key]`. Without a ref and without a
      cached closure the call fails (`cache[key]` is undefined). */
  function Run(cache: Cache, refs: set<Id>, cs: Constraints, e: Element): (r: Dispatch)
    ensures var key := Signature(e.attributeNames);
      && r.cache.Keys == cache.Keys + (if !Present(cache, key) && e.id in refs then {key} else {})
      && (forall k | k in cache :: k in r.cache && r.cache[k] == cache[k])
      && (!Present(cache, key) && e.id in refs ==>
            r == Called(r.cache, Closure(e.id, GetByAttributes(cs, e.attributeNames))))
      && (key in cache ==> r == Called(cache, cache[key]))
      && (r.NotCallable? <==> key !in cache && (key in ThrowingKeys || (key !in InheritedKeys && e.id !in refs)))
      && (r.Inherited? <==> key !in cache && key in InheritedKeys - ThrowingKeys)
      && (r.Called? ==> r.cache[key] == r.closure)
  {
    var key := Signature(e.attributeNames);
    if !Present(cache, key) && e.id in refs then
      var closure := Closure(e.id, GetByAttributes(cs, e.attributeNames));
      Called(cache[key := closure], closure)
    else if key in cache then Called(cache, cache[key])
    else if key in ThrowingKeys then NotCallable(cache)
    else if key in InheritedKeys then Inherited(cache)
    else NotCallable(cache)
  }

  /** An element whose attribute names join to an inherited property name
      is never validated, ref or not: no closure is built, and the call
      either does nothing or throws. */
  lemma InheritedKeyNeverValidates(cache: Cache, refs: set<Id>, cs: Constraints, e: Element)
    requires Signature(e.attributeNames) in InheritedKeys && Signature(e.attributeNames) !in cache
    ensures !Run(cache, refs, cs, e).Called? && Run(cache, refs, cs, e).cache == cache
  {
  }

  /** For instance the single attribute `constructor`: the call runs
      `Object()` and validates nothing. */
  lemma ConstructorAttribute(refs: set<Id>, cs: Constraints, e: Element)
    requires e.attributeNames == ["constructor"] && e.id in refs
    ensures Run(map[], refs, cs, e) == Inherited(map[])
  {
  }

  /** Every cached closure was built for some element whose attribute names
      have that signature, from the subset those names select. */
  ghost predicate CacheBuilt(cache: Cache, cs: Constraints) {
    forall k | k in cache :: exists names :: Signature(names) == k && cache[k].subset == GetByAttributes(cs, names)
  }

  /** Run keeps the cache well built; a closure is built only on a miss and
      then reused by every later run with the same signature. */
  lemma RunKeepsCache(cache: Cache, refs: set<Id>, cs: Constraints, e: Element)
    requires CacheBuilt(cache, cs)
    ensures CacheBuilt(Run(cache, refs, cs, e).cache, cs)
    ensures Signature(e.attributeNames) in cache ==> Run(cache, refs, cs, e) == Called(cache, cache[Signature(e.attributeNames)])
    ensures Run(cache, refs, cs, e).Called? ==>
      var again := Run(Run(cache, refs, cs, e).cache, refs, cs, e);
      again == Called(Run(cache, refs, cs, e).cache, Run(cache, refs, cs, e).closure)
  {
    var r := Run(cache, refs, cs, e);
    var key := Signature(e.attributeNames);
    forall k | k in r.cache
      ensures exists names :: Signature(names) == k && r.cache[k].subset == GetByAttributes(cs, names)
    {
      if k == key && key !in cache {
        assert Signature(e.attributeNames) == k;
      }
    }
  }

  /** The cache is shared by all controls: once one control has run, a second
      control with the same attribute names runs the first control's closure,
      which resets, gates and validates the first control. */
  lemma SharedCacheExhibit(refs: set<Id>, cs: Constraints, a: Element, b: Element)
    requires a.id in refs && b.id in refs && a.id != b.id
    requires a.attributeNames == b.attributeNames && Signature(a.attributeNames) !in InheritedKeys
    ensures var first := Run(map[], refs, cs, a);
      var second := Run(first.cache, refs, cs, b);
      second.Called? && second.closure.target == a.id && second.closure.target != b.id
  {
  }

  /** A run for an element without a ref and without a cached closure caches
      nothing and fails, unless an inherited method answers the call. */
  lemma MissWithoutRef(cache: Cache, refs: set<Id>, cs: Constraints, e: Element)
    requires e.id !in refs && Signature(e.attributeNames) !in cache
    ensures Run(cache, refs, cs, e) ==
      if Signature(e.attributeNames) in InheritedKeys - ThrowingKeys then Inherited(cache) else NotCallable(cache)
  {
  }

  // ---------------------------------------------------------------------------
  // The cache keyed by control and attribute list

  type KeyedCache = map<(Id, seq<string>), Closure>

  /** Corrected run: the key is the control together with its attribute-name
      list, so a closure is only ever called for the control it was built for;
      the keyed cache is a Map, which inherits no keys. */
  function RunKeyed(cache: KeyedCache, refs: set<Id>, cs: Constraints, e: Element): (r: (KeyedCache, Option<Closure>))
    ensures r.1.None? <==> (e.id, e.attributeNames) !in cache && e.id !in refs
    ensures forall k | k in cache :: k in r.0 && r.0[k] == cache[k]
  {
    var key := (e.id, e.attributeNames);
    if key !in cache && e.id in refs then
      var closure := Closure(e.id, GetByAttributes(cs, e.attributeNames));
      (cache[key := closure], Some(closure))
    else if key in cache then (cache, Some(cache[key]))
    else (cache, None)
  }

  /** Every entry belongs to the control of its key and binds exactly the
      constraints that control's attribute names select. */
  predicate KeyedSound(cache: KeyedCache, cs: Constraints) {
    forall k | k in cache :: cache[k] == Closure(k.0, GetByAttributes(cs, k.1))
  }

  /** With the keyed cache every run validates the element that triggered it,
      against the constraints its current attribute names select. */
  lemma RunKeyedTarget(cache: KeyedCache, refs: set<Id>, cs: Constraints, e: Element)
    requires KeyedSound(cache, cs)
    ensures KeyedSound(RunKeyed(cache, refs, cs, e).0, cs)
    ensures RunKeyed(cache, refs, cs, e).1.Some? ==>
      RunKeyed(cache, refs, cs, e).1.value == Closure(e.id, GetByAttributes(cs, e.attributeNames))
  {
  }

  /** The keyed cache has no inherited keys: a control whose only attribute
      is `constructor` runs its own closure. */
  lemma KeyedRunsConstructor(refs: set<Id>, cs: Constraints, e: Element)
    requires e.attributeNames == ["constructor"] && e.id in refs
    ensures RunKeyed(map[], refs, cs, e).1 == Some(Closure(e.id, GetByAttributes(cs, e.attributeNames)))
  {
  }

  /** The keyed cache no longer mixes controls up: in the scenario of
      SharedCacheExhibit the second control runs its own closure. */
  lemma KeyedCacheSeparates(refs: set<Id>, cs: Constraints, a: Element, b: Element)
    requires a.id in refs && b.id in refs && a.id != b.id
    requires a.attributeNames == b.attributeNames
    ensures var first := RunKeyed(map[], refs, cs, a);
      var second := RunKeyed(first.0, refs, cs, b);
      second.1 == Some(Closure(b.id, GetByAttributes(cs, b.attributeNames)))
  {
  }
}
